=== FILE: README.md ===
# TgoRTC participant directory and session model

TgoRTC is a Swift SDK layered over LiveKit for audio and video rooms, with a small demo app.
This project models its core in Dafny:

- the **participant directory** (`ParticipantManager`), a map from uid to participant record
  plus the room's expected-uid list (`uidList`);
- the **participant record** (`TgoParticipant`), with its joined, timed-out and disposed flags,
  its media flags and its one-shot Joined / Left / TimedOut / TrackPublished signals;
- the **session coordinator** (`RoomManager`): join, connect outcome, leave, the one-second
  timeout checker and the connection-state mapping;
- the **earlier copy** of both managers under `TgoRTCSDK/Classes/manager`, as separate modules
  (`EarlyDirectory`, `EarlyCoordinator`). It marks timed-out records instead of evicting them,
  and it builds its listing from `uidList`;
- the small pure helpers:
  - `ListenerToken`;
  - `RoomInfo`;
  - `VideoInfo` and video-info listeners;
  - the API client's base-URL normalisation and error texts;
  - the audio-output device list, selection and speakerphone state;
  - the demo screens' status flags, grid, uid labels, room guard and `Color(hex:)` channels.

## How the model is built

The singletons become one immutable `Session.State`. It holds:
- the current `RoomInfo`;
- the LiveKit room snapshot;
- the running timeout checker: `Some(timeoutSeconds)` or `None`;
- the local record;
- the remote map.

Every operation is a pure function. It returns the new state together with the events it emits:
- `NewParticipant(uid)`, for the new-participant listeners;
- `StatusChanged(roomName, status)`, for the connection-status listeners;
- `RecordSignal(uid, signal)`, for a record's one-shot callbacks.

LiveKit participants and rooms are opaque snapshots (module `Transport`). The outcome of
connecting and of the initial track enables is a parameter. Time is integer seconds. One
checker firing is one explicit `Tick(st, now)` step. Swift dictionary iteration order is
unspecified, so the current listing takes an `order` parameter that enumerates the map's keys.

Modules:

| module | files |
|---|---|
| `Optional`, `Seqs`, `Text` | generic helpers |
| `Transport` | LiveKit snapshots |
| `Participants` | `TgoRTCSDK/participant/TgoParticipant.swift` |
| `Rooms` | `TgoRTCSDK/Classes/entity/RoomInfo.swift` |
| `Session` | the shared state, `ConnectStatus`, checker start/stop |
| `Directory` | `TgoRTCSDK/manager/ParticipantManager.swift` |
| `Coordinator` | `TgoRTCSDK/manager/RoomManager.swift` |
| `EarlyDirectory` | `TgoRTCSDK/Classes/manager/ParticipantManager.swift` |
| `EarlyCoordinator` | `TgoRTCSDK/Classes/manager/RoomManager.swift` |
| `Listeners` | `TgoRTCSDK/Classes/utils/ListenerToken.swift` and every `add…Listener` |
| `Video` | `TgoRTCSDK/entity/VideoInfo.swift` and video-info delivery |
| `Api` | `TgoRTCIOS/Services/TgoRTCApi.swift` |
| `Audio` | `TgoRTCSDK/manager/AudioManager.swift` |
| `CallScreen` | `TgoRTCIOS/Views/CallView.swift` |
| `HomeScreen` | `TgoRTCIOS/Views/HomeView.swift` |

### Readings of the code

- **`isJoined` and `notifyLeave(reason:)`.** Both managers read `participant.isJoined` and
  call `notifyLeave(reason:)`. Neither is declared in `TgoParticipant.swift`. They are read as
  `hasJoined` and `notifyLeave()`.
- **Records created with a handle.** `TgoParticipant.init` never sets `hasJoined`, even when it
  is given a handle. So a record that `setParticipantJoin` or the listing creates already bound
  has not joined, and the current tick can evict it once the timeout has passed.
  `Coordinator.BoundJoinerEvicted` exhibits this.
- **The earlier record API.** The earlier managers call `setTimeout(_:)`, `isJoined()` and
  `notifyJoined()` on a record type whose file is not part of this model. They are mapped onto
  `markTimeout(_:)`, `hasJoined` and a Joined signal.
- **Shared operations.** The earlier `getLocalParticipant`, `setParticipantJoin`,
  `setParticipantLeave` and `clear` have the same bodies as the current ones. They are modelled
  by the `Directory` members.
- **A failed connect.** When `connectInternal` fails, it drops the room and its information but
  does not clear the directory. The pending records stay. It does not stop the timeout checker
  either; see "## Findings".
- **Two behaviours of the earlier copy a reader may not expect:**
  - The earlier listing's second loop does not skip the login uid.
  - The earlier Connected handler fires Joined three times on a first connect: on binding, on
    rebinding at the second lookup, and on `notifyJoined()`.
- **Joined before Left on Disconnected.** In both managers the Disconnected handler reaches the
  local record through `getLocalParticipant()`. With a room installed, that lookup rebinds an
  existing record to the room's local participant, which fires Joined before `notifyLeave()`
  fires Left. A second Disconnected fires Joined again, without Left, and rebinds the disposed
  record.

## Model

| member | source | states |
|---|---|---|
| Participants.QualityRoundTrip | TgoRTCSDK/participant/TgoParticipant.swift:301-311 | The quality translation is one-to-one: every LiveKit quality is recovered from its `TgoConnectionQuality`, and only LiveKit's unknown becomes unknown. |
| Participants.AnyLive | TgoRTCSDK/participant/TgoParticipant.swift:178-182 | A source counts as on exactly when some publication of it is unmuted. |
| Participants.UpdateState | TgoRTCSDK/participant/TgoParticipant.swift:172-184 | Only the three media flags change. A local handle wins. With only a remote handle, mic or camera is on iff an unmuted publication of that source exists. With no handle, nothing changes. |
| Participants.Create | TgoRTCSDK/participant/TgoParticipant.swift:58-65 | A new record is not joined, not timed out and not disposed, whatever handle it is given. Its media flags come from the handle. |
| Participants.SetLocal | TgoRTCSDK/participant/TgoParticipant.swift:76-83 | Every call fires exactly one Joined and marks the record joined, even when repeated. The record is bound to the handle and mirrors its media state. Identity, timeout and disposal are untouched. |
| Participants.SetRemote | TgoRTCSDK/participant/TgoParticipant.swift:85-96 | Every call fires Joined first and marks the record joined. TrackPublished fires iff the handle has a publication. Left and TimedOut never fire. The timeout flag is kept. |
| Participants.MarkTimeoutTwice | TgoRTCSDK/participant/TgoParticipant.swift:98-103 | TimedOut fires on every call with `true`, not only on a change: two calls fire it twice. Marking never joins, un-joins or disposes a record. Clearing the flag fires nothing and leaves the record otherwise as it was. |
| Participants.Dispose | TgoRTCSDK/participant/TgoParticipant.swift:188-202 | The record ends disposed. The first call releases both handles. A disposed record is returned unchanged. Nothing else changes. |
| Participants.DisposeIdempotent | TgoRTCSDK/participant/TgoParticipant.swift:188-202 | Disposing twice is disposing once. |
| Participants.NotifyLeave | TgoRTCSDK/participant/TgoParticipant.swift:105-109 | Left fires iff the record was not yet disposed, and the record ends disposed. |
| Participants.NotifyLeaveOnce | TgoRTCSDK/participant/TgoParticipant.swift:105-109 | A second leave fires nothing and changes nothing. |
| Participants.SetSourceFlag | TgoRTCSDK/participant/TgoParticipant.swift:208-221 | A mute change sets the microphone or camera flag to the unmuted state. Other sources change nothing. |
| Participants.Effect | TgoRTCSDK/participant/TgoParticipant.swift:208-297 | No delegate callback changes identity, handles or the joined, timed-out and disposed flags. |
| Participants.SignalsOf | TgoRTCSDK/participant/TgoParticipant.swift:239-297 | A delegate callback fires at most one signal, and never Joined, Left or TimedOut. |
| Participants.OnTransportEvent | TgoRTCSDK/participant/TgoParticipant.swift:208-297 | A disposed record ignores every callback. Otherwise the lifecycle is kept, and a mute change only updates the source flag. |
| Participants.DisposedIsSilent | TgoRTCSDK/participant/TgoParticipant.swift:188-297 | After dispose, any sequence of callbacks leaves the record unchanged and fires nothing. |
| Participants.ReplayKeepsLifecycle | TgoRTCSDK/participant/TgoParticipant.swift:208-297 | Any sequence of callbacks keeps uid, joined, timed-out and disposed state, and fires no Joined or Left. |
| Transport.FirstWithIdentity | TgoRTCSDK/manager/ParticipantManager.swift:68 | The lookup finds a participant carrying the uid iff one exists. |
| Transport.IdentitiesFind | TgoRTCSDK/manager/ParticipantManager.swift:79-89 | A uid is an identity of the room iff the lookup by that uid succeeds. |
| Rooms.Default | TgoRTCSDK/Classes/entity/RoomInfo.swift:20-40 | The defaults are two participants, a one-to-one audio room, a 30-second timeout, no expected uids and empty strings. |
| Rooms.FirstOther | TgoRTCSDK/Classes/entity/RoomInfo.swift:46-48 | The index found is the first uid that is not the login uid. Absence means every uid is the login uid. |
| Rooms.GetP2PToUID | TgoRTCSDK/Classes/entity/RoomInfo.swift:46-48 | The result is the first expected uid other than the login uid, else the creator. |
| Rooms.P2PPeerIsNotSelf | TgoRTCSDK/Classes/entity/RoomInfo.swift:42-48 | The peer is the login user only when the login user created the room. |
| Session.Tag | TgoRTCSDK/participant/TgoParticipant.swift:76-109 | Each fired signal becomes one event attributed to the record's uid, in order. |
| Session.DropExpected | TgoRTCSDK/manager/ParticipantManager.swift:272 | Every occurrence of the uid leaves the expected list. Nothing else in the session changes. |
| Session.AppendExpected | TgoRTCSDK/manager/ParticipantManager.swift:250-252 | The uid is added at the end of the expected list. Nothing else changes. |
| Session.CheckerLifecycle | TgoRTCSDK/manager/RoomManager.swift:169-191 | A start replaces any running checker, and a stop undoes any start. In a room, a restart after a stop runs with the room's timeout, and a restart beside a running checker keeps it. Outside a room, a restart after a stop leaves none running. |
| Session.RestartTimeoutCheckerIfNeeded | TgoRTCSDK/manager/RoomManager.swift:181-184 | A checker with the room's timeout starts only in a room with none running. Otherwise the session is untouched. |
| Directory.InitializePendingParticipants | TgoRTCSDK/manager/ParticipantManager.swift:96-109 | A pending record is filed for each expected uid that is not the login uid and has no record. Existing records and the rest of the session are untouched. |
| Directory.InitializePendingIdempotent | TgoRTCSDK/manager/ParticipantManager.swift:96-109 | A second initialisation, at any later time, changes nothing. |
| Directory.GetLocalParticipant | TgoRTCSDK/manager/ParticipantManager.swift:20-35 | Outside a room there is no local record. Inside, it is created once for the login uid and then reused. With a room, the reused record is bound to the room's local participant and joined, with one Joined. Nothing but the local record changes. |
| Directory.LocalLookupAgain | TgoRTCSDK/manager/ParticipantManager.swift:20-35 | The first lookup in a connected room creates the login uid's record, bound but not joined, without a signal. Each later lookup returns the same uid, joined and bound, and fires exactly one Joined. |
| Directory.CachedPassGrows | TgoRTCSDK/manager/ParticipantManager.swift:63-77 | The first listing loop never changes a record's identity, creation time or local handle, and never un-joins one. Records it does not visit are untouched. |
| Directory.CachedPassListsVisited | TgoRTCSDK/manager/ParticipantManager.swift:63-77 | The first loop lists only filed uids, never the login uid. |
| Directory.CachedPassSkips | TgoRTCSDK/manager/ParticipantManager.swift:63-77 | A record the first loop does not visit is left exactly as it was. |
| Directory.CachedPassLists | TgoRTCSDK/manager/ParticipantManager.swift:63-77 | Each record the first loop lists is exactly the one it leaves filed under that uid. |
| Directory.CachedPassCovers | TgoRTCSDK/manager/ParticipantManager.swift:63-77 | The first loop lists every visited uid other than the login uid. |
| Directory.FreshPass | TgoRTCSDK/manager/ParticipantManager.swift:79-89 | The second loop emits nothing. Afterwards the filed uids are the previous ones plus the new transport identities. |
| Directory.FreshPassKeeps | TgoRTCSDK/manager/ParticipantManager.swift:79-89 | Each new identity gets a fresh, bound, not-joined record. No other record is touched. |
| Directory.FreshPassLists | TgoRTCSDK/manager/ParticipantManager.swift:79-89 | The second loop lists exactly the new identities. |
| Directory.FreshIdsAreNewIdentities | TgoRTCSDK/manager/ParticipantManager.swift:79-89 | The identities added are the transport's, less the login uid and the uids already listed. |
| Directory.GetRemoteParticipantsFiles | TgoRTCSDK/manager/ParticipantManager.swift:52-92 | Listing keeps every filed uid, and records only grow. Fresh records go exactly to transport identities that had none, never to the login uid. Only binding signals fire. |
| Directory.GetRemoteParticipants | TgoRTCSDK/manager/ParticipantManager.swift:52-92 | Outside a room the listing is empty and changes nothing. Only the remote records change. GetRemoteParticipantsFiles, GetRemoteParticipantsCovers and GetRemoteParticipantsAgree give its meaning. |
| Directory.GetRemoteParticipantsCovers | TgoRTCSDK/manager/ParticipantManager.swift:52-92 | The listing names exactly the filed uids other than the login uid. |
| Directory.GetRemoteParticipantsAgree | TgoRTCSDK/manager/ParticipantManager.swift:52-92 | Each listed record agrees with the record filed under its uid. |
| Directory.WithoutUid | TgoRTCSDK/manager/ParticipantManager.swift:42-45 | The filter keeps, in order, exactly the records with another uid. |
| Directory.GetAllParticipants | TgoRTCSDK/manager/ParticipantManager.swift:37-50 | In a room the local record comes first and is the one filed as local. No later entry repeats its uid. GetAllParticipantsCovers names the rest. |
| Directory.GetAllParticipantsCovers | TgoRTCSDK/manager/ParticipantManager.swift:37-50 | The local record comes first. Its uid never appears again. The rest are the filed uids other than the login uid. |
| Directory.SyncOneFiles | TgoRTCSDK/manager/ParticipantManager.swift:128-151 | One sync step keeps records filed under their uids and only grows them. It leaves the identity's record bound. |
| Directory.SyncPassFiles | TgoRTCSDK/manager/ParticipantManager.swift:113-152 | After the sync every transport identity other than the login uid has a bound record. Records are created only where none existed. |
| Directory.SyncOneAnnounces | TgoRTCSDK/manager/ParticipantManager.swift:128-151 | One sync step announces exactly the uid it files a new record for. It appends that uid to the expected list only when absent. |
| Directory.SyncPassAnnouncesNew | TgoRTCSDK/manager/ParticipantManager.swift:113-152 | The sync announces a uid exactly when it filed a new record for it. |
| Directory.SyncPassAnnouncesOnce | TgoRTCSDK/manager/ParticipantManager.swift:113-152 | The sync announces no uid twice. |
| Directory.SyncPassExtendsExpected | TgoRTCSDK/manager/ParticipantManager.swift:113-152 | The expected list only grows at its end. |
| Directory.SyncPassExpectsAnnounced | TgoRTCSDK/manager/ParticipantManager.swift:113-152 | Every announced uid ends up in the expected list. |
| Directory.SyncPassExpectedNoDup | TgoRTCSDK/manager/ParticipantManager.swift:113-152 | An expected list without repeats stays without repeats. |
| Directory.SyncPassKeepsKeys | TgoRTCSDK/manager/ParticipantManager.swift:113-152 | The sync never drops a record. |
| Directory.SyncExistingRemoteParticipants | TgoRTCSDK/manager/ParticipantManager.swift:113-152 | Without a room or room information, nothing happens. |
| Directory.MissedParticipants | TgoRTCSDK/manager/ParticipantManager.swift:154-186 | An empty list, no room or another room's name changes nothing. Otherwise only records and the expected list change. |
| Directory.EvictFacts | TgoRTCSDK/manager/ParticipantManager.swift:166-183 | Exactly the listed not-joined records are removed. Every other record stays as it was. Exactly the evicted uids leave the expected list, and the rest keep their order. |
| Directory.EvictSignals | TgoRTCSDK/manager/ParticipantManager.swift:166-183 | Eviction fires only Left, only from evicted records. |
| Directory.EvictSignalsAll | TgoRTCSDK/manager/ParticipantManager.swift:166-183 | When no filed record is disposed, every evicted record fires its Left. |
| Directory.JoinedSurvive | TgoRTCSDK/manager/ParticipantManager.swift:166-183 | A joined record is never evicted. |
| Directory.InviteParticipant | TgoRTCSDK/manager/ParticipantManager.swift:188-234 | No room, another room, no new uid or no free place leaves the session as it was and emits nothing. |
| Directory.AddInvitedFiles | TgoRTCSDK/manager/ParticipantManager.swift:218-230 | Each accepted uid gets a pending record created now. No other record changes. |
| Directory.AddInvitedAppends | TgoRTCSDK/manager/ParticipantManager.swift:218-230 | The accepted uids are appended in order to the expected list; the rest of the room information is unchanged. |
| Directory.AddInvitedAnnounces | TgoRTCSDK/manager/ParticipantManager.swift:218-230 | The accepted uids are announced in the same order, once per occurrence. |
| Directory.InviteAccepts | TgoRTCSDK/manager/ParticipantManager.swift:188-234 | Exactly the first min(new uids, free places) uids are accepted, in input order. The expected list never exceeds `maxParticipants`. |
| Directory.InviteDuplicateTwice | TgoRTCSDK/manager/ParticipantManager.swift:202-230 | As written, a uid given twice in one call is appended twice and announced twice. |
| Directory.InviteParticipantDistinct | TgoRTCSDK/manager/ParticipantManager.swift:188-234 | The corrected invitation keeps the same no-op guards. |
| Directory.InviteDistinctOnce | TgoRTCSDK/manager/ParticipantManager.swift:188-234 | The corrected invitation appends and announces each accepted uid exactly once. None of them had a record. The list stays within `maxParticipants`. |
| Directory.InviteDistinctAgrees | TgoRTCSDK/manager/ParticipantManager.swift:188-234 | Without repeats in the call, the corrected invitation equals the code as written. |
| Directory.SetParticipantJoin | TgoRTCSDK/manager/ParticipantManager.swift:236-258 | Without an identity nothing changes; otherwise only the uid's record changes and ends bound to the participant, a known uid keeps the expected list and announces nothing, and a new uid gets a fresh bound record, is appended to the expected list if absent and is announced exactly once. |
| Directory.SetParticipantLeave | TgoRTCSDK/manager/ParticipantManager.swift:260-273 | Without an identity nothing changes; otherwise the uid's record, if any, fires Left, and the uid loses its record and every expected-list entry, even when it had no record. |
| Directory.JoinThenLeave | TgoRTCSDK/manager/ParticipantManager.swift:236-273 | A join followed by the same participant's leave leaves no record and no expected entry for the uid. Other records are as before. |
| Directory.Clear | TgoRTCSDK/manager/ParticipantManager.swift:275-284 | No local record and no remote record remain. Every released record is disposed. |
| Directory.ClearReleasesDisposed | TgoRTCSDK/manager/ParticipantManager.swift:275-284 | Released records stay silent under any callbacks. A second clear releases nothing. |
| Coordinator.Join | TgoRTCSDK/manager/RoomManager.swift:73-101 | Join is refused while in a room. Otherwise the room information is set, pending records are filed and Connecting is announced, before any connect. |
| Coordinator.ConnectInternal | TgoRTCSDK/manager/RoomManager.swift:104-157 | On success a checker starts with the room's timeout. On any failure, Disconnected is announced, room and information are dropped, and the directory is kept. |
| Coordinator.FailedJoin | TgoRTCSDK/manager/RoomManager.swift:73-157 | A failed join announces Connecting then Disconnected and leaves no room. It does not start a checker itself: the checker is as it was before the join. The next join goes ahead. |
| Coordinator.FailedJoinAfterInviteKeepsChecker | TgoRTCSDK/manager/RoomManager.swift:151-156 | As written, an invite accepted during the connect restarts the checker. A failed connect then ends outside any room with the checker still running at the room's timeout. |
| Coordinator.ConnectInternalStopping | TgoRTCSDK/manager/RoomManager.swift:151-156 | The corrected connect fails with no checker, no room and no room information. It keeps the directory and announces what the code announces. On success it is the code's connect. |
| Coordinator.FailedJoinStopsChecker | TgoRTCSDK/manager/RoomManager.swift:73-184 | With the corrected connect, a failed join leaves no checker running, whatever invites were accepted meanwhile, and announces Disconnected. |
| Coordinator.SucceededJoin | TgoRTCSDK/manager/RoomManager.swift:73-157 | A successful join leaves the room installed and a checker running with the room's timeout. |
| Coordinator.LeaveRoom | TgoRTCSDK/manager/RoomManager.swift:159-167 | Leaving returns the session to the idle state. |
| Coordinator.Scan | TgoRTCSDK/manager/RoomManager.swift:201-218 | Every overdue listed record is collected, and the waiting count is zero iff no listed record is still waiting. |
| Coordinator.Tick | TgoRTCSDK/manager/RoomManager.swift:193-230 | Without a running checker a tick does nothing. A tick never changes the room or the local record. |
| Coordinator.StoppedTickIsNoop | TgoRTCSDK/manager/RoomManager.swift:186-191 | Once the checker is stopped, a tick changes nothing and delivers nothing. |
| Coordinator.ScanMarksOnlyOverdue | TgoRTCSDK/manager/RoomManager.swift:201-218 | Every collected uid's filed record is non-local, not joined and waited at least the timeout. |
| Coordinator.TickOutsideRoom | TgoRTCSDK/manager/RoomManager.swift:193-230 | Outside a room a tick changes nothing and the checker keeps running. |
| Coordinator.ListingEvictsOverdue | TgoRTCSDK/manager/RoomManager.swift:201-218 | Over a listing of every filed uid but the login uid, the uids handed over for eviction are exactly the overdue ones. |
| Coordinator.TickEvicts | TgoRTCSDK/manager/RoomManager.swift:193-223 | A tick evicts exactly the overdue records of the directory it lists. Every other record stays as it was. |
| Coordinator.NoneWaitingListed | TgoRTCSDK/manager/RoomManager.swift:201-218 | Nobody listed is waiting iff no filed record other than the login uid's is waiting. |
| Coordinator.ListingEmpty | TgoRTCSDK/manager/RoomManager.swift:195-229 | The listing is empty iff nothing but the login uid is filed. |
| Coordinator.TickStops | TgoRTCSDK/manager/RoomManager.swift:226-229 | The checker stops iff the listing was non-empty and nobody is left waiting. |
| Coordinator.BoundJoinerEvicted | TgoRTCSDK/manager/RoomManager.swift:205-223 | As written, a participant whose record was created already bound is evicted with a Left once overdue. |
| Coordinator.StatusOf | TgoRTCSDK/manager/RoomManager.swift:235-254 | Connecting and reconnecting report connecting. Connected and disconnected report themselves. |
| Coordinator.OnConnectionState | TgoRTCSDK/manager/RoomManager.swift:235-254 | Outside a room nothing happens. Otherwise the mapped status is issued first; the order in which listeners receive it is not modelled (see Concurrency under "## Left out"). |
| Coordinator.ConnectedBindsEveryone | TgoRTCSDK/manager/RoomManager.swift:241-245 | After Connected the local record has joined through the room's local participant, and every transport identity other than the login uid has a bound record. |
| Coordinator.DisconnectedDisposesLocal | TgoRTCSDK/manager/RoomManager.swift:246-248 | After Disconnected the local record is disposed, room information and remote records stay, and the events are the status, then Joined if a room is installed and a local record existed, then Left unless that record was already disposed. |
| EarlyDirectory.Refresh | TgoRTCSDK/Classes/manager/ParticipantManager.swift:76-81 | Binding a handle confirms the record: bound, joined and no longer timed out. |
| EarlyDirectory.Keep | TgoRTCSDK/Classes/manager/ParticipantManager.swift:83-85 | A timed-out record is left out unless timed-out records are wanted. |
| EarlyDirectory.UidPassFiles | TgoRTCSDK/Classes/manager/ParticipantManager.swift:62-87 | The first loop confirms every expected uid the transport knows. It files a handle-less record for an expected uid that had none. Every other record stays as it was. |
| EarlyDirectory.UidPassLists | TgoRTCSDK/Classes/manager/ParticipantManager.swift:62-87 | The first loop lists exactly the expected uids other than the login uid. Unless wanted, it leaves out those that stay timed out. |
| EarlyDirectory.UidPassSignals | TgoRTCSDK/Classes/manager/ParticipantManager.swift:62-87 | The first loop announces nobody and fires only Joined and TrackPublished. |
| EarlyDirectory.TransportPassFiles | TgoRTCSDK/Classes/manager/ParticipantManager.swift:89-107 | The second loop confirms every transport identity it handles and leaves other records alone. |
| EarlyDirectory.TransportPassLists | TgoRTCSDK/Classes/manager/ParticipantManager.swift:89-107 | The second loop lists exactly the transport identities the first loop did not handle, whether or not timed-out records are wanted. |
| EarlyDirectory.TransportPassSignals | TgoRTCSDK/Classes/manager/ParticipantManager.swift:89-107 | The second loop announces nobody and fires only binding signals. |
| EarlyDirectory.GetRemoteParticipantsFiles | TgoRTCSDK/Classes/manager/ParticipantManager.swift:50-110 | Every expected uid other than the login uid, and every transport identity, is filed. Every uid the transport knows ends confirmed. Other records are untouched. Nobody is announced. |
| EarlyDirectory.GetRemoteParticipants | TgoRTCSDK/Classes/manager/ParticipantManager.swift:50-110 | Outside a room the listing is empty and changes nothing. Only the remote records change. GetRemoteParticipantsFiles and GetRemoteParticipantsCovers give its meaning. |
| EarlyDirectory.GetRemoteParticipantsCovers | TgoRTCSDK/Classes/manager/ParticipantManager.swift:50-110 | The listing names the expected uids other than the login uid, less the timed-out ones unknown to the transport unless wanted, plus every transport identity. |
| EarlyDirectory.ListingWithTimeoutsIsComplete | TgoRTCSDK/Classes/manager/ParticipantManager.swift:50-110 | With timed-out records wanted, the listing names exactly the uids it filed under. |
| EarlyDirectory.GetAllParticipants | TgoRTCSDK/Classes/manager/ParticipantManager.swift:37-48 | The local record comes first, and its uid is excluded from the rest. |
| EarlyDirectory.GetAllParticipantsCovers | TgoRTCSDK/Classes/manager/ParticipantManager.swift:37-48 | With a local record carrying the login uid, the full listing names it, the expected uids not left out, and every transport identity. |
| EarlyDirectory.InviteParticipant | TgoRTCSDK/Classes/manager/ParticipantManager.swift:112-139 | No room, no new uid or no free place changes nothing. There is no room-name check and no checker restart. |
| EarlyDirectory.InviteIsCurrentWithoutRestart | TgoRTCSDK/Classes/manager/ParticipantManager.swift:112-139 | The earlier invitation equals the current one for the current room, without the checker restart. |
| EarlyDirectory.InviteAccepts | TgoRTCSDK/Classes/manager/ParticipantManager.swift:118-138 | Accepted uids are appended and announced in order, each with a pending record. The list stays within `maxParticipants`. |
| EarlyCoordinator.Join | TgoRTCSDK/Classes/manager/RoomManager.swift:69-125 | Join is refused while in a room. Otherwise the room information is set and Connecting announced. Success starts the checker. Failure announces Disconnected and drops room and information. No pending records are filed. |
| EarlyCoordinator.JoinLeavesNoTrace | TgoRTCSDK/Classes/manager/RoomManager.swift:69-133 | From idle, a failed join stays idle and lets the next join go ahead. A successful join followed by leave returns to idle. |
| EarlyCoordinator.MarkOne | TgoRTCSDK/Classes/manager/RoomManager.swift:150-166 | A local record is skipped. A joined record loses its timeout flag. An overdue record not yet flagged is flagged and fires TimedOut. Anything else is left alone. |
| EarlyCoordinator.MarkOneSettles | TgoRTCSDK/Classes/manager/RoomManager.swift:150-166 | A second check at the same moment changes nothing and fires nothing. |
| EarlyCoordinator.MarkOneFires | TgoRTCSDK/Classes/manager/RoomManager.swift:161-165 | TimedOut fires exactly for an overdue record not yet flagged. |
| EarlyCoordinator.MarkPassApplies | TgoRTCSDK/Classes/manager/RoomManager.swift:150-166 | Each listed uid's filed record is checked as if once, however often it is listed. Other records are untouched. |
| EarlyCoordinator.MarkPassSignals | TgoRTCSDK/Classes/manager/RoomManager.swift:150-166 | The check fires only TimedOut, and only for records it newly flags. |
| EarlyCoordinator.Tick | TgoRTCSDK/Classes/manager/RoomManager.swift:147-167 | A tick never removes a record and never stops the checker. Without a checker it does nothing. |
| EarlyCoordinator.TickFlags | TgoRTCSDK/Classes/manager/RoomManager.swift:147-167 | After a tick, among the listed uids, no joined remote record is flagged and every overdue one is. Other records are untouched. |
| EarlyCoordinator.ListingKeepsUnconfirmed | TgoRTCSDK/Classes/manager/ParticipantManager.swift:62-87 | An expected uid unknown to the transport reaches the check with its previous record, or with one created now. |
| EarlyCoordinator.TickFires | TgoRTCSDK/Classes/manager/RoomManager.swift:147-167 | TimedOut fires exactly for the expected uids unknown to the transport whose record is overdue and not yet flagged. |
| EarlyCoordinator.OnConnectionState | TgoRTCSDK/Classes/manager/RoomManager.swift:171-186 | Outside a room nothing happens. Otherwise the mapped status is announced. The transport participants are not synced. |
| EarlyCoordinator.NotifyJoined | TgoRTCSDK/Classes/manager/RoomManager.swift:179 | The record is kept, and Joined fires once, whether or not it had joined. ConnectedJoinsThrice shows the Joined it adds on Connected. |
| EarlyCoordinator.ConnectedJoinsThrice | TgoRTCSDK/Classes/manager/RoomManager.swift:175-179 | On a first Connected, a local record for the login uid is created, bound and joined, and Joined fires three times. |
| EarlyCoordinator.DisconnectedLeavesOnce | TgoRTCSDK/Classes/manager/RoomManager.swift:180-182 | Over two Disconnected notifications Left fires once, on the first, unless the record was already disposed; with a room installed each notification also fires Joined, the first only for an existing record, and the second rebinds the disposed record; only the local record changes. |
| Listeners.Add | TgoRTCSDK/manager/ParticipantManager.swift:294-300 | A listener is filed under a fresh key, and its token removes exactly that entry. |
| Listeners.Cancel | TgoRTCSDK/Classes/utils/ListenerToken.swift:17-20 | The action runs iff the token still holds it, and afterwards the token holds nothing. |
| Listeners.CancelIsOneShot | TgoRTCSDK/Classes/utils/ListenerToken.swift:17-24 | After the first cancel, every later cancel and the final release (`deinit`) run nothing and change nothing. |
| Listeners.Release | TgoRTCSDK/Classes/utils/ListenerToken.swift:22-24 | Releasing a token runs its action iff it still holds one, then empties it, removing exactly that entry and nothing else. |
| Listeners.AddThenRelease | TgoRTCSDK/Classes/utils/ListenerToken.swift:17-24 | A token released without a prior cancel runs the action exactly once and restores the listeners as they were before the registration. |
| Listeners.AddThenCancel | TgoRTCSDK/manager/RoomManager.swift:31-37 | A registration undone by its token restores the listeners, and the action runs exactly once. |
| Listeners.CancelKeepsOthers | TgoRTCSDK/manager/RoomManager.swift:31-37 | A token removes only its own listener. |
| Video.Empty | TgoRTCSDK/entity/VideoInfo.swift:27 | The empty statistics are all zero with no layer and no limitation reason. |
| Video.EmptyIsInvalid | TgoRTCSDK/entity/VideoInfo.swift:27-31 | The empty statistics are invalid, and valid statistics are never empty. |
| Video.ResolutionString | TgoRTCSDK/entity/VideoInfo.swift:33-35 | The string has at least three characters and contains `x`. ResolutionRoundTrip shows it determines both dimensions. |
| Video.ResolutionRoundTrip | TgoRTCSDK/entity/VideoInfo.swift:33-35 | The resolution string gives back width and height. |
| Video.BitrateString | TgoRTCSDK/entity/VideoInfo.swift:37-44 | A string is produced exactly below one million bits per second. |
| Video.BitrateRoundTrip | TgoRTCSDK/entity/VideoInfo.swift:37-44 | The rate string gives back the rate, exactly below 1000 and rounded down to whole kilobits from 1000 on. |
| Video.AddVideoInfoListener | TgoRTCSDK/manager/RoomManager.swift:39-48 | The listener goes under a key no other listener holds. It receives at most one value at once, the current statistics, and receives it iff they are valid. |
| Video.NotifyVideoInfoChanged | TgoRTCSDK/manager/RoomManager.swift:58-67 | A report equal to the current statistics reaches nobody. A new one becomes current and reaches every filed listener. |
| Video.ReportTwiceDeliversOnce | TgoRTCSDK/manager/RoomManager.swift:58-67 | Reporting the same statistics twice delivers them once. |
| Video.SubscribeThenReport | TgoRTCSDK/manager/RoomManager.swift:39-67 | A listener added and then sent a report receives the current statistics if they are valid, then the report if it is new. A new report reaches the new listener and every earlier one. An unchanged report reaches nobody. |
| Api.Description | TgoRTCIOS/Services/TgoRTCApi.swift:16-23 | A server error is its message verbatim. A network error is the fixed prefix followed by the message. The other two are fixed texts. |
| Api.NetworkDescriptionInjective | TgoRTCIOS/Services/TgoRTCApi.swift:16-23 | A network error's description determines its message. |
| Api.NormalizeBaseUrl | TgoRTCIOS/Services/TgoRTCApi.swift:29-38 | The stored URL always starts, ignoring case, with `http://` or `https://`. |
| Api.CleanUrlKept | TgoRTCIOS/Services/TgoRTCApi.swift:29-38 | A URL with a scheme, no surrounding whitespace and no trailing `/` is stored unchanged. |
| Api.NoTrailingSlash | TgoRTCIOS/Services/TgoRTCApi.swift:29-38 | The stored URL ends in `/` only when nothing but whitespace and slashes was given. |
| Api.HostGetsHttp | TgoRTCIOS/Services/TgoRTCApi.swift:29-38 | A bare host gets `http://` in front and is otherwise kept. |
| Audio.SameDeviceIgnoresState | TgoRTCSDK/manager/AudioManager.swift:43-45 | Device equality depends on the id alone. |
| Audio.PortIdNotBuiltIn | TgoRTCSDK/manager/AudioManager.swift:186-205 | A port's id holds `_`, so it never collides with the receiver or speaker id. |
| Audio.FirstActive | TgoRTCSDK/manager/AudioManager.swift:208-210 | The result is the first active device, and absent iff none is active. |
| Audio.GetAudioOutputDevices | TgoRTCSDK/manager/AudioManager.swift:151-217 | Receiver then speaker come first, each active iff its built-in port is routed; then come the other routed ports in route order, a port being skipped when an earlier one gave its id, so no id repeats and every such port's id is listed; the current device becomes the first active entry if any. |
| Audio.SelectAudioOutputDevice | TgoRTCSDK/manager/AudioManager.swift:254-314 | Success iff the device is not unknown and both session steps succeed; then the speaker flag reflects the type and the device is current. Unknown or configure failure changes nothing. Activation failure leaves only the speaker flag set. |
| Audio.SelectIdempotent | TgoRTCSDK/manager/AudioManager.swift:254-314 | Selecting the same device again with the same outcome changes nothing more. |
| Audio.SetSpeakerphoneOn | TgoRTCSDK/manager/AudioManager.swift:105-134 | The flag takes the requested value only when every session call succeeds. The current device is untouched. |
| Audio.ToggleSpeakerphone | TgoRTCSDK/manager/AudioManager.swift:136-139 | When every session call succeeds the flag flips. Otherwise nothing changes. The current device is untouched. |
| Audio.ToggleTwice | TgoRTCSDK/manager/AudioManager.swift:136-139 | A successful toggle flips the flag, and two restore the state. |
| Audio.Dispose | TgoRTCSDK/manager/AudioManager.swift:316-318 | Every device-change listener is dropped, and keys are not reused. |
| Audio.DisposeThenCancel | TgoRTCSDK/manager/AudioManager.swift:66-72 | After dispose a token's cancel removes nothing, and a new listener gets a key no earlier token holds. |
| CallScreen.RtcTypeOf | TgoRTCIOS/Views/CallView.swift:214 | Code 1 is a video call, and every other code an audio call. |
| CallScreen.RoomInfoOf | TgoRTCIOS/Views/CallView.swift:208-219 | The joined room carries the response's fields and the signed-in uid, and is never one-to-one. |
| CallScreen.RoomInfoOfAgrees | TgoRTCIOS/Views/CallView.swift:208-219 | The user is creator iff the response names them, and the room is video iff the code is 1. |
| CallScreen.Initial | TgoRTCIOS/Views/CallView.swift:21-23 | The screen starts connecting and not connected. |
| CallScreen.MessageOfInjective | TgoRTCIOS/Views/CallView.swift:224-239 | Different statuses show different messages. |
| CallScreen.OnStatus | TgoRTCIOS/Views/CallView.swift:224-239 | Connecting sets `isConnecting` and keeps `isConnected`. Connected sets `isConnected` only. Disconnected clears both. The message names the status. |
| CallScreen.SettledScreenAgrees | TgoRTCIOS/Views/CallView.swift:51-85 | After connected or disconnected, view and dot agree with the status. |
| CallScreen.ReconnectKeepsGreenDot | TgoRTCIOS/Views/CallView.swift:51-85 | After a reconnect the connecting view shows under a green dot. |
| CallScreen.LastStatusNamed | TgoRTCIOS/Views/CallView.swift:224-239 | After any run of statuses the message names the last one. |
| CallScreen.GridColumns | TgoRTCIOS/Views/CallView.swift:164-166 | One column for at most one tile, two for two to four, three beyond. |
| CallScreen.GridColumnsMonotone | TgoRTCIOS/Views/CallView.swift:164-166 | More tiles never mean fewer columns. |
| CallScreen.FormatUid | TgoRTCIOS/Views/CallView.swift:398-403 | Labels never exceed 13 characters. Short uids are kept. Long ones become their first ten characters and `...`. |
| CallScreen.FormatUidPrefix | TgoRTCIOS/Views/CallView.swift:398-403 | A label starts with the first min(10, length) characters, is shortened iff the uid is long, and a short label identifies its uid. |
| HomeScreen.HandleRoom | TgoRTCIOS/Views/HomeView.swift:148-160 | Refused iff the room id is blank. Otherwise the trimmed, non-empty id is requested from the entered server, or the default one when that is blank. |
| HomeScreen.DefaultServerUsedAsIs | TgoRTCIOS/Views/HomeView.swift:20 | A blank server field sends a clean room id to the default server, which normalisation keeps. |
| HomeScreen.HexValueBound | TgoRTCIOS/Views/HomeView.swift:275 | n hex digits are worth less than 16^n. |
| HomeScreen.HexValueAppend | TgoRTCIOS/Views/HomeView.swift:275 | Appending digits shifts the value by a power of 16 and adds theirs. |
| HomeScreen.ScanHex | TgoRTCIOS/Views/HomeView.swift:275 | The scanned value is below 16 to the power of the input length. |
| HomeScreen.ColorChannels | TgoRTCIOS/Views/HomeView.swift:270-290 | Every channel lies in 0..255. |
| HomeScreen.ColorOfRgb12 | TgoRTCIOS/Views/HomeView.swift:278-279 | Three digits give an opaque colour whose channels are the digits times 17. |
| HomeScreen.ColorOfRgb24 | TgoRTCIOS/Views/HomeView.swift:280-281 | Six digits give an opaque colour of the three bytes in order. |
| HomeScreen.ColorOfArgb32 | TgoRTCIOS/Views/HomeView.swift:282-283 | Eight digits give alpha, red, green and blue as the four bytes in order. |
| HomeScreen.ColorOfOtherLength | TgoRTCIOS/Views/HomeView.swift:284-285 | Any other trimmed length gives (1, 1, 1, 0). |
| HomeScreen.LeadingMarkIgnored | TgoRTCIOS/Views/HomeView.swift:273 | A leading non-alphanumeric mark such as `#` is ignored. |

## Left out

- **LiveKit.** `Room`, the participants, `connect`/`disconnect`, track publishing and capture are left out. Participants are opaque snapshots, and outcomes are success/failure parameters.
- **Per-track calls on a record.** `setMicrophoneEnabled`, `setCameraEnabled`, `setScreenShareEnabled`, `switchCamera`, `getVideoTrack` and the record's `setSpeakerphoneOn` only call LiveKit.
- **Concurrency.** `DispatchQueue.main.async`, `Task`, `MainActor` and `Timer` scheduling are left out. Listener delivery and checker start/stop are synchronous, and the checker firing is an explicit tick.
- **Combine publishers and listener callbacks.** They are an appended event log. Which listener receives an event is not modelled beyond the registry's keys.
- **Floating point.**
  - Time is whole seconds. The code's truncation of a fractional elapsed time to `Int` is not modelled.
  - A NaN frame rate, which Swift's `!=` treats as unequal to itself so that every report would be delivered, is not modelled: the frame rate is a real.
  - The Mbps branch of `bitrateString` is left out.
  - The frame rate only takes part in equality.
  - The final `Double` scaling in `Color(hex:)` is left out.
- **Networking.** `TgoRTCApi`'s requests, `createRoom`, `joinRoom`, `leaveRoom` and `Codable` decoding of `RoomResponse` are I/O.
- **Randomness.** `generateUserId` and `generateUUID` use the clock and randomness. The listener `UUID` keys are a counter.
- **Audio session.**
  - `AVAudioSession` calls are reduced to success/failure outcomes.
  - `mapPortTypeToDeviceType` maps a foreign enum, so each port carries its mapped type.
  - The raw values of the built-in receiver and speaker are taken as `Receiver` and `Speaker`.
  - The route-change notification, `getAudioInputDevices` and the non-iOS branches are left out.
- Audio.SetSpeakerphoneOn: `forceSpeakerOutput` is not a parameter, because the code never reads it.
- **UI.** SwiftUI layout, `TgoTrackRenderer` and the video-view bridge's attach and retry polling are left out, beyond the status flags, grid rule, labels, room guard and colour channels.
- **Glue.** The Objective-C bridges and headers, `TgoLogger`, `TgoRTC` singleton wiring, `Package.swift`, `Item.swift` and the app entry point are left out.
- **Text.** Strings are sequences of characters over ASCII classes. Trimming uses spaces and tabs, or whitespace and newlines, or ASCII alphanumerics. Swift's grapheme counts are read as character counts.
- HomeScreen.ScanHex: more than 16 hex digits would overflow `UInt64` in `scanHexInt64`. The model's value is unbounded, and it is only used at lengths 3, 6 and 8.
- **Earlier record type.** The earlier record file (with `setTimeout`, `isJoined()` and `notifyJoined()`) is not part of this model. Those calls are mapped onto the current record as described above.
- **Caller's `RoomInfo`.** `RoomInfo` is a class, and `join(roomInfo:)` keeps the caller's object as `currentRoomInfo`, so the manager's `uidList` edits also show in the caller's copy. The caller's reference to the joined `RoomInfo` is not modelled: the model's `uidList` is the manager's view only.
- **Dictionary order.** The current listing takes the iteration order as a parameter. The earlier listing follows `uidList` and the transport's participant order.

## Findings

| source | as written | input that shows it | evidently intended | confidence | as-written member | corrected member |
|---|---|---|---|---|---|---|
| TgoRTCSDK/manager/ParticipantManager.swift:202-230 | `newUids` filters out uids that already have a record, but not uids repeated within the same call. Each occurrence is accepted, takes a free place, is appended to `uidList` and is announced. | Room `r` with `maxParticipants` 3 and an empty `uidList`; `inviteParticipant(roomName: "r", uids: ["a", "a"])` appends `"a"` twice and announces it twice | Each invited uid is accepted, appended and announced once, as the existing-record filter intends | medium, not executed | Directory.InviteDuplicateTwice | Directory.InviteParticipantDistinct |
| TgoRTCSDK/manager/RoomManager.swift:151-156 | The failure branch of `connectInternal` clears the room and its information but never calls `stopTimeoutChecker()`. `inviteParticipant` restarts a checker whenever room information is set (lines 181-184), including while the connect is under way. | `join` into room `r` (timeout 30, `maxParticipants` 2, empty `uidList`); `inviteParticipant(roomName: "r", uids: ["b"])` before the connect returns; the connect then fails. No room remains, but a checker with timeout 30 keeps firing. Outside a room its listing is empty, so it never stops on its own. | A failed connect stops the checker, as `leaveRoom` does | medium, not executed | Coordinator.FailedJoinAfterInviteKeepsChecker | Coordinator.ConnectInternalStopping |

=== FILE: api.dfy ===
/** The demo app's room-server client (`TgoRTCIOS/Services/TgoRTCApi.swift`): base-URL
    normalisation and the error descriptions. The HTTP requests themselves are not modelled. */
module Api {
  import opened Text

  /** `TgoRTCError`. */
  datatype ApiError = InvalidUrl | NetworkError(msg: string) | ServerError(msg: string) | DecodeError

  const NetworkPrefix: string := "网络请求失败: "

  /** `errorDescription`. */
  function Description(e: ApiError): (d: string)
    ensures e.ServerError? ==> d == e.msg
    ensures e.NetworkError? ==> |d| == |NetworkPrefix| + |e.msg| && d[..|NetworkPrefix|] == NetworkPrefix && d[|NetworkPrefix|..] == e.msg
    ensures e == InvalidUrl ==> d == "无效的服务器地址"
    ensures e == DecodeError ==> d == "数据解析失败"
  {
    match e
    case InvalidUrl => "无效的服务器地址"
    case NetworkError(msg) => NetworkPrefix + msg
    case ServerError(msg) => msg
    case DecodeError => "数据解析失败"
  }

  /** A network error's description gives back its message. */
  lemma NetworkDescriptionInjective(a: string, b: string)
    requires Description(NetworkError(a)) == Description(NetworkError(b))
    ensures a == b
  {
    assert a == Description(NetworkError(a))[|NetworkPrefix|..];
  }

  /** The URL begins, ignoring case, with `http://` or `https://`. */
  predicate HasScheme(url: string)
  {
    StartsWithIgnoringCase(url, "http://") || StartsWithIgnoringCase(url, "https://")
  }

  /** `TgoRTCApi.init(baseUrl:)`: trim whitespace and newlines, drop every trailing `/`, and put
      `http://` in front unless a scheme is already there. */
  function NormalizeBaseUrl(baseUrl: string): (url: string)
    ensures HasScheme(url)
  {
    var trimmed := Trim(baseUrl, WhitespacesAndNewlines);
    var bare := TrimEnd(trimmed, Slashes);
    if HasScheme(bare) then bare
    else
      PrefixedHasScheme(bare);
      "http://" + bare
  }

  /** Putting `http://` in front gives a URL with a scheme. */
  lemma PrefixedHasScheme(s: string)
    ensures HasScheme("http://" + s)
  {
    var u := "http://" + s;
    var l := ToLower(u);
    forall i | 0 <= i < 7 ensures l[i] == "http://"[i] {
      assert u[i] == "http://"[i];
    }
    assert l[..7] == "http://";
  }

  /** A URL with a scheme, no surrounding whitespace and no trailing `/` is kept as it is. */
  lemma CleanUrlKept(baseUrl: string)
    requires HasScheme(baseUrl)
    requires baseUrl != [] ==> !IsWhitespaceOrNewline(baseUrl[0]) && !IsWhitespaceOrNewline(baseUrl[|baseUrl| - 1])
    requires baseUrl != [] ==> !IsSlash(baseUrl[|baseUrl| - 1])
    ensures NormalizeBaseUrl(baseUrl) == baseUrl
  {
    TrimOfTrimmed(baseUrl, WhitespacesAndNewlines);
  }

  /** The stored URL ends in `/` only when nothing but whitespace and slashes was given, in which
      case it is the bare `http://`. */
  lemma NoTrailingSlash(baseUrl: string)
    ensures var url := NormalizeBaseUrl(baseUrl);
            url[|url| - 1] == '/' ==> url == "http://"
  {
    var trimmed := Trim(baseUrl, WhitespacesAndNewlines);
    var bare := TrimEnd(trimmed, Slashes);
    if bare != [] && !HasScheme(bare) {
      assert NormalizeBaseUrl(baseUrl)[|NormalizeBaseUrl(baseUrl)| - 1] == bare[|bare| - 1];
    }
  }

  /** A host given without a scheme is prefixed with `http://` and otherwise kept. */
  lemma HostGetsHttp(host: string)
    requires host != [] && !IsSlash(host[|host| - 1])
    requires !IsWhitespaceOrNewline(host[0]) && !IsWhitespaceOrNewline(host[|host| - 1])
    requires !HasScheme(host)
    ensures NormalizeBaseUrl(host) == "http://" + host
  {
    TrimOfTrimmed(host, WhitespacesAndNewlines);
  }
}

=== FILE: audio.dfy ===
/** Audio-output bookkeeping (`manager/AudioManager.swift`): the device list built from the current
    audio route, device selection and the speakerphone switch. The audio session is abstracted:
    the route is a list of ports, and each group of session calls either succeeds or throws. */
module Audio {
  import opened Optional
  import L = Listeners

  /** `AudioOutputDeviceType`. */
  datatype DeviceType =
    | Receiver | Speaker | Headphones | BluetoothA2DP | BluetoothHFP | BluetoothLE
    | AirPlay | CarAudio | Hdmi | UsbAudio | Unknown

  /** `AudioOutputDevice`. */
  datatype Device = Device(id: string, name: string, dtype: DeviceType, portType: Option<string>, isActive: bool)

  /** `==` on `AudioOutputDevice`: only the ids are compared. */
  predicate SameDevice(a: Device, b: Device)
  {
    a.id == b.id
  }

  /** Devices differing in anything but their id are still the same device, and devices with
      different ids never are. */
  lemma SameDeviceIgnoresState(d: Device, name: string, active: bool, e: Device)
    ensures SameDevice(d, d.(name := name, isActive := active))
    ensures d.id != e.id ==> !SameDevice(d, e)
  {
  }

  /** A port of the current route: a built-in receiver or speaker, or another port with its
      `portType` raw value and the device type it maps to. */
  datatype PortKind = BuiltInReceiver | BuiltInSpeaker | OtherPort(raw: string, dtype: DeviceType)

  /** An output of `currentRoute.outputs`. */
  datatype Port = Port(kind: PortKind, uid: Option<string>, portName: string)

  /** `"\(portType.rawValue)_\(uid ?? portName)"`. */
  function PortId(p: Port): string
    requires p.kind.OtherPort?
  {
    p.kind.raw + "_" + (if p.uid.Some? then p.uid.value else p.portName)
  }

  /** A port id always holds the `_` separator, so it never collides with the fixed `receiver`
      and `speaker` ids. */
  lemma PortIdNotBuiltIn(p: Port)
    requires p.kind.OtherPort?
    ensures '_' in PortId(p)
    ensures PortId(p) != "receiver" && PortId(p) != "speaker"
  {
    assert PortId(p)[|p.kind.raw|] == '_';
  }

  /** The route contains a port of the given kind. */
  predicate RouteHas(outputs: seq<Port>, kind: PortKind)
  {
    exists i :: 0 <= i < |outputs| && outputs[i].kind == kind
  }

  /** No two devices share an id. */
  predicate UniqueIds(devices: seq<Device>)
  {
    forall a, b :: 0 <= a < b < |devices| ==> devices[a].id != devices[b].id
  }

  /** Some device of the list has this id. */
  predicate HasId(devices: seq<Device>, id: string)
  {
    exists i :: 0 <= i < |devices| && devices[i].id == id
  }

  /** `devices.first(where: { $0.isActive })`. */
  function FirstActive(devices: seq<Device>): (r: Option<Device>)
    ensures r.Some? ==> r.value.isActive && r.value in devices
    ensures r.None? <==> forall i :: 0 <= i < |devices| ==> !devices[i].isActive
    ensures r.Some? ==> exists i :: 0 <= i < |devices| && devices[i] == r.value && forall j :: 0 <= j < i ==> !devices[j].isActive
  {
    if devices == [] then None
    else if devices[0].isActive then Some(devices[0])
    else
      var r := FirstActive(devices[1..]);
      if r.Some? then
        var i :| 0 <= i < |devices[1..]| && devices[1..][i] == r.value && forall j :: 0 <= j < i ==> !devices[1..][j].isActive;
        assert devices[i + 1] == r.value;
        r
      else r
  }

  /** The receiver entry, active when the route holds the built-in receiver. */
  function ReceiverDevice(active: bool): Device
  {
    Device("receiver", "听筒", Receiver, Some("Receiver"), active)
  }

  /** The speaker entry, active when the route holds the built-in speaker. */
  function SpeakerDevice(active: bool): Device
  {
    Device("speaker", "扬声器", Speaker, Some("Speaker"), active)
  }

  /** The entry for a route port that is not built in. */
  function PortDevice(p: Port): Device
    requires p.kind.OtherPort?
  {
    Device(PortId(p), p.portName, p.kind.dtype, Some(p.kind.raw), true)
  }

  /** The device is the entry of some route port that is not built in. */
  predicate FromRoute(d: Device, outputs: seq<Port>)
  {
    exists j :: 0 <= j < |outputs| && outputs[j].kind.OtherPort? && d == PortDevice(outputs[j])
  }

  /** The entries the route's other ports contribute, in route order: a port is skipped when an
      earlier port already gave its id, so the first port with a given id wins. */
  function PortEntries(outputs: seq<Port>): seq<Device>
    decreases |outputs|
  {
    if outputs == [] then []
    else
      var prev := PortEntries(outputs[..|outputs| - 1]);
      var p := outputs[|outputs| - 1];
      if p.kind.OtherPort? && !HasId(prev, PortId(p)) then prev + [PortDevice(p)] else prev
  }

  /** Every entry of the route's other ports is the entry of one of them. */
  lemma {:induction false} PortEntriesFromRoute(outputs: seq<Port>)
    ensures forall i :: 0 <= i < |PortEntries(outputs)| ==> FromRoute(PortEntries(outputs)[i], outputs)
    decreases |outputs|
  {
    if outputs != [] {
      var n := |outputs| - 1;
      var init := outputs[..n];
      PortEntriesFromRoute(init);
      var prev := PortEntries(init);
      forall i | 0 <= i < |prev| ensures FromRoute(prev[i], outputs) {
        assert FromRoute(prev[i], init);
        var j :| 0 <= j < |init| && init[j].kind.OtherPort? && prev[i] == PortDevice(init[j]);
        assert outputs[j] == init[j];
      }
      var r := PortEntries(outputs);
      if outputs[n].kind.OtherPort? && !HasId(prev, PortId(outputs[n])) {
        assert r == prev + [PortDevice(outputs[n])];
        forall i | 0 <= i < |r| ensures FromRoute(r[i], outputs) {
          if i < |prev| {
            assert r[i] == prev[i];
          }
        }
      } else {
        assert r == prev;
      }
    }
  }

  /** No id is listed twice among the route's other ports' entries. */
  lemma {:induction false} PortEntriesUnique(outputs: seq<Port>)
    ensures UniqueIds(PortEntries(outputs))
    decreases |outputs|
  {
    if outputs != [] {
      var n := |outputs| - 1;
      PortEntriesUnique(outputs[..n]);
      var prev := PortEntries(outputs[..n]);
      var p := outputs[n];
      if p.kind.OtherPort? && !HasId(prev, PortId(p)) {
        var r := prev + [PortDevice(p)];
        forall a, b | 0 <= a < b < |r| ensures r[a].id != r[b].id {
          if b == |prev| {
            assert r[a] == prev[a];
          } else {
            assert r[a] == prev[a] && r[b] == prev[b];
          }
        }
      }
    }
  }

  /** Every other port of the route has its id listed. */
  lemma {:induction false} PortEntriesCover(outputs: seq<Port>)
    ensures forall j :: 0 <= j < |outputs| && outputs[j].kind.OtherPort? ==> HasId(PortEntries(outputs), PortId(outputs[j]))
    decreases |outputs|
  {
    if outputs != [] {
      var n := |outputs| - 1;
      var init := outputs[..n];
      PortEntriesCover(init);
      var prev := PortEntries(init);
      var r := PortEntries(outputs);
      assert |prev| <= |r| && forall i :: 0 <= i < |prev| ==> r[i] == prev[i];
      forall j | 0 <= j < |outputs| && outputs[j].kind.OtherPort? ensures HasId(r, PortId(outputs[j])) {
        if j < n {
          assert outputs[j] == init[j];
          var i :| 0 <= i < |prev| && prev[i].id == PortId(init[j]);
          assert r[i] == prev[i];
        } else if !HasId(prev, PortId(outputs[n])) {
          assert r[|r| - 1] == PortDevice(outputs[n]);
        }
      }
    }
  }

  /** An id with the port separator is listed after the two built-in entries iff it is listed
      among the port entries. */
  lemma HasIdAfterBuiltIns(base: seq<Device>, entries: seq<Device>, id: string)
    requires |base| == 2 && base[0].id == "receiver" && base[1].id == "speaker" && '_' in id
    ensures HasId(base + entries, id) <==> HasId(entries, id)
  {
    var all := base + entries;
    if HasId(all, id) {
      var i :| 0 <= i < |all| && all[i].id == id;
      assert i >= 2;
      assert entries[i - 2] == all[i];
    }
    if HasId(entries, id) {
      var i :| 0 <= i < |entries| && entries[i].id == id;
      assert all[i + 2] == entries[i];
    }
  }

  /** The built-in entries followed by the port entries list no id twice, come from the route
      after the first two, and name every other port of the route. */
  lemma DeviceListFacts(outputs: seq<Port>, base: seq<Device>)
    requires |base| == 2 && base[0].id == "receiver" && base[1].id == "speaker"
    ensures var devices := base + PortEntries(outputs);
            && UniqueIds(devices)
            && (forall i :: 2 <= i < |devices| ==> FromRoute(devices[i], outputs))
            && (forall j :: 0 <= j < |outputs| && outputs[j].kind.OtherPort? ==> HasId(devices, PortId(outputs[j])))
  {
    var entries := PortEntries(outputs);
    var devices := base + entries;
    PortEntriesFromRoute(outputs);
    PortEntriesUnique(outputs);
    PortEntriesCover(outputs);
    forall i | 2 <= i < |devices| ensures FromRoute(devices[i], outputs) && '_' in devices[i].id {
      assert devices[i] == entries[i - 2];
      var j :| 0 <= j < |outputs| && outputs[j].kind.OtherPort? && devices[i] == PortDevice(outputs[j]);
      PortIdNotBuiltIn(outputs[j]);
    }
    forall a, b | 0 <= a < b < |devices| ensures devices[a].id != devices[b].id {
      if a >= 2 {
        assert devices[a] == entries[a - 2] && devices[b] == entries[b - 2];
      }
    }
    forall j | 0 <= j < |outputs| && outputs[j].kind.OtherPort? ensures HasId(devices, PortId(outputs[j])) {
      PortIdNotBuiltIn(outputs[j]);
      HasIdAfterBuiltIns(base, entries, PortId(outputs[j]));
    }
  }

  /** `getAudioOutputDevices()`: the receiver and the speaker first, each active when its
      built-in port is in the route; then one active entry per other route port, in route order,
      skipping a port whose id is already listed; the current device becomes the first active
      entry, if any. */
  method GetAudioOutputDevices(outputs: seq<Port>, current: Option<Device>) returns (devices: seq<Device>, current': Option<Device>)
    ensures |devices| >= 2
    ensures devices[0] == ReceiverDevice(RouteHas(outputs, BuiltInReceiver))
    ensures devices[1] == SpeakerDevice(RouteHas(outputs, BuiltInSpeaker))
    ensures UniqueIds(devices)
    ensures forall i :: 2 <= i < |devices| ==> FromRoute(devices[i], outputs)
    ensures forall j :: 0 <= j < |outputs| && outputs[j].kind.OtherPort? ==> HasId(devices, PortId(outputs[j]))
    ensures devices[2..] == PortEntries(outputs)
    ensures current' == (if FirstActive(devices).Some? then FirstActive(devices) else current)
  {
    var base := [ReceiverDevice(RouteHas(outputs, BuiltInReceiver)), SpeakerDevice(RouteHas(outputs, BuiltInSpeaker))];
    devices := base;
    var k := 0;
    while k < |outputs|
      invariant 0 <= k <= |outputs|
      invariant devices == base + PortEntries(outputs[..k])
    {
      var p := outputs[k];
      assert outputs[..k + 1][..k] == outputs[..k];
      if p.kind.OtherPort? {
        var id := PortId(p);
        PortIdNotBuiltIn(p);
        HasIdAfterBuiltIns(base, PortEntries(outputs[..k]), id);
        if !HasId(devices, id) {
          devices := devices + [PortDevice(p)];
        }
      }
      k := k + 1;
    }
    assert outputs[..|outputs|] == outputs;
    DeviceListFacts(outputs, base);
    var active := FirstActive(devices);
    current' := if active.Some? then active else current;
  }

  // ---------------------------------------------------------------------------------------------
  // Selection and the speakerphone

  /** What the manager keeps: `isSpeakerOn` and `currentOutputDevice`. */
  datatype AudioState = AudioState(isSpeakerOn: bool, current: Option<Device>)

  /** How the session calls went: the category and port-override calls, then `setActive(true)`. */
  datatype SessionOutcome = SessionOutcome(configureOk: bool, activateOk: bool)

  /** The selection's answer and the state it leaves. */
  datatype Selected = Selected(st: AudioState, ok: bool)

  /** `selectAudioOutputDevice(_:)`: an unknown device is refused untouched; otherwise the session
      is configured for the device type, `isSpeakerOn` is set (true only for the speaker), the
      session is activated and the device becomes current. A throw ends the selection with
      `false` and whatever was set before it. */
  function SelectAudioOutputDevice(st: AudioState, device: Device, o: SessionOutcome): (s: Selected)
    ensures s.ok <==> device.dtype != Unknown && o.configureOk && o.activateOk
    ensures s.ok ==> s.st == AudioState(device.dtype == Speaker, Some(device))
    ensures device.dtype == Unknown || !o.configureOk ==> s.st == st
    ensures device.dtype != Unknown && o.configureOk && !o.activateOk ==>
              s.st == st.(isSpeakerOn := device.dtype == Speaker)
  {
    if device.dtype == Unknown || !o.configureOk then Selected(st, false)
    else
      var st1 := st.(isSpeakerOn := device.dtype == Speaker);
      if !o.activateOk then Selected(st1, false)
      else Selected(st1.(current := Some(device)), true)
  }

  /** Selecting the same device again with the same outcome changes nothing further. */
  lemma SelectIdempotent(st: AudioState, device: Device, o: SessionOutcome)
    ensures var s := SelectAudioOutputDevice(st, device, o);
            SelectAudioOutputDevice(s.st, device, o) == s
  {
  }

  /** `setSpeakerphoneOn(_:)`: the flag takes the requested value only when every session call
      succeeds; the current device is never touched. */
  function SetSpeakerphoneOn(st: AudioState, on: bool, o: SessionOutcome): (st': AudioState)
    ensures st'.current == st.current
    ensures o.configureOk && o.activateOk ==> st'.isSpeakerOn == on
    ensures !(o.configureOk && o.activateOk) ==> st' == st
  {
    if o.configureOk && o.activateOk then st.(isSpeakerOn := on) else st
  }

  /** `toggleSpeakerphone()`: request the opposite of the current flag. */
  function ToggleSpeakerphone(st: AudioState, o: SessionOutcome): (st': AudioState)
    ensures st'.current == st.current
    ensures o.configureOk && o.activateOk ==> st'.isSpeakerOn != st.isSpeakerOn
    ensures !(o.configureOk && o.activateOk) ==> st' == st
  {
    SetSpeakerphoneOn(st, !st.isSpeakerOn, o)
  }

  /** Two successful toggles restore the state; a successful toggle flips the flag. */
  lemma ToggleTwice(st: AudioState, o: SessionOutcome)
    requires o.configureOk && o.activateOk
    ensures ToggleSpeakerphone(st, o).isSpeakerOn == !st.isSpeakerOn
    ensures ToggleSpeakerphone(ToggleSpeakerphone(st, o), o) == st
  {
  }

  // ---------------------------------------------------------------------------------------------
  // Device-change listeners

  /** `dispose()`: every device-change listener is dropped; keys are never reused. */
  function Dispose<T>(reg: L.Registry<T>): (reg': L.Registry<T>)
    ensures reg'.entries == map[] && reg'.next == reg.next
  {
    L.Registry(map[], reg.next)
  }

  /** After `dispose()` a token's cancel finds nothing to remove, and a new listener still gets a
      key no earlier token holds. */
  lemma DisposeThenCancel<T>(reg: L.Registry<T>, t: L.Token, l: T)
    requires L.WellKeyed(reg)
    requires t.key.Some? ==> t.key.value < reg.next
    ensures L.Cancel(Dispose(reg), t).reg.entries == map[]
    ensures L.Add(Dispose(reg), l).token.key.value >= reg.next
    ensures t.key.Some? ==> L.Add(Dispose(reg), l).token.key != t.key
  {
  }
}

=== FILE: call_view.dfy ===
/** The demo call screen (`TgoRTCIOS/Views/CallView.swift`): how a room response becomes the
    `RoomInfo` that is joined, how connection statuses drive the screen's flags and what it shows,
    the participant grid's column count and the shortened uid labels. */
module CallScreen {
  import opened Session
  import R = Rooms

  // ---------------------------------------------------------------------------------------------
  // Joining

  /** The fields of the server's `RoomResponse` that the call screen reads. */
  datatype RoomResponse = RoomResponse(
    roomId: string,
    creator: string,
    token: string,
    url: string,
    maxParticipants: int,
    timeout: int,
    rtcType: int,
    uids: seq<string>)

  /** The response's integer call kind: 1 is a video call, every other value an audio call. */
  function RtcTypeOf(code: int): (t: R.RtcType)
    ensures t == R.Video <==> code == 1
    ensures t == R.Audio <==> code != 1
  {
    if code == 1 then R.Video else R.Audio
  }

  /** `joinRoom()`: the `RoomInfo` built from the response for the signed-in uid. It is never a
      one-to-one room, and the signed-in uid is its login uid. */
  function RoomInfoOf(resp: RoomResponse, uid: string): (info: R.RoomInfo)
    ensures info.roomName == resp.roomId && info.token == resp.token && info.url == resp.url
    ensures info.maxParticipants == resp.maxParticipants && info.timeout == resp.timeout
    ensures info.uidList == resp.uids && info.creatorUid == resp.creator && info.loginUID == uid
    ensures !info.isP2P
    ensures info.rtcType == RtcTypeOf(resp.rtcType)
  {
    R.RoomInfo(resp.roomId, resp.token, resp.url, resp.maxParticipants, RtcTypeOf(resp.rtcType),
               false, resp.uids, resp.timeout, resp.creator, uid)
  }

  /** The joined room counts the signed-in user as its creator exactly when the response names
      that uid as creator; a video room is joined exactly when the response says 1. */
  lemma RoomInfoOfAgrees(resp: RoomResponse, uid: string)
    ensures R.IsCreator(RoomInfoOf(resp, uid)) <==> resp.creator == uid
    ensures RoomInfoOf(resp, uid).rtcType == R.Video <==> resp.rtcType == 1
  {
  }

  // ---------------------------------------------------------------------------------------------
  // Connection status

  /** The screen's `isConnected`, `isConnecting` and `statusMessage`. */
  datatype Ui = Ui(isConnected: bool, isConnecting: bool, statusMessage: string)

  const ConnectingMessage: string := "正在连接..."
  const ConnectedMessage: string := "已连接"
  const DisconnectedMessage: string := "已断开连接"

  /** The screen as it first appears: connecting, not connected. */
  function Initial(): (ui: Ui)
    ensures ui.isConnecting && !ui.isConnected && ui.statusMessage == ConnectingMessage
  {
    Ui(false, true, ConnectingMessage)
  }

  /** The message shown for each status. */
  function MessageOf(status: ConnectStatus): string
  {
    match status
    case StatusConnecting => ConnectingMessage
    case StatusConnected => ConnectedMessage
    case StatusDisconnected => DisconnectedMessage
  }

  /** Different statuses show different messages. */
  lemma MessageOfInjective(a: ConnectStatus, b: ConnectStatus)
    requires MessageOf(a) == MessageOf(b)
    ensures a == b
  {
  }

  /** The connection-status listener: connecting raises `isConnecting` and leaves `isConnected`
      alone; connected raises `isConnected` and clears `isConnecting`; disconnected clears both.
      The message always names the status. */
  function OnStatus(ui: Ui, status: ConnectStatus): (ui': Ui)
    ensures ui'.statusMessage == MessageOf(status)
    ensures status == StatusConnecting ==> ui'.isConnecting && ui'.isConnected == ui.isConnected
    ensures status == StatusConnected ==> ui'.isConnected && !ui'.isConnecting
    ensures status == StatusDisconnected ==> !ui'.isConnected && !ui'.isConnecting
  {
    match status
    case StatusConnecting => ui.(isConnecting := true, statusMessage := ConnectingMessage)
    case StatusConnected => Ui(true, false, ConnectedMessage)
    case StatusDisconnected => Ui(false, false, DisconnectedMessage)
  }

  /** The body of the screen: the connecting view, the participant grid, or the error view. */
  datatype Content = ConnectingView | ParticipantsGrid | ErrorView

  /** `isConnecting` wins over `isConnected`. */
  function ContentOf(ui: Ui): Content
  {
    if ui.isConnecting then ConnectingView else if ui.isConnected then ParticipantsGrid else ErrorView
  }

  /** The header's status dot. */
  datatype Dot = Green | Yellow | Red

  /** `isConnected` wins over `isConnecting`. */
  function DotOf(ui: Ui): Dot
  {
    if ui.isConnected then Green else if ui.isConnecting then Yellow else Red
  }

  /** After connected or disconnected the screen agrees with the status everywhere: grid, green
      dot and controls, or error view, red dot and no controls. From a screen that was not
      connected, connecting shows the connecting view and a yellow dot. */
  lemma SettledScreenAgrees(ui: Ui, status: ConnectStatus)
    ensures var u := OnStatus(ui, status);
            && (status == StatusConnected ==> ContentOf(u) == ParticipantsGrid && DotOf(u) == Green && u.isConnected)
            && (status == StatusDisconnected ==> ContentOf(u) == ErrorView && DotOf(u) == Red && !u.isConnected)
            && (status == StatusConnecting && !ui.isConnected ==> ContentOf(u) == ConnectingView && DotOf(u) == Yellow)
  {
  }

  /** A reconnect after a connection (the SDK reports reconnecting as connecting) leaves both
      flags raised: the connecting view and the controls are shown under a green dot until the
      next connected or disconnected status. */
  lemma ReconnectKeepsGreenDot(ui: Ui)
    requires ui.isConnected
    ensures var u := OnStatus(ui, StatusConnecting);
            ContentOf(u) == ConnectingView && DotOf(u) == Green && u.isConnected
  {
  }

  /** The screen after a sequence of statuses. */
  function RunStatuses(ui: Ui, statuses: seq<ConnectStatus>): Ui
    decreases |statuses|
  {
    if statuses == [] then ui else RunStatuses(OnStatus(ui, statuses[0]), statuses[1..])
  }

  /** Whatever came before, the message shown is the last status's message. */
  lemma {:induction false} LastStatusNamed(ui: Ui, statuses: seq<ConnectStatus>)
    requires |statuses| > 0
    ensures RunStatuses(ui, statuses).statusMessage == MessageOf(statuses[|statuses| - 1])
    decreases |statuses|
  {
    if |statuses| > 1 {
      LastStatusNamed(OnStatus(ui, statuses[0]), statuses[1..]);
    }
  }

  // ---------------------------------------------------------------------------------------------
  // Layout

  /** `participantsGrid`: one column for at most one tile, two for up to four, three beyond. */
  function GridColumns(count: nat): (c: nat)
    ensures 1 <= c <= 3
    ensures c == 1 <==> count <= 1
    ensures c == 2 <==> 2 <= count <= 4
    ensures c == 3 <==> count > 4
  {
    if count <= 1 then 1 else if count <= 4 then 2 else 3
  }

  /** More tiles never mean fewer columns. */
  lemma GridColumnsMonotone(a: nat, b: nat)
    requires a <= b
    ensures GridColumns(a) <= GridColumns(b)
  {
  }

  /** `formatUid(_:)`: a uid of more than ten characters is cut to its first ten, followed by
      `...`. */
  function FormatUid(uid: string): (s: string)
    ensures |s| <= 13
    ensures |uid| <= 10 ==> s == uid
    ensures |uid| > 10 ==> |s| == 13 && s[..10] == uid[..10] && s[10..] == "..."
  {
    if |uid| > 10 then uid[..10] + "..." else uid
  }

  /** A label is shortened exactly when the uid is long, it always begins with the uid's first
      characters, and a short label identifies its uid. */
  lemma FormatUidPrefix(uid: string, other: string)
    ensures var n := if |uid| < 10 then |uid| else 10;
            FormatUid(uid)[..n] == uid[..n]
    ensures |FormatUid(uid)| > 10 <==> |uid| > 10
    ensures |FormatUid(uid)| <= 10 && FormatUid(uid) == FormatUid(other) ==> uid == other
  {
  }
}

=== FILE: coordinator.dfy ===
/** The session coordinator of the current SDK (`manager/RoomManager.swift`): joining, the outcome
    of the background connect, leaving, the one-second timeout checker, and the mapping of the
    transport's connection states onto listener notifications. */
module Coordinator {
  import opened Optional
  import opened Seqs
  import T = Transport
  import P = Participants
  import R = Rooms
  import opened Session
  import D = Directory

  // ---------------------------------------------------------------------------------------------
  // Join, connect, leave

  /** `join(roomInfo:...)`: refused while in a room; otherwise the room information is set, the
      pending participants are initialised and Connecting is announced, all before connecting. */
  function Join(st: State, info: R.RoomInfo, now: int): (s: Step)
    ensures st.roomInfo.Some? ==> s == Step(st, [])
    ensures st.roomInfo.None? ==>
              && s.st == D.InitializePendingParticipants(st.(roomInfo := Some(info)), now)
              && s.events == [StatusChanged(info.roomName, StatusConnecting)]
  {
    if st.roomInfo.Some? then Step(st, [])
    else Step(D.InitializePendingParticipants(st.(roomInfo := Some(info)), now), [StatusChanged(info.roomName, StatusConnecting)])
  }

  /** What the background connect reported: whether `connect` succeeded, and whether each initial
      track enable that was requested succeeded. */
  datatype ConnectOutcome = ConnectOutcome(connected: bool, micOk: bool, cameraOk: bool, screenShareOk: bool)

  /** The requested initial tracks. */
  datatype Tracks = Tracks(mic: bool, camera: bool, screenShare: bool)

  /** The connect and every requested initial enable succeeded. */
  predicate Succeeded(o: ConnectOutcome, want: Tracks)
  {
    o.connected && (want.mic ==> o.micOk) && (want.camera ==> o.cameraOk) && (want.screenShare ==> o.screenShareOk)
  }

  /** `connectInternal(roomInfo:...)`: the room is installed first; on success a timeout checker
      starts with the room's timeout; on any failure Disconnected is announced and the room and
      its information are dropped (the participant directory is left as it is). */
  function ConnectInternal(st: State, info: R.RoomInfo, room: T.Room, want: Tracks, o: ConnectOutcome): (s: Step)
    ensures Succeeded(o, want) ==> s == Step(st.(room := Some(room), timer := Some(info.timeout)), [])
    ensures !Succeeded(o, want) ==>
              s == Step(st.(room := None, roomInfo := None), [StatusChanged(info.roomName, StatusDisconnected)])
  {
    var st1 := st.(room := Some(room));
    if Succeeded(o, want) then Step(StartTimeoutChecker(st1, info.timeout), [])
    else Step(st1.(roomInfo := None, room := None), [StatusChanged(info.roomName, StatusDisconnected)])
  }

  /** A failed join announces Connecting then Disconnected, leaves no room behind, does not start
      a timeout checker itself (the checker is as it was before the join), and lets a later join
      go ahead. A checker that an invite restarts during the connect is another matter: see
      `FailedJoinAfterInviteKeepsChecker`. */
  lemma FailedJoin(st: State, info: R.RoomInfo, room: T.Room, want: Tracks, o: ConnectOutcome, now: int, info2: R.RoomInfo)
    requires st.roomInfo.None? && !Succeeded(o, want)
    ensures var j := Join(st, info, now);
            var c := ConnectInternal(j.st, info, room, want, o);
            && j.events + c.events == [StatusChanged(info.roomName, StatusConnecting), StatusChanged(info.roomName, StatusDisconnected)]
            && c.st.roomInfo.None? && c.st.room.None?
            && c.st.timer == st.timer
            && Join(c.st, info2, now).events == [StatusChanged(info2.roomName, StatusConnecting)]
  {
  }

  /** As written, a failed connect does not stop the checker. An invite accepted while the
      connect is under way restarts one (it only asks for room information), so the failed join
      ends outside any room with a checker still running at the room's timeout; outside a room
      its ticks change nothing (`TickOutsideRoom`), so it never stops on its own. */
  lemma FailedJoinAfterInviteKeepsChecker(st: State, info: R.RoomInfo, room: T.Room, want: Tracks, o: ConnectOutcome, now: int, uids: seq<string>)
    requires st.roomInfo.None? && st.timer.None? && !Succeeded(o, want)
    requires D.NewUids(Join(st, info, now).st, uids) != [] && D.Slots(info) > 0
    ensures var j := Join(st, info, now);
            var i := D.InviteParticipant(j.st, info.roomName, uids, now);
            var c := ConnectInternal(i.st, info, room, want, o);
            && c.st.roomInfo.None? && c.st.room.None?
            && c.st.timer == Some(info.timeout)
  {
    var j := Join(st, info, now);
    var a := D.AddInvited(j.st, Take(D.NewUids(j.st, uids), D.Slots(info)), now);
    D.AddInvitedAppends(j.st, Take(D.NewUids(j.st, uids), D.Slots(info)), now);
  }

  /** `connectInternal` as evidently intended: a failure also stops the timeout checker, as
      leaving does, so that no checker outlives the room it was started for. */
  function ConnectInternalStopping(st: State, info: R.RoomInfo, room: T.Room, want: Tracks, o: ConnectOutcome): (s: Step)
    ensures Succeeded(o, want) ==> s == ConnectInternal(st, info, room, want, o)
    ensures !Succeeded(o, want) ==>
              && s.st.timer.None? && s.st.roomInfo.None? && s.st.room.None?
              && s.st.remotes == st.remotes && s.st.local == st.local
              && s.events == ConnectInternal(st, info, room, want, o).events
  {
    var c := ConnectInternal(st, info, room, want, o);
    if Succeeded(o, want) then c else Step(StopTimeoutChecker(c.st), c.events)
  }

  /** With the corrected connect, a failed join leaves no checker running, whatever invitations
      were accepted while it was connecting, and the next join starts from a session without one. */
  lemma FailedJoinStopsChecker(st: State, info: R.RoomInfo, room: T.Room, want: Tracks, o: ConnectOutcome, now: int, uids: seq<string>)
    requires st.roomInfo.None? && !Succeeded(o, want)
    ensures var j := Join(st, info, now);
            var i := D.InviteParticipant(j.st, info.roomName, uids, now);
            var c := ConnectInternalStopping(i.st, info, room, want, o);
            && c.st.roomInfo.None? && c.st.room.None? && c.st.timer.None?
            && c.events == [StatusChanged(info.roomName, StatusDisconnected)]
  {
  }

  /** A successful join leaves the room installed and a checker running with the room's timeout. */
  lemma SucceededJoin(st: State, info: R.RoomInfo, room: T.Room, want: Tracks, o: ConnectOutcome, now: int)
    requires st.roomInfo.None? && Succeeded(o, want)
    ensures var c := ConnectInternal(Join(st, info, now).st, info, room, want, o);
            && c.st.roomInfo == Some(info) && c.st.room == Some(room) && c.st.timer == Some(info.timeout)
            && c.events == []
  {
  }

  /** `leaveRoom()`: the checker stops, the room and its information go, and the directory is
      cleared, which leaves the session as it was before any join. */
  function LeaveRoom(st: State): (s: Step)
    ensures s == Step(Idle(), [])
  {
    var st1 := StopTimeoutChecker(st).(room := None, roomInfo := None);
    Step(D.Clear(st1).st, [])
  }

  // ---------------------------------------------------------------------------------------------
  // The timeout checker

  /** The checker's verdicts on a listing: the uids to evict, in order, and the number still
      waiting. */
  datatype Verdicts = Verdicts(expired: seq<string>, pending: nat)

  /** A record the checker gives up on: not local, not joined, and waited at least `t` whole
      seconds. */
  predicate Overdue(r: P.Record, login: Option<string>, now: int, t: int)
  {
    !P.IsLocal(r, login) && !r.hasJoined && now - r.createdAt >= t
  }

  /** A record the checker keeps waiting for: not local, not joined, waited less than `t`. */
  predicate Waiting(r: P.Record, login: Option<string>, now: int, t: int)
  {
    !P.IsLocal(r, login) && !r.hasJoined && now - r.createdAt < t
  }

  /** The loop of `checkParticipantsTimeout(timeoutSeconds:)` over the listing. */
  function Scan(list: seq<P.Record>, login: Option<string>, now: int, t: int): (v: Verdicts)
    ensures forall i :: 0 <= i < |list| && Overdue(list[i], login, now, t) ==> list[i].uid in v.expired
    ensures v.pending == 0 <==> forall i :: 0 <= i < |list| ==> !Waiting(list[i], login, now, t)
    decreases |list|
  {
    if list == [] then Verdicts([], 0)
    else
      var rest := Scan(list[1..], login, now, t);
      var r := list[0];
      if P.IsLocal(r, login) || r.hasJoined then rest
      else if now - r.createdAt >= t then Verdicts([r.uid] + rest.expired, rest.pending)
      else Verdicts(rest.expired, rest.pending + 1)
  }

  /** Only overdue records are marked: every marked uid is filed under a record that is overdue. */
  lemma {:induction false} ScanMarksOnlyOverdue(list: seq<P.Record>, m: map<string, P.Record>, login: Option<string>, now: int, t: int)
    requires D.Listed(list, m)
    ensures forall k :: k in Scan(list, login, now, t).expired ==> k in m && Overdue(m[k], login, now, t)
    decreases |list|
  {
    if list != [] {
      assert D.Listed(list[1..], m) by {
        forall i | 0 <= i < |list[1..]| ensures list[1..][i].uid in m && D.Agree(list[1..][i], m[list[1..][i].uid]) {
          assert list[1..][i] == list[i + 1];
        }
      }
      ScanMarksOnlyOverdue(list[1..], m, login, now, t);
    }
  }

  /** Over a listing of every filed uid but the login uid, the records the scan hands over for
      eviction are exactly the overdue ones. */
  lemma ListingEvictsOverdue(list: seq<P.Record>, m: map<string, P.Record>, login: string, now: int, t: int)
    requires KeysMatch(m) && D.Listed(list, m) && D.Uids(list) == m.Keys - {login}
    ensures var gone := D.Evictable(m, Scan(list, Some(login), now, t).expired);
            forall k :: k in m ==> (k in gone <==> Overdue(m[k], Some(login), now, t))
  {
    ScanMarksOnlyOverdue(list, m, Some(login), now, t);
    forall k | k in m && Overdue(m[k], Some(login), now, t)
      ensures k in D.Evictable(m, Scan(list, Some(login), now, t).expired)
    {
      var i := D.UidsIndex(list, k);
      assert D.Agree(list[i], m[k]);
    }
  }

  /** One tick: nothing without a running checker; otherwise the remote listing is scanned, the
      overdue uids are handed to `missedParticipants` when there are any and a room is current, and
      the checker stops when nobody is left waiting and the listing was not empty. */
  function Tick(st: State, order: seq<string>, now: int): (s: Step)
    requires KeysMatch(st.remotes) && IsEnumeration(order, st.remotes.Keys)
    ensures st.timer.None? ==> s == Step(st, [])
    ensures (s.st.roomInfo.Some? <==> st.roomInfo.Some?) && s.st.room == st.room && s.st.local == st.local
  {
    match st.timer
    case None => Step(st, [])
    case Some(t) =>
      var l := D.GetRemoteParticipants(st, order, now);
      var v := Scan(l.list, LoginUID(st), now, t);
      var m := if v.expired != [] && st.roomInfo.Some? then D.MissedParticipants(l.st, st.roomInfo.value.roomName, v.expired)
               else Step(l.st, []);
      var st2 := if v.pending == 0 && l.list != [] then StopTimeoutChecker(m.st) else m.st;
      Step(st2, l.events + m.events)
  }

  /** Once the checker is stopped a tick does nothing, in a room or out of one. */
  lemma StoppedTickIsNoop(st: State, order: seq<string>, now: int)
    requires KeysMatch(st.remotes) && IsEnumeration(order, st.remotes.Keys)
    ensures Tick(StopTimeoutChecker(st), order, now) == Step(StopTimeoutChecker(st), [])
  {
  }

  /** Outside a room a tick changes nothing: the listing is empty and the checker keeps running. */
  lemma TickOutsideRoom(st: State, order: seq<string>, now: int)
    requires KeysMatch(st.remotes) && IsEnumeration(order, st.remotes.Keys)
    requires st.roomInfo.None?
    ensures Tick(st, order, now) == Step(st, [])
  {
  }

  /** A tick evicts exactly the overdue records of the directory it lists (after the listing has
      filed the new transport participants) and keeps every other record as it was. */
  lemma TickEvicts(st: State, order: seq<string>, now: int)
    requires KeysMatch(st.remotes) && IsEnumeration(order, st.remotes.Keys)
    requires st.timer.Some? && st.roomInfo.Some?
    ensures var m := D.GetRemoteParticipants(st, order, now).st.remotes;
            var s := Tick(st, order, now);
            && s.st.remotes.Keys <= m.Keys
            && (forall k :: k in s.st.remotes ==> s.st.remotes[k] == m[k])
            && (forall k :: k in m ==> (k in s.st.remotes <==> !Overdue(m[k], LoginUID(st), now, st.timer.value)))
  {
    var t := st.timer.value;
    var login := st.roomInfo.value.loginUID;
    var l := D.GetRemoteParticipants(st, order, now);
    var m := l.st.remotes;
    var v := Scan(l.list, LoginUID(st), now, t);
    D.GetRemoteParticipantsFiles(st, order, now);
    D.GetRemoteParticipantsCovers(st, order, now);
    D.GetRemoteParticipantsAgree(st, order, now);
    ListingEvictsOverdue(l.list, m, login, now, t);
    if v.expired != [] {
      D.EvictFacts(l.st, v.expired);
    } else {
      assert D.Evictable(m, v.expired) == {};
    }
  }

  /** Nobody in a listing is waiting exactly when nobody filed (other than the login uid) is. */
  lemma NoneWaitingListed(st: State, order: seq<string>, now: int, t: int)
    requires KeysMatch(st.remotes) && IsEnumeration(order, st.remotes.Keys)
    requires st.roomInfo.Some?
    ensures var l := D.GetRemoteParticipants(st, order, now);
            var login := st.roomInfo.value.loginUID;
            (forall i :: 0 <= i < |l.list| ==> !Waiting(l.list[i], LoginUID(st), now, t)) <==>
            (forall k :: k in l.st.remotes && k != login ==> !Waiting(l.st.remotes[k], LoginUID(st), now, t))
  {
    var login := st.roomInfo.value.loginUID;
    var l := D.GetRemoteParticipants(st, order, now);
    var m := l.st.remotes;
    D.GetRemoteParticipantsCovers(st, order, now);
    D.GetRemoteParticipantsAgree(st, order, now);
    if forall k :: k in m && k != login ==> !Waiting(m[k], LoginUID(st), now, t) {
      forall i | 0 <= i < |l.list| ensures !Waiting(l.list[i], LoginUID(st), now, t) {
        D.UidsMember(l.list, i);
      }
    } else {
      var k :| k in m && k != login && Waiting(m[k], LoginUID(st), now, t);
      var i := D.UidsIndex(l.list, k);
      assert D.Agree(l.list[i], m[k]);
    }
  }

  /** A listing is empty exactly when nothing but (possibly) the login uid is filed. */
  lemma ListingEmpty(st: State, order: seq<string>, now: int)
    requires KeysMatch(st.remotes) && IsEnumeration(order, st.remotes.Keys)
    requires st.roomInfo.Some?
    ensures var l := D.GetRemoteParticipants(st, order, now);
            l.list == [] <==> l.st.remotes.Keys - {st.roomInfo.value.loginUID} == {}
  {
    var l := D.GetRemoteParticipants(st, order, now);
    D.GetRemoteParticipantsCovers(st, order, now);
    if l.list != [] {
      D.UidsMember(l.list, 0);
    }
  }

  /** A tick stops the checker exactly when, after listing, some record other than the login
      uid's is filed and none of them is still waiting. */
  lemma TickStops(st: State, order: seq<string>, now: int)
    requires KeysMatch(st.remotes) && IsEnumeration(order, st.remotes.Keys)
    requires st.timer.Some? && st.roomInfo.Some?
    ensures var m := D.GetRemoteParticipants(st, order, now).st.remotes;
            var login := st.roomInfo.value.loginUID;
            Tick(st, order, now).st.timer.None? <==>
              && m.Keys - {login} != {}
              && (forall k :: k in m && k != login ==> !Waiting(m[k], LoginUID(st), now, st.timer.value))
  {
    NoneWaitingListed(st, order, now, st.timer.value);
    ListingEmpty(st, order, now);
  }

  /** As written, a participant whose record was created already bound to its transport handle
      (by `setParticipantJoin`) has not joined, so a tick evicts it, firing Leave, once the
      timeout has passed, although it is in the room. */
  lemma BoundJoinerEvicted()
    ensures var info := R.Default().(roomName := "r", loginUID := "me", timeout := 30);
            var h := T.RemoteHandle("s1", Some("bob"), [], false);
            var st0 := Idle().(roomInfo := Some(info), room := Some(T.Room(T.LocalHandle("s0", false, false, false), [h])), timer := Some(30));
            var st1 := D.SetParticipantJoin(st0, h, 0).st;
            "bob" in st1.remotes && st1.remotes["bob"].remote == Some(h)
            && "bob" !in Tick(st1, ["bob"], 30).st.remotes
  {
    var info := R.Default().(roomName := "r", loginUID := "me", timeout := 30);
    var h := T.RemoteHandle("s1", Some("bob"), [], false);
    var st0 := Idle().(roomInfo := Some(info), room := Some(T.Room(T.LocalHandle("s0", false, false, false), [h])), timer := Some(30));
    var st1 := D.SetParticipantJoin(st0, h, 0).st;
    assert st1.remotes == map["bob" := P.Create("bob", 0, None, Some(h))];
    assert IsEnumeration(["bob"], st1.remotes.Keys);
    TickEvicts(st1, ["bob"], 30);
    D.GetRemoteParticipantsFiles(st1, ["bob"], 30);
  }

  // ---------------------------------------------------------------------------------------------
  // Connection states

  /** The status announced for each transport connection state. */
  function StatusOf(cs: T.ConnectionState): (c: ConnectStatus)
    ensures c == StatusConnecting <==> cs == T.Connecting || cs == T.Reconnecting
    ensures c == StatusConnected <==> cs == T.Connected
    ensures c == StatusDisconnected <==> cs == T.Disconnected
  {
    match cs
    case Connecting => StatusConnecting
    case Reconnecting => StatusConnecting
    case Connected => StatusConnected
    case Disconnected => StatusDisconnected
  }

  /** `room(_:didUpdateConnectionState:from:)`: nothing outside a room; otherwise the mapped
      status is announced; on Connected the local record is bound to the room's local participant
      and the transport participants are synced; on Disconnected the local record leaves. */
  function OnConnectionState(st: State, room: T.Room, cs: T.ConnectionState, now: int): (s: Step)
    ensures st.roomInfo.None? ==> s == Step(st, [])
    ensures st.roomInfo.Some? ==> |s.events| >= 1 && s.events[0] == StatusChanged(st.roomInfo.value.roomName, StatusOf(cs))
    ensures st.roomInfo.Some? && (cs == T.Connecting || cs == T.Reconnecting) ==> s.st == st && |s.events| == 1
    ensures s.st.roomInfo.Some? <==> st.roomInfo.Some?
    ensures s.st.room == st.room && s.st.timer == st.timer
  {
    match st.roomInfo
    case None => Step(st, [])
    case Some(info) =>
      var announce := StatusChanged(info.roomName, StatusOf(cs));
      match cs
      case Connecting => Step(st, [announce])
      case Reconnecting => Step(st, [announce])
      case Connected =>
        var l := D.GetLocalParticipant(st, now);
        var b := P.SetLocal(l.rec.value, room.local);
        var sync := D.SyncExistingRemoteParticipants(l.st.(local := Some(b.rec)), now);
        Step(sync.st, [announce] + l.events + Tag(b.rec.uid, b.fired) + sync.events)
      case Disconnected =>
        var l := D.GetLocalParticipant(st, now);
        var n := P.NotifyLeave(l.rec.value);
        Step(l.st.(local := Some(n.rec)), [announce] + l.events + Tag(n.rec.uid, n.fired))
  }

  /** After Connected the local record has joined through the room's local participant, and
      every transport participant other than the login uid has a bound record. */
  lemma ConnectedBindsEveryone(st: State, room: T.Room, now: int)
    requires st.roomInfo.Some? && st.room.Some? && KeysMatch(st.remotes)
    ensures var s := OnConnectionState(st, room, T.Connected, now);
            && s.st.local.Some? && s.st.local.value.hasJoined && s.st.local.value.local == Some(room.local)
            && KeysMatch(s.st.remotes)
            && (forall k :: k in T.Identities(st.room.value.remotes) - {st.roomInfo.value.loginUID} ==> D.Bound(s.st.remotes, k))
            && (forall k :: k in st.remotes ==> k in s.st.remotes)
  {
    var l := D.GetLocalParticipant(st, now);
    var b := P.SetLocal(l.rec.value, room.local);
    D.SyncPassFiles(l.st.(local := Some(b.rec)), st.room.value.remotes, st.roomInfo.value.loginUID, now);
  }

  /** After Disconnected the local record is disposed; the room information stays. With a room
      installed, the lookup first rebinds an existing local record, so Joined fires before Left;
      Left fires unless the record was already disposed. */
  lemma DisconnectedDisposesLocal(st: State, room: T.Room, now: int)
    requires st.roomInfo.Some?
    ensures var s := OnConnectionState(st, room, T.Disconnected, now);
            var u := if st.local.Some? then st.local.value.uid else st.roomInfo.value.loginUID;
            && s.st.local.Some? && s.st.local.value.isDisposed
            && s.st.roomInfo == st.roomInfo && s.st.remotes == st.remotes
            && s.events == [StatusChanged(st.roomInfo.value.roomName, StatusDisconnected)]
                           + (if st.room.Some? && st.local.Some? then [RecordSignal(u, P.Joined)] else [])
                           + (if st.local.Some? && st.local.value.isDisposed then [] else [RecordSignal(u, P.Left)])
  {
  }
}

=== FILE: directory.dfy ===
/** The participant directory of the current SDK (`manager/ParticipantManager.swift`): the remote
    records keyed by uid, the local record, and their reconciliation with the room's expected
    uid list and the transport's participants. */
module Directory {
  import opened Optional
  import opened Seqs
  import T = Transport
  import P = Participants
  import R = Rooms
  import opened Session

  // ---------------------------------------------------------------------------------------------
  // Pending participants

  /** Files a handle-less record for every uid of `uids` that is not `login` and has no record. */
  function AddPending(m: map<string, P.Record>, uids: seq<string>, login: string, now: int): (m': map<string, P.Record>)
    ensures m'.Keys == m.Keys + (set u | u in uids && u != login)
    ensures forall k :: k in m ==> m'[k] == m[k]
    ensures forall k :: k in m' && k !in m ==> m'[k] == P.Create(k, now, None, None)
    decreases |uids|
  {
    if uids == [] then m
    else
      var m1 := if uids[0] == login || uids[0] in m then m else m[uids[0] := P.Create(uids[0], now, None, None)];
      assert forall u :: u in uids <==> u == uids[0] || u in uids[1..];
      AddPending(m1, uids[1..], login, now)
  }

  /** `initializePendingParticipants()`: a pending record for each expected uid other than the
      login uid that has none yet; existing records and everything else are untouched. */
  function InitializePendingParticipants(st: State, now: int): (st': State)
    ensures st'.(remotes := st.remotes) == st
    ensures st.roomInfo.None? ==> st' == st
    ensures st.roomInfo.Some? ==>
              st'.remotes.Keys == st.remotes.Keys + (set u | u in st.roomInfo.value.uidList && u != st.roomInfo.value.loginUID)
    ensures forall k :: k in st.remotes ==> k in st'.remotes && st'.remotes[k] == st.remotes[k]
    ensures forall k :: k in st'.remotes && k !in st.remotes ==> st'.remotes[k] == P.Create(k, now, None, None)
  {
    match st.roomInfo
    case None => st
    case Some(info) =>
      var m := AddPending(st.remotes, info.uidList, info.loginUID, now);
      st.(remotes := m)
  }

  /** A second initialisation, at any time, changes nothing: existing records are never reset. */
  lemma InitializePendingIdempotent(st: State, now: int, later: int)
    ensures InitializePendingParticipants(InitializePendingParticipants(st, now), later)
         == InitializePendingParticipants(st, now)
  {
    var s1 := InitializePendingParticipants(st, now);
    var s2 := InitializePendingParticipants(s1, later);
    assert s2.remotes == s1.remotes;
  }

  // ---------------------------------------------------------------------------------------------
  // Lookups

  /** A lookup's new state, its answer and the events it delivered on the way. */
  datatype Lookup = Lookup(st: State, rec: Option<P.Record>, events: seq<Event>)

  /** `getLocalParticipant()`: outside a room there is none; otherwise the local record is created
      on first use (bound to the room's local handle if there is a room, but not joined), and on
      later uses rebound to that handle, which fires Joined each time. */
  function GetLocalParticipant(st: State, now: int): (r: Lookup)
    ensures r.st.(local := st.local) == st
    ensures st.roomInfo.None? ==> r == Lookup(st, None, [])
    ensures st.roomInfo.Some? ==> r.rec.Some? && r.st.local == r.rec
    ensures st.roomInfo.Some? && st.local.None? ==>
              && r.rec.value == P.Create(st.roomInfo.value.loginUID, now, if st.room.Some? then Some(st.room.value.local) else None, None)
              && r.events == []
    ensures st.roomInfo.Some? && st.local.Some? && st.room.Some? ==>
              && r.rec.value.hasJoined && r.rec.value.uid == st.local.value.uid
              && r.rec.value.local == Some(st.room.value.local)
              && r.events == [RecordSignal(st.local.value.uid, P.Joined)]
    ensures st.roomInfo.Some? && st.local.Some? && st.room.None? ==> r == Lookup(st, st.local, [])
  {
    match st.roomInfo
    case None => Lookup(st, None, [])
    case Some(info) =>
      match st.local
      case None =>
        var rec := P.Create(info.loginUID, now, if st.room.Some? then Some(st.room.value.local) else None, None);
        Lookup(st.(local := Some(rec)), Some(rec), [])
      case Some(l) =>
        match st.room
        case None => Lookup(st, st.local, [])
        case Some(room) =>
          var s := P.SetLocal(l, room.local);
          Lookup(st.(local := Some(s.rec)), Some(s.rec), Tag(l.uid, s.fired))
  }

  /** In a room with a transport room, the first lookup creates the local record for the login
      uid, bound but not joined and without a signal; each later lookup returns that same uid,
      now joined and bound to the room's local participant, and fires exactly one Joined. */
  lemma LocalLookupAgain(st: State, now: int, later: int, last: int)
    requires st.roomInfo.Some? && st.room.Some? && st.local.None?
    ensures var l1 := GetLocalParticipant(st, now);
            var l2 := GetLocalParticipant(l1.st, later);
            var l3 := GetLocalParticipant(l2.st, last);
            var login := st.roomInfo.value.loginUID;
            && l1.rec.value.uid == login && !l1.rec.value.hasJoined
            && l1.rec.value.local == Some(st.room.value.local) && l1.events == []
            && l2.rec.value.uid == login && l2.rec.value.hasJoined
            && l2.rec.value.local == Some(st.room.value.local)
            && l2.events == [RecordSignal(login, P.Joined)]
            && l3.rec.value.uid == login && l3.rec.value.hasJoined
            && l3.events == [RecordSignal(login, P.Joined)]
            && l3.st.(local := st.local) == st
  {
  }

  /** A listing: the new state, the listed records in order, and the events delivered on the way. */
  datatype Listing = Listing(st: State, list: seq<P.Record>, events: seq<Event>)

  /** An intermediate pass over the remote map. */
  datatype Pass = Pass(m: map<string, P.Record>, list: seq<P.Record>, events: seq<Event>)

  /** A record only gains: same identity, creation time and local handle, and joined stays joined. */
  predicate Grown(a: P.Record, b: P.Record)
  {
    a.uid == b.uid && a.createdAt == b.createdAt && a.local == b.local && (a.hasJoined ==> b.hasJoined)
  }

  /** Two records agree on everything the timeout checker reads. */
  predicate Agree(a: P.Record, b: P.Record)
  {
    a.uid == b.uid && a.local.Some? == b.local.Some? && a.hasJoined == b.hasJoined && a.createdAt == b.createdAt
  }

  /** Signals fired while binding: only Joined and TrackPublished. */
  predicate BindSignals(evs: seq<Event>)
  {
    forall i :: 0 <= i < |evs| ==> evs[i].RecordSignal? && evs[i].signal in {P.Joined, P.TrackPublished}
  }

  /** The uids of a listing. */
  function Uids(list: seq<P.Record>): set<string>
    decreases |list|
  {
    if list == [] then {} else {list[0].uid} + Uids(list[1..])
  }

  /** Binds a record that has no remote handle to the transport participant of its uid, if any. */
  function BindIfPresent(rec: P.Record, lk: seq<T.RemoteHandle>, u: string): (s: P.Step)
    ensures Grown(rec, s.rec)
    ensures forall i :: 0 <= i < |s.fired| ==> s.fired[i] in {P.Joined, P.TrackPublished}
  {
    match T.FirstWithIdentity(lk, u)
    case Some(h) => if rec.remote.None? then P.SetRemote(rec, h) else P.Step(rec, [])
    case None => P.Step(rec, [])
  }

  /** First loop of `getRemoteParticipants()`: each cached record, in map order, except the login
      uid's; a record without a remote handle is bound to the transport participant of its uid
      when there is one. */
  function CachedPass(m: map<string, P.Record>, order: seq<string>, login: string, lk: seq<T.RemoteHandle>): (p: Pass)
    requires forall i :: 0 <= i < |order| ==> order[i] in m
    ensures p.m.Keys == m.Keys
    decreases |order|
  {
    if order == [] then Pass(m, [], [])
    else
      var u := order[0];
      if u == login then CachedPass(m, order[1..], login, lk)
      else
        var s := BindIfPresent(m[u], lk, u);
        var rest := CachedPass(m[u := s.rec], order[1..], login, lk);
        Pass(rest.m, [s.rec] + rest.list, Tag(u, s.fired) + rest.events)
  }

  /** The first loop keeps every record's identity, creation time and local handle, never
      un-joins one, and leaves the records it does not visit alone. */
  lemma {:induction false} CachedPassGrows(m: map<string, P.Record>, order: seq<string>, login: string, lk: seq<T.RemoteHandle>)
    requires forall i :: 0 <= i < |order| ==> order[i] in m
    requires KeysMatch(m)
    ensures KeysMatch(CachedPass(m, order, login, lk).m)
    ensures forall k :: k in m ==> Grown(m[k], CachedPass(m, order, login, lk).m[k])
    ensures forall k :: k in m && k !in order ==> CachedPass(m, order, login, lk).m[k] == m[k]
    ensures BindSignals(CachedPass(m, order, login, lk).events)
    decreases |order|
  {
    if order != [] {
      var u := order[0];
      assert forall k :: k in order <==> k == u || k in order[1..];
      if u == login {
        CachedPassGrows(m, order[1..], login, lk);
      } else {
        var s := BindIfPresent(m[u], lk, u);
        CachedPassGrows(m[u := s.rec], order[1..], login, lk);
      }
    }
  }

  /** The first loop leaves a record it does not visit as it was. */
  lemma {:induction false} CachedPassSkips(m: map<string, P.Record>, order: seq<string>, login: string, lk: seq<T.RemoteHandle>, k: string)
    requires forall i :: 0 <= i < |order| ==> order[i] in m
    requires k in m && k !in order
    ensures k in CachedPass(m, order, login, lk).m && CachedPass(m, order, login, lk).m[k] == m[k]
    decreases |order|
  {
    if order != [] {
      var u := order[0];
      assert k !in order[1..] && k != u;
      if u == login {
        CachedPassSkips(m, order[1..], login, lk, k);
      } else {
        var s := BindIfPresent(m[u], lk, u);
        CachedPassSkips(m[u := s.rec], order[1..], login, lk, k);
      }
    }
  }

  /** The first loop lists only filed uids other than the login uid. */
  lemma {:induction false} CachedPassListsVisited(m: map<string, P.Record>, order: seq<string>, login: string, lk: seq<T.RemoteHandle>)
    requires forall i :: 0 <= i < |order| ==> order[i] in m
    requires KeysMatch(m)
    ensures var p := CachedPass(m, order, login, lk);
            forall i :: 0 <= i < |p.list| ==> p.list[i].uid != login && p.list[i].uid in m
    decreases |order|
  {
    if order != [] {
      var u := order[0];
      if u == login {
        CachedPassListsVisited(m, order[1..], login, lk);
        var p := CachedPass(m, order, login, lk);
        forall i | 0 <= i < |p.list| ensures p.list[i].uid != login && p.list[i].uid in m {
          assert p.list[i] == CachedPass(m, order[1..], login, lk).list[i];
        }
      } else {
        var s := BindIfPresent(m[u], lk, u);
        CachedPassListsVisited(m[u := s.rec], order[1..], login, lk);
        var p := CachedPass(m, order, login, lk);
        assert p.list == [s.rec] + CachedPass(m[u := s.rec], order[1..], login, lk).list;
        forall i | 0 <= i < |p.list| ensures p.list[i].uid != login && p.list[i].uid in m {
          if i == 0 {
            assert Grown(m[u], s.rec);
          } else {
            assert p.list[i] == CachedPass(m[u := s.rec], order[1..], login, lk).list[i - 1];
          }
        }
      }
    }
  }

  /** Each record the first loop lists is the one it leaves filed under that uid. */
  lemma {:induction false} CachedPassLists(m: map<string, P.Record>, order: seq<string>, login: string, lk: seq<T.RemoteHandle>)
    requires forall i :: 0 <= i < |order| ==> order[i] in m
    requires NoDup(order) && KeysMatch(m)
    ensures var p := CachedPass(m, order, login, lk);
            forall i :: 0 <= i < |p.list| ==> p.list[i].uid in p.m && p.list[i] == p.m[p.list[i].uid]
    decreases |order|
  {
    if order != [] {
      var u := order[0];
      NoDupTail(order);
      var p := CachedPass(m, order, login, lk);
      if u == login {
        CachedPassLists(m, order[1..], login, lk);
        forall i | 0 <= i < |p.list| ensures p.list[i].uid in p.m && p.list[i] == p.m[p.list[i].uid] {
          assert p.list[i] == CachedPass(m, order[1..], login, lk).list[i];
        }
      } else {
        var s := BindIfPresent(m[u], lk, u);
        var m1 := m[u := s.rec];
        assert Grown(m[u], s.rec);
        CachedPassLists(m1, order[1..], login, lk);
        CachedPassSkips(m1, order[1..], login, lk, u);
        assert p.list == [s.rec] + CachedPass(m1, order[1..], login, lk).list;
        assert p.m == CachedPass(m1, order[1..], login, lk).m;
        forall i | 0 <= i < |p.list| ensures p.list[i].uid in p.m && p.list[i] == p.m[p.list[i].uid] {
          if i == 0 {
            assert CachedPass(m1, order[1..], login, lk).m[u] == m1[u];
          } else {
            assert p.list[i] == CachedPass(m1, order[1..], login, lk).list[i - 1];
          }
        }
      }
    }
  }

  /** The first loop lists every visited uid other than the login uid, and no other. */
  lemma {:induction false} CachedPassCovers(m: map<string, P.Record>, order: seq<string>, login: string, lk: seq<T.RemoteHandle>)
    requires forall i :: 0 <= i < |order| ==> order[i] in m
    requires KeysMatch(m)
    ensures Uids(CachedPass(m, order, login, lk).list) == (set k | k in order && k != login)
    decreases |order|
  {
    if order != [] {
      var u := order[0];
      assert forall k :: k in order <==> k == u || k in order[1..];
      if u == login {
        CachedPassCovers(m, order[1..], login, lk);
      } else {
        var s := BindIfPresent(m[u], lk, u);
        CachedPassCovers(m[u := s.rec], order[1..], login, lk);
      }
    }
  }

  /** The identities of the transport participants that the second loop of
      `getRemoteParticipants()` adds: identity known, not the login uid, not already listed. */
  function FreshIds(lk: seq<T.RemoteHandle>, login: string, processed: set<string>): set<string>
    decreases |lk|
  {
    if lk == [] then {}
    else
      var rest := FreshIds(lk[1..], login, processed);
      match lk[0].identity
      case Some(id) => if id != login && id !in processed then {id} + rest else rest
      case None => rest
  }

  /** A record created by the second loop: bound to a remote handle at `now`, not joined. */
  predicate FreshBound(r: P.Record, now: int)
  {
    r.createdAt == now && r.local.None? && r.remote.Some? && !r.hasJoined
  }

  /** Second loop of `getRemoteParticipants()`: a new bound record, cached and listed, for every
      transport participant not listed yet. */
  function FreshPass(m: map<string, P.Record>, lk: seq<T.RemoteHandle>, login: string, processed: set<string>, now: int): (p: Pass)
    ensures p.events == []
    ensures p.m.Keys == m.Keys + FreshIds(lk, login, processed)
    decreases |lk|
  {
    if lk == [] then Pass(m, [], [])
    else
      var h := lk[0];
      match h.identity
      case None => FreshPass(m, lk[1..], login, processed, now)
      case Some(id) =>
        if id == login || id in processed then FreshPass(m, lk[1..], login, processed, now)
        else
          var rec := P.Create(id, now, None, Some(h));
          var rest := FreshPass(m[id := rec], lk[1..], login, processed, now);
          Pass(rest.m, [rec] + rest.list, rest.events)
  }

  /** The second loop files and lists a fresh, bound, not-joined record under every new identity,
      and touches no other record. */
  lemma {:induction false} FreshPassKeeps(m: map<string, P.Record>, lk: seq<T.RemoteHandle>, login: string, processed: set<string>, now: int)
    requires KeysMatch(m)
    ensures var p := FreshPass(m, lk, login, processed, now);
            && KeysMatch(p.m)
            && (forall k :: k in m && k !in FreshIds(lk, login, processed) ==> p.m[k] == m[k])
            && (forall k :: k in FreshIds(lk, login, processed) ==> FreshBound(p.m[k], now))
    decreases |lk|
  {
    if lk != [] {
      var h := lk[0];
      if h.identity.Some? && h.identity.value != login && h.identity.value !in processed {
        var id := h.identity.value;
        FreshPassKeeps(m[id := P.Create(id, now, None, Some(h))], lk[1..], login, processed, now);
      } else {
        FreshPassKeeps(m, lk[1..], login, processed, now);
      }
    }
  }

  /** The second loop lists exactly the new identities, each with a fresh bound record. */
  lemma {:induction false} FreshPassLists(m: map<string, P.Record>, lk: seq<T.RemoteHandle>, login: string, processed: set<string>, now: int)
    ensures var p := FreshPass(m, lk, login, processed, now);
            && Uids(p.list) == FreshIds(lk, login, processed)
            && (forall i :: 0 <= i < |p.list| ==> FreshBound(p.list[i], now))
    decreases |lk|
  {
    if lk != [] {
      var h := lk[0];
      if h.identity.Some? && h.identity.value != login && h.identity.value !in processed {
        var id := h.identity.value;
        var rec := P.Create(id, now, None, Some(h));
        FreshPassLists(m[id := rec], lk[1..], login, processed, now);
        var rest := FreshPass(m[id := rec], lk[1..], login, processed, now);
        assert FreshPass(m, lk, login, processed, now).list == [rec] + rest.list;
      } else {
        FreshPassLists(m, lk[1..], login, processed, now);
      }
    }
  }


  /** The identities the second loop adds: those of the transport participants, except the login
      uid and the uids already processed. */
  lemma {:induction false} FreshIdsAreNewIdentities(lk: seq<T.RemoteHandle>, login: string, processed: set<string>)
    ensures FreshIds(lk, login, processed) == T.Identities(lk) - processed - {login}
    decreases |lk|
  {
    if lk != [] {
      FreshIdsAreNewIdentities(lk[1..], login, processed);
    }
  }

  /** The transport participants, as `room?.remoteParticipants ?? [:]`. */
  function TransportRemotes(st: State): seq<T.RemoteHandle>
  {
    if st.room.Some? then st.room.value.remotes else []
  }

  /** `getRemoteParticipants()`: outside a room, nothing. Otherwise every cached record except the
      login uid's, in dictionary order (`order`, since Swift leaves it unspecified), each bound to
      its transport participant if it had no remote handle yet; then a new bound record, cached
      and listed, for each transport participant that had none. */
  function GetRemoteParticipants(st: State, order: seq<string>, now: int): (r: Listing)
    requires KeysMatch(st.remotes) && IsEnumeration(order, st.remotes.Keys)
    ensures r.st.(remotes := st.remotes) == st
    ensures st.roomInfo.None? ==> r == Listing(st, [], [])
  {
    match st.roomInfo
    case None => Listing(st, [], [])
    case Some(info) =>
      assert forall i :: 0 <= i < |order| ==> order[i] in order;
      var lk := TransportRemotes(st);
      var c := CachedPass(st.remotes, order, info.loginUID, lk);
      var f := FreshPass(c.m, lk, info.loginUID, st.remotes.Keys - {info.loginUID}, now);
      Listing(st.(remotes := f.m), c.list + f.list, c.events)
  }

  /** What a listing does to the filed records: every uid keeps its record, which only grows; a
      fresh, bound, not-joined record is filed under exactly the transport identities that had
      none, never under the login uid; and the only events are those of binding. */
  lemma GetRemoteParticipantsFiles(st: State, order: seq<string>, now: int)
    requires KeysMatch(st.remotes) && IsEnumeration(order, st.remotes.Keys)
    requires st.roomInfo.Some?
    ensures var r := GetRemoteParticipants(st, order, now);
            && KeysMatch(r.st.remotes)
            && r.st.remotes.Keys == st.remotes.Keys + (T.Identities(TransportRemotes(st)) - {st.roomInfo.value.loginUID})
            && (forall k :: k in st.remotes ==> Grown(st.remotes[k], r.st.remotes[k]))
            && (forall k :: k in r.st.remotes && k !in st.remotes ==> FreshBound(r.st.remotes[k], now))
            && BindSignals(r.events)
  {
    var login := st.roomInfo.value.loginUID;
    var lk := TransportRemotes(st);
    var processed := st.remotes.Keys - {login};
    assert forall i :: 0 <= i < |order| ==> order[i] in order;
    var c := CachedPass(st.remotes, order, login, lk);
    CachedPassGrows(st.remotes, order, login, lk);
    FreshPassKeeps(c.m, lk, login, processed, now);
    FreshIdsAreNewIdentities(lk, login, processed);
  }

  /** A listing returns exactly the filed uids other than the login uid. */
  lemma GetRemoteParticipantsCovers(st: State, order: seq<string>, now: int)
    requires KeysMatch(st.remotes) && IsEnumeration(order, st.remotes.Keys)
    requires st.roomInfo.Some?
    ensures var r := GetRemoteParticipants(st, order, now);
            Uids(r.list) == r.st.remotes.Keys - {st.roomInfo.value.loginUID}
  {
    var login := st.roomInfo.value.loginUID;
    var lk := TransportRemotes(st);
    var processed := st.remotes.Keys - {login};
    assert forall i :: 0 <= i < |order| ==> order[i] in order;
    var c := CachedPass(st.remotes, order, login, lk);
    var f := FreshPass(c.m, lk, login, processed, now);
    CachedPassCovers(st.remotes, order, login, lk);
    FreshPassLists(c.m, lk, login, processed, now);
    FreshIdsAreNewIdentities(lk, login, processed);
    UidsAppend(c.list, f.list);
    assert (set k | k in order && k != login) == processed;
    assert GetRemoteParticipants(st, order, now).st.remotes == f.m;
  }

  /** Every listed record agrees with the record filed under its uid. */
  predicate Listed(list: seq<P.Record>, m: map<string, P.Record>)
  {
    forall i :: 0 <= i < |list| ==> list[i].uid in m && Agree(list[i], m[list[i].uid])
  }

  /** A listing stays consistent with its map when both halves are. */
  lemma ListedAppend(a: seq<P.Record>, b: seq<P.Record>, m: map<string, P.Record>)
    requires Listed(a, m) && Listed(b, m)
    ensures Listed(a + b, m)
  {
    forall i | 0 <= i < |a + b| ensures (a + b)[i].uid in m && Agree((a + b)[i], m[(a + b)[i].uid]) {
      if i < |a| { assert (a + b)[i] == a[i]; } else { assert (a + b)[i] == b[i - |a|]; }
    }
  }

  /** The first loop's listing agrees with the map it leaves, and with the second loop's. */
  lemma CachedListingSurvives(st: State, order: seq<string>, now: int)
    requires KeysMatch(st.remotes) && IsEnumeration(order, st.remotes.Keys)
    requires st.roomInfo.Some?
    ensures var login := st.roomInfo.value.loginUID;
            var lk := TransportRemotes(st);
            var c := CachedPass(st.remotes, order, login, lk);
            Listed(c.list, FreshPass(c.m, lk, login, st.remotes.Keys - {login}, now).m)
  {
    var login := st.roomInfo.value.loginUID;
    var lk := TransportRemotes(st);
    var processed := st.remotes.Keys - {login};
    assert forall i :: 0 <= i < |order| ==> order[i] in order;
    var c := CachedPass(st.remotes, order, login, lk);
    var f := FreshPass(c.m, lk, login, processed, now);
    CachedPassGrows(st.remotes, order, login, lk);
    CachedPassListsVisited(st.remotes, order, login, lk);
    CachedPassLists(st.remotes, order, login, lk);
    FreshPassKeeps(c.m, lk, login, processed, now);
    FreshIdsAreNewIdentities(lk, login, processed);
    forall i | 0 <= i < |c.list| ensures c.list[i].uid in f.m && Agree(c.list[i], f.m[c.list[i].uid]) {
      var u := c.list[i].uid;
      assert u in st.remotes && u != login;
      assert u in processed;
      assert f.m[u] == c.m[u];
    }
  }

  /** Each listed record agrees with the record filed under its uid on identity, binding of the
      local handle, join state and creation time. */
  lemma GetRemoteParticipantsAgree(st: State, order: seq<string>, now: int)
    requires KeysMatch(st.remotes) && IsEnumeration(order, st.remotes.Keys)
    requires st.roomInfo.Some?
    ensures var r := GetRemoteParticipants(st, order, now);
            Listed(r.list, r.st.remotes)
  {
    var login := st.roomInfo.value.loginUID;
    var lk := TransportRemotes(st);
    var processed := st.remotes.Keys - {login};
    assert forall i :: 0 <= i < |order| ==> order[i] in order;
    var c := CachedPass(st.remotes, order, login, lk);
    var f := FreshPass(c.m, lk, login, processed, now);
    CachedPassGrows(st.remotes, order, login, lk);
    FreshPassKeeps(c.m, lk, login, processed, now);
    FreshPassLists(c.m, lk, login, processed, now);
    CachedListingSurvives(st, order, now);
    forall i | 0 <= i < |f.list| ensures f.list[i].uid in f.m && Agree(f.list[i], f.m[f.list[i].uid]) {
      UidsMember(f.list, i);
    }
    ListedAppend(c.list, f.list, f.m);
  }

  /** The uids of a concatenation. */
  lemma {:induction false} UidsAppend(a: seq<P.Record>, b: seq<P.Record>)
    ensures Uids(a + b) == Uids(a) + Uids(b)
    decreases |a|
  {
    if a != [] {
      assert (a + b)[0] == a[0];
      assert (a + b)[1..] == a[1..] + b;
      UidsAppend(a[1..], b);
      assert Uids(a + b) == {a[0].uid} + Uids(a[1..] + b);
    } else {
      assert a + b == b;
    }
  }

  /** A uid of a listing is carried by one of its records. */
  lemma {:induction false} UidsIndex(list: seq<P.Record>, k: string) returns (i: nat)
    requires k in Uids(list)
    ensures i < |list| && list[i].uid == k
    decreases |list|
  {
    if list[0].uid == k {
      i := 0;
    } else {
      var j := UidsIndex(list[1..], k);
      i := j + 1;
    }
  }

  /** Every listed record's uid is among the listing's uids. */
  lemma {:induction false} UidsMember(list: seq<P.Record>, i: nat)
    requires i < |list|
    ensures list[i].uid in Uids(list)
    decreases i
  {
    if i > 0 {
      UidsMember(list[1..], i - 1);
    }
  }

  /** `filter { $0.uid != uid }`. */
  function WithoutUid(list: seq<P.Record>, uid: string): (r: seq<P.Record>)
    ensures Uids(r) == Uids(list) - {uid}
    ensures forall i :: 0 <= i < |r| ==> r[i].uid != uid && r[i] in list
    decreases |list|
  {
    if list == [] then []
    else if list[0].uid == uid then WithoutUid(list[1..], uid)
    else [list[0]] + WithoutUid(list[1..], uid)
  }

  /** `getAllParticipants()`: the local record first, then the remote listing without the local
      record's uid. */
  function GetAllParticipants(st: State, order: seq<string>, now: int): (r: Listing)
    requires KeysMatch(st.remotes) && IsEnumeration(order, st.remotes.Keys)
    ensures st.roomInfo.None? ==> r == Listing(st, [], [])
    ensures st.roomInfo.Some? ==> |r.list| >= 1 && r.st.local == Some(r.list[0])
    ensures forall i :: 1 <= i < |r.list| ==> r.list[i].uid != r.list[0].uid
  {
    var l := GetLocalParticipant(st, now);
    var remote := GetRemoteParticipants(l.st, order, now);
    match l.rec
    case None => Listing(remote.st, remote.list, l.events + remote.events)
    case Some(rec) =>
      var rest := WithoutUid(remote.list, rec.uid);
      Listing(remote.st, [rec] + rest, l.events + remote.events)
  }

  /** The full listing names the local record and then every filed uid other than the login
      uid and the local record's. */
  lemma GetAllParticipantsCovers(st: State, order: seq<string>, now: int)
    requires KeysMatch(st.remotes) && IsEnumeration(order, st.remotes.Keys)
    requires st.roomInfo.Some?
    ensures var r := GetAllParticipants(st, order, now);
            Uids(r.list) == {r.list[0].uid} + (r.st.remotes.Keys - {st.roomInfo.value.loginUID})
  {
    var l := GetLocalParticipant(st, now);
    GetRemoteParticipantsCovers(l.st, order, now);
    var remote := GetRemoteParticipants(l.st, order, now);
    var rest := WithoutUid(remote.list, l.rec.value.uid);
    assert GetAllParticipants(st, order, now).list == [l.rec.value] + rest;
    UidsAppend([l.rec.value], rest);
  }

  // ---------------------------------------------------------------------------------------------
  // Reconciliation with the transport

  /** The uids announced as new participants, in order. */
  function Announced(evs: seq<Event>): seq<string>
    decreases |evs|
  {
    if evs == [] then []
    else (if evs[0].NewParticipant? then [evs[0].uid] else []) + Announced(evs[1..])
  }

  /** Announcements of a concatenation. */
  lemma {:induction false} AnnouncedAppend(a: seq<Event>, b: seq<Event>)
    ensures Announced(a + b) == Announced(a) + Announced(b)
    decreases |a|
  {
    if a == [] {
      assert a + b == b;
    } else {
      assert (a + b)[0] == a[0];
      assert (a + b)[1..] == a[1..] + b;
      AnnouncedAppend(a[1..], b);
    }
  }

  /** A record's signals announce nobody. */
  lemma {:induction false} AnnouncedTag(uid: string, fired: seq<P.Signal>)
    ensures Announced(Tag(uid, fired)) == []
    decreases |fired|
  {
    if fired != [] {
      AnnouncedTag(uid, fired[1..]);
    }
  }

  /** One step of `syncExistingRemoteParticipants()`: a transport participant with an identity
      other than the login uid either binds its handle-less record or, when it has none, gets a
      new bound record, is appended to the expected list if absent, and is announced. */
  function SyncOne(st: State, h: T.RemoteHandle, login: string, now: int): (s: Step)
    ensures s.st.(remotes := st.remotes, roomInfo := st.roomInfo) == st
    ensures s.st.roomInfo.Some? <==> st.roomInfo.Some?
  {
    match h.identity
    case None => Step(st, [])
    case Some(id) =>
      if id == login then Step(st, [])
      else if id in st.remotes then
        if st.remotes[id].remote.None? then
          var b := P.SetRemote(st.remotes[id], h);
          Step(st.(remotes := st.remotes[id := b.rec]), Tag(id, b.fired))
        else Step(st, [])
      else
        var st1 := if st.roomInfo.Some? && id !in st.roomInfo.value.uidList then AppendExpected(st, id) else st;
        Step(st1.(remotes := st1.remotes[id := P.Create(id, now, None, Some(h))]), [NewParticipant(id)])
  }

  /** The loop of `syncExistingRemoteParticipants()` over the transport participants. */
  function SyncPass(st: State, lk: seq<T.RemoteHandle>, login: string, now: int): (s: Step)
    ensures s.st.(remotes := st.remotes, roomInfo := st.roomInfo) == st
    ensures s.st.roomInfo.Some? <==> st.roomInfo.Some?
    decreases |lk|
  {
    if lk == [] then Step(st, [])
    else
      var one := SyncOne(st, lk[0], login, now);
      var rest := SyncPass(one.st, lk[1..], login, now);
      Step(rest.st, one.events + rest.events)
  }

  /** `syncExistingRemoteParticipants()`: nothing without a room or room information; otherwise
      the loop above over the room's transport participants. */
  function SyncExistingRemoteParticipants(st: State, now: int): (s: Step)
    ensures st.room.None? || st.roomInfo.None? ==> s == Step(st, [])
    ensures s.st.(remotes := st.remotes, roomInfo := st.roomInfo) == st
  {
    if st.room.None? || st.roomInfo.None? then Step(st, [])
    else SyncPass(st, st.room.value.remotes, st.roomInfo.value.loginUID, now)
  }

  /** A record is bound to a remote handle. */
  predicate Bound(m: map<string, P.Record>, k: string)
  {
    k in m && m[k].remote.Some?
  }

  /** One sync step keeps records filed under their uids, only grows them, and leaves the
      identity's record bound. */
  lemma SyncOneFiles(st: State, h: T.RemoteHandle, login: string, now: int)
    requires KeysMatch(st.remotes)
    ensures var s := SyncOne(st, h, login, now);
            && KeysMatch(s.st.remotes)
            && s.st.remotes.Keys == st.remotes.Keys + (if h.identity.Some? && h.identity.value != login then {h.identity.value} else {})
            && (forall k :: k in st.remotes ==> Grown(st.remotes[k], s.st.remotes[k]))
            && (forall k :: k in st.remotes && Bound(st.remotes, k) ==> s.st.remotes[k] == st.remotes[k])
            && (forall k :: Bound(st.remotes, k) ==> Bound(s.st.remotes, k))
            && (h.identity.Some? && h.identity.value != login ==> Bound(s.st.remotes, h.identity.value))
  {
    if h.identity.Some? && h.identity.value != login {
      var id := h.identity.value;
      var s := SyncOne(st, h, login, now);
      if id in st.remotes && st.remotes[id].remote.None? {
        var b := P.SetRemote(st.remotes[id], h);
        assert s.st.remotes == st.remotes[id := b.rec];
      } else if id !in st.remotes {
        assert s.st.remotes.Keys == st.remotes.Keys + {id};
      }
    }
  }

  /** The sync loop files a bound record under every transport identity other than the login
      uid, creating one only where none existed; bound records are left alone. */
  lemma {:induction false} SyncPassFiles(st: State, lk: seq<T.RemoteHandle>, login: string, now: int)
    requires KeysMatch(st.remotes)
    ensures var s := SyncPass(st, lk, login, now);
            && KeysMatch(s.st.remotes)
            && s.st.remotes.Keys == st.remotes.Keys + (T.Identities(lk) - {login})
            && (forall k :: k in st.remotes ==> Grown(st.remotes[k], s.st.remotes[k]))
            && (forall k :: k in st.remotes && Bound(st.remotes, k) ==> s.st.remotes[k] == st.remotes[k])
            && (forall k :: k in T.Identities(lk) - {login} ==> Bound(s.st.remotes, k))
    decreases |lk|
  {
    if lk != [] {
      var one := SyncOne(st, lk[0], login, now);
      SyncOneFiles(st, lk[0], login, now);
      SyncPassFiles(one.st, lk[1..], login, now);
      var s := SyncPass(st, lk, login, now);
      forall k | k in T.Identities(lk) - {login} ensures Bound(s.st.remotes, k) {
        if k !in T.Identities(lk[1..]) {
          assert lk[0].identity == Some(k);
          assert Bound(one.st.remotes, k);
        }
      }
    }
  }

  /** The uid a sync step files a new record for: an identity other than the login uid that has
      no record yet. */
  function NewIdentity(st: State, h: T.RemoteHandle, login: string): Option<string>
  {
    if h.identity.Some? && h.identity.value != login && h.identity.value !in st.remotes then h.identity else None
  }

  /** One sync step announces exactly the uid it files a new record for, and appends that uid to
      the expected list unless it is there already; the expected list is otherwise unchanged. */
  lemma SyncOneAnnounces(st: State, h: T.RemoteHandle, login: string, now: int)
    requires st.roomInfo.Some?
    ensures var s := SyncOne(st, h, login, now);
            var n := NewIdentity(st, h, login);
            var ul, ul' := st.roomInfo.value.uidList, s.st.roomInfo.value.uidList;
            && Announced(s.events) == (if n.Some? then [n.value] else [])
            && s.st.remotes.Keys == st.remotes.Keys + (if n.Some? then {n.value} else {})
            && (ul' == ul || (n.Some? && n.value !in ul && ul' == ul + [n.value]))
            && (n.Some? ==> n.value in ul')
  {
    if h.identity.Some? && h.identity.value != login && h.identity.value in st.remotes && st.remotes[h.identity.value].remote.None? {
      AnnouncedTag(h.identity.value, P.SetRemote(st.remotes[h.identity.value], h).fired);
    }
  }

  /** The sync loop announces exactly the uids it files a new record for. */
  lemma {:induction false} SyncPassAnnouncesNew(st: State, lk: seq<T.RemoteHandle>, login: string, now: int)
    requires st.roomInfo.Some?
    ensures var s := SyncPass(st, lk, login, now);
            forall k :: k in Announced(s.events) <==> k in s.st.remotes && k !in st.remotes
    decreases |lk|
  {
    if lk != [] {
      var one := SyncOne(st, lk[0], login, now);
      SyncOneAnnounces(st, lk[0], login, now);
      SyncPassAnnouncesNew(one.st, lk[1..], login, now);
      SyncPassKeepsKeys(one.st, lk[1..], login, now);
      AnnouncedAppend(one.events, SyncPass(one.st, lk[1..], login, now).events);
    }
  }

  /** The sync loop announces no uid twice. */
  lemma {:induction false} SyncPassAnnouncesOnce(st: State, lk: seq<T.RemoteHandle>, login: string, now: int)
    requires st.roomInfo.Some?
    ensures NoDup(Announced(SyncPass(st, lk, login, now).events))
    decreases |lk|
  {
    if lk != [] {
      var one := SyncOne(st, lk[0], login, now);
      SyncOneAnnounces(st, lk[0], login, now);
      SyncPassAnnouncesOnce(one.st, lk[1..], login, now);
      SyncPassAnnouncesNew(one.st, lk[1..], login, now);
      var rest := SyncPass(one.st, lk[1..], login, now);
      AnnouncedAppend(one.events, rest.events);
      var n := NewIdentity(st, lk[0], login);
      if n.Some? {
        NoDupCons(n.value, Announced(rest.events));
      }
    }
  }

  /** A sequence without repeats stays so with a new element in front. */
  lemma NoDupCons(x: string, a: seq<string>)
    requires NoDup(a) && x !in a
    ensures NoDup([x] + a)
  {
    forall i, j | 0 <= i < j < |[x] + a| ensures ([x] + a)[i] != ([x] + a)[j] {
      if i > 0 {
        assert ([x] + a)[i] == a[i - 1] && ([x] + a)[j] == a[j - 1];
      } else {
        assert ([x] + a)[j] in a;
      }
    }
  }

  /** A sequence without repeats stays so with a new element at the end. */
  lemma NoDupSnoc(a: seq<string>, x: string)
    requires NoDup(a) && x !in a
    ensures NoDup(a + [x])
  {
    forall i, j | 0 <= i < j < |a + [x]| ensures (a + [x])[i] != (a + [x])[j] {
      if j == |a| {
        assert (a + [x])[i] == a[i];
      }
    }
  }

  /** The sync loop only appends to the expected list. */
  lemma {:induction false} SyncPassExtendsExpected(st: State, lk: seq<T.RemoteHandle>, login: string, now: int)
    requires st.roomInfo.Some?
    ensures st.roomInfo.value.uidList <= SyncPass(st, lk, login, now).st.roomInfo.value.uidList
    decreases |lk|
  {
    if lk != [] {
      var one := SyncOne(st, lk[0], login, now);
      SyncOneAnnounces(st, lk[0], login, now);
      SyncPassExtendsExpected(one.st, lk[1..], login, now);
    }
  }

  /** Every uid the sync loop announces ends up in the expected list. */
  lemma {:induction false} SyncPassExpectsAnnounced(st: State, lk: seq<T.RemoteHandle>, login: string, now: int)
    requires st.roomInfo.Some?
    ensures var s := SyncPass(st, lk, login, now);
            forall k :: k in Announced(s.events) ==> k in s.st.roomInfo.value.uidList
    decreases |lk|
  {
    if lk != [] {
      var one := SyncOne(st, lk[0], login, now);
      SyncOneAnnounces(st, lk[0], login, now);
      SyncPassExpectsAnnounced(one.st, lk[1..], login, now);
      SyncPassExtendsExpected(one.st, lk[1..], login, now);
      var rest := SyncPass(one.st, lk[1..], login, now);
      AnnouncedAppend(one.events, rest.events);
      var n := NewIdentity(st, lk[0], login);
      if n.Some? {
        var ul1, ul2 := one.st.roomInfo.value.uidList, rest.st.roomInfo.value.uidList;
        var j :| 0 <= j < |ul1| && ul1[j] == n.value;
        assert ul2[j] == n.value;
      }
    }
  }

  /** An expected list without repeats stays without repeats through the sync loop. */
  lemma {:induction false} SyncPassExpectedNoDup(st: State, lk: seq<T.RemoteHandle>, login: string, now: int)
    requires st.roomInfo.Some? && NoDup(st.roomInfo.value.uidList)
    ensures NoDup(SyncPass(st, lk, login, now).st.roomInfo.value.uidList)
    decreases |lk|
  {
    if lk != [] {
      var one := SyncOne(st, lk[0], login, now);
      SyncOneAnnounces(st, lk[0], login, now);
      var n := NewIdentity(st, lk[0], login);
      if one.st.roomInfo.value.uidList != st.roomInfo.value.uidList {
        NoDupSnoc(st.roomInfo.value.uidList, n.value);
      }
      SyncPassExpectedNoDup(one.st, lk[1..], login, now);
    }
  }

  /** The sync loop never drops a key. */
  lemma {:induction false} SyncPassKeepsKeys(st: State, lk: seq<T.RemoteHandle>, login: string, now: int)
    ensures st.remotes.Keys <= SyncPass(st, lk, login, now).st.remotes.Keys
    decreases |lk|
  {
    if lk != [] {
      SyncPassKeepsKeys(SyncOne(st, lk[0], login, now).st, lk[1..], login, now);
    }
  }

  // ---------------------------------------------------------------------------------------------
  // Eviction

  /** The listed uids that have a record which has not joined: those `missedParticipants` evicts. */
  function Evictable(m: map<string, P.Record>, uids: seq<string>): set<string>
  {
    set u | u in uids && u in m && !m[u].hasJoined
  }

  /** The loop of `missedParticipants(roomName:uids:)`: each listed uid whose record has not
      joined fires Leave on it and loses both its record and its expected-list entries. */
  function Evict(st: State, uids: seq<string>): (s: Step)
    ensures s.st.(remotes := st.remotes, roomInfo := st.roomInfo) == st
    ensures s.st.roomInfo.Some? <==> st.roomInfo.Some?
    decreases |uids|
  {
    if uids == [] then Step(st, [])
    else
      var u := uids[0];
      if u in st.remotes && !st.remotes[u].hasJoined then
        var l := P.NotifyLeave(st.remotes[u]);
        var rest := Evict(DropExpected(st.(remotes := st.remotes - {u}), u), uids[1..]);
        Step(rest.st, Tag(u, l.fired) + rest.events)
      else Evict(st, uids[1..])
  }

  /** `missedParticipants(roomName:uids:)`: nothing for an empty list, outside a room, or for
      another room; otherwise the eviction loop. */
  function MissedParticipants(st: State, roomName: string, uids: seq<string>): (s: Step)
    ensures uids == [] || st.roomInfo.None? || st.roomInfo.value.roomName != roomName ==> s == Step(st, [])
    ensures s.st.(remotes := st.remotes, roomInfo := st.roomInfo) == st
  {
    if uids == [] || st.roomInfo.None? || st.roomInfo.value.roomName != roomName then Step(st, [])
    else Evict(st, uids)
  }

  /** Eviction removes exactly the evictable records, keeps every other record as it was, and
      drops exactly the evicted uids from the expected list, keeping the order of the rest. */
  lemma {:induction false} EvictFacts(st: State, uids: seq<string>)
    ensures var s := Evict(st, uids);
            var gone := Evictable(st.remotes, uids);
            && s.st.remotes.Keys == st.remotes.Keys - gone
            && (forall k :: k in s.st.remotes ==> s.st.remotes[k] == st.remotes[k])
            && (st.roomInfo.Some? ==> s.st.roomInfo.value == st.roomInfo.value.(uidList := FilterOut(st.roomInfo.value.uidList, gone)))
    decreases |uids|
  {
    if uids == [] {
      assert Evictable(st.remotes, uids) == {};
      if st.roomInfo.Some? { FilterOutNothing(st.roomInfo.value.uidList); }
    } else {
      var u := uids[0];
      assert forall x :: x in uids <==> x == u || x in uids[1..];
      if u in st.remotes && !st.remotes[u].hasJoined {
        var st1 := DropExpected(st.(remotes := st.remotes - {u}), u);
        EvictFacts(st1, uids[1..]);
        assert Evictable(st.remotes, uids) == Evictable(st1.remotes, uids[1..]) + {u};
        if st.roomInfo.Some? {
          FilterOutRemoveAll(st.roomInfo.value.uidList, u, Evictable(st1.remotes, uids[1..]));
        }
      } else {
        EvictFacts(st, uids[1..]);
        assert Evictable(st.remotes, uids) == Evictable(st.remotes, uids[1..]);
      }
    }
  }

  /** Every event is a Leave fired by a record whose uid is in `uids`. */
  predicate LeavesOf(evs: seq<Event>, uids: set<string>)
  {
    forall i :: 0 <= i < |evs| ==> evs[i].RecordSignal? && evs[i].signal == P.Left && evs[i].uid in uids
  }

  /** Eviction fires Leave on records it removes that were not disposed yet, and nothing else. */
  lemma {:induction false} EvictSignals(st: State, uids: seq<string>)
    ensures LeavesOf(Evict(st, uids).events, Evictable(st.remotes, uids))
    decreases |uids|
  {
    if uids != [] {
      var u := uids[0];
      var gone := Evictable(st.remotes, uids);
      if u in st.remotes && !st.remotes[u].hasJoined {
        var st1 := DropExpected(st.(remotes := st.remotes - {u}), u);
        EvictSignals(st1, uids[1..]);
        assert Evictable(st1.remotes, uids[1..]) <= gone;
        var l := P.NotifyLeave(st.remotes[u]);
        var rest := Evict(st1, uids[1..]);
        assert u in gone;
        assert LeavesOf(Tag(u, l.fired), gone);
        assert LeavesOf(rest.events, gone);
        LeavesOfAppend(Tag(u, l.fired), rest.events, gone);
      } else {
        EvictSignals(st, uids[1..]);
        assert Evict(st, uids) == Evict(st, uids[1..]);
        assert Evictable(st.remotes, uids[1..]) <= gone;
      }
    }
  }

  lemma LeavesOfAppend(a: seq<Event>, b: seq<Event>, uids: set<string>)
    requires LeavesOf(a, uids) && LeavesOf(b, uids)
    ensures LeavesOf(a + b, uids)
  {
    forall i | 0 <= i < |a + b| ensures (a + b)[i].RecordSignal? && (a + b)[i].signal == P.Left && (a + b)[i].uid in uids {
      if i < |a| { assert (a + b)[i] == a[i]; } else { assert (a + b)[i] == b[i - |a|]; }
    }
  }

  /** No filed record is disposed. */
  predicate Live(m: map<string, P.Record>)
  {
    forall k :: k in m ==> !m[k].isDisposed
  }

  /** The uids of the records that fired a signal. */
  function Signalled(evs: seq<Event>): set<string>
    decreases |evs|
  {
    if evs == [] then {}
    else (if evs[0].RecordSignal? then {evs[0].uid} else {}) + Signalled(evs[1..])
  }

  /** Signalling uids of a concatenation. */
  lemma {:induction false} SignalledAppend(a: seq<Event>, b: seq<Event>)
    ensures Signalled(a + b) == Signalled(a) + Signalled(b)
    decreases |a|
  {
    if a == [] {
      assert a + b == b;
    } else {
      assert (a + b)[0] == a[0];
      assert (a + b)[1..] == a[1..] + b;
      SignalledAppend(a[1..], b);
    }
  }

  /** When no filed record is disposed, every evicted record fires its Leave. */
  lemma {:induction false} EvictSignalsAll(st: State, uids: seq<string>)
    requires Live(st.remotes)
    ensures Signalled(Evict(st, uids).events) == Evictable(st.remotes, uids)
    decreases |uids|
  {
    if uids == [] {
      assert Evictable(st.remotes, uids) == {};
    } else {
      var u := uids[0];
      assert forall x :: x in uids <==> x == u || x in uids[1..];
      if u in st.remotes && !st.remotes[u].hasJoined {
        var st1 := DropExpected(st.(remotes := st.remotes - {u}), u);
        EvictSignalsAll(st1, uids[1..]);
        var l := P.NotifyLeave(st.remotes[u]);
        SignalledAppend(Tag(u, l.fired), Evict(st1, uids[1..]).events);
        assert Tag(u, l.fired) == [RecordSignal(u, P.Left)];
        assert Evictable(st.remotes, uids) == Evictable(st1.remotes, uids[1..]) + {u};
      } else {
        EvictSignalsAll(st, uids[1..]);
        assert Evictable(st.remotes, uids) == Evictable(st.remotes, uids[1..]);
      }
    }
  }

  /** Joined records are never evicted. */
  lemma JoinedSurvive(st: State, roomName: string, uids: seq<string>)
    ensures var s := MissedParticipants(st, roomName, uids);
            forall k :: k in st.remotes && st.remotes[k].hasJoined ==> k in s.st.remotes && s.st.remotes[k] == st.remotes[k]
  {
    if !(uids == [] || st.roomInfo.None? || st.roomInfo.value.roomName != roomName) {
      EvictFacts(st, uids);
    }
  }

  // ---------------------------------------------------------------------------------------------
  // Invitation

  /** The loop of `inviteParticipant(roomName:uids:)`: each accepted uid gets a pending record,
      is appended to the expected list and is announced. */
  function AddInvited(st: State, accepted: seq<string>, now: int): (s: Step)
    ensures s.st.(remotes := st.remotes, roomInfo := st.roomInfo) == st
    ensures s.st.roomInfo.Some? <==> st.roomInfo.Some?
    decreases |accepted|
  {
    if accepted == [] then Step(st, [])
    else
      var u := accepted[0];
      var st1 := AppendExpected(st.(remotes := st.remotes[u := P.Create(u, now, None, None)]), u);
      var rest := AddInvited(st1, accepted[1..], now);
      Step(rest.st, [NewParticipant(u)] + rest.events)
  }

  /** Invited uids that have no record yet, in input order (duplicates kept). */
  function NewUids(st: State, uids: seq<string>): seq<string>
  {
    FilterOut(uids, st.remotes.Keys)
  }

  /** The free places: `maxParticipants - uidList.count`. */
  function Slots(info: R.RoomInfo): int
  {
    info.maxParticipants - |info.uidList|
  }

  /** `inviteParticipant(roomName:uids:)`: outside a room, for another room, when every uid already
      has a record, or when no place is free, nothing happens; otherwise the first free-places-many
      new uids are accepted in input order, and a timeout checker is started if none runs. */
  function InviteParticipant(st: State, roomName: string, uids: seq<string>, now: int): (s: Step)
    ensures st.roomInfo.None? || st.roomInfo.value.roomName != roomName ==> s == Step(st, [])
    ensures st.roomInfo.Some? && NewUids(st, uids) == [] ==> s == Step(st, [])
    ensures st.roomInfo.Some? && Slots(st.roomInfo.value) <= 0 ==> s == Step(st, [])
  {
    match st.roomInfo
    case None => Step(st, [])
    case Some(info) =>
      if info.roomName != roomName then Step(st, [])
      else
        var newUids := NewUids(st, uids);
        if newUids == [] || Slots(info) <= 0 then Step(st, [])
        else
          var a := AddInvited(st, Take(newUids, Slots(info)), now);
          Step(RestartTimeoutCheckerIfNeeded(a.st), a.events)
  }

  /** The invitation loop files a pending record created now under every accepted uid and
      leaves every other record alone. */
  lemma {:induction false} AddInvitedFiles(st: State, accepted: seq<string>, now: int)
    ensures var s := AddInvited(st, accepted, now);
            && s.st.remotes.Keys == st.remotes.Keys + (set u | u in accepted)
            && (forall k :: k in s.st.remotes && k !in accepted ==> s.st.remotes[k] == st.remotes[k])
            && (forall k :: k in accepted ==> s.st.remotes[k] == P.Create(k, now, None, None))
    decreases |accepted|
  {
    if accepted != [] {
      var u := accepted[0];
      var st1 := AppendExpected(st.(remotes := st.remotes[u := P.Create(u, now, None, None)]), u);
      AddInvitedFiles(st1, accepted[1..], now);
      assert forall x :: x in accepted <==> x == u || x in accepted[1..];
    }
  }

  /** The invitation loop appends the accepted uids, in order, to the expected list and changes
      nothing else in the room information. */
  lemma {:induction false} AddInvitedAppends(st: State, accepted: seq<string>, now: int)
    requires st.roomInfo.Some?
    ensures AddInvited(st, accepted, now).st.roomInfo.value == st.roomInfo.value.(uidList := st.roomInfo.value.uidList + accepted)
    decreases |accepted|
  {
    if accepted != [] {
      var u := accepted[0];
      var st1 := AppendExpected(st.(remotes := st.remotes[u := P.Create(u, now, None, None)]), u);
      AddInvitedAppends(st1, accepted[1..], now);
      assert st.roomInfo.value.uidList + accepted == (st.roomInfo.value.uidList + [u]) + accepted[1..];
    } else {
      assert st.roomInfo.value.uidList + accepted == st.roomInfo.value.uidList;
    }
  }

  /** The invitation loop announces the accepted uids in order, once per occurrence. */
  lemma {:induction false} AddInvitedAnnounces(st: State, accepted: seq<string>, now: int)
    ensures Announced(AddInvited(st, accepted, now).events) == accepted
    decreases |accepted|
  {
    if accepted != [] {
      var u := accepted[0];
      var st1 := AppendExpected(st.(remotes := st.remotes[u := P.Create(u, now, None, None)]), u);
      AddInvitedAnnounces(st1, accepted[1..], now);
      AnnouncedAppend([NewParticipant(u)], AddInvited(st1, accepted[1..], now).events);
    }
  }

  /** An accepted invitation takes exactly `min(new uids, free places)` uids, the first ones in
      input order, announces each once per occurrence, and never pushes the expected list past
      `maxParticipants`. */
  lemma InviteAccepts(st: State, roomName: string, uids: seq<string>, now: int)
    requires st.roomInfo.Some? && st.roomInfo.value.roomName == roomName
    requires NewUids(st, uids) != [] && Slots(st.roomInfo.value) > 0
    ensures var s := InviteParticipant(st, roomName, uids, now);
            var info := st.roomInfo.value;
            var accepted := Take(NewUids(st, uids), Slots(info));
            && |accepted| == Min(|NewUids(st, uids)|, Slots(info))
            && s.st.roomInfo.value.uidList == info.uidList + accepted
            && |s.st.roomInfo.value.uidList| <= info.maxParticipants
            && Announced(s.events) == accepted
            && s.st.remotes.Keys == st.remotes.Keys + (set u | u in accepted)
            && (forall k :: k in accepted ==> P.IsPending(s.st.remotes[k]) && s.st.remotes[k].createdAt == now)
            && s.st.timer.Some?
  {
    var info := st.roomInfo.value;
    AddInvitedFiles(st, Take(NewUids(st, uids), Slots(info)), now);
    AddInvitedAppends(st, Take(NewUids(st, uids), Slots(info)), now);
    AddInvitedAnnounces(st, Take(NewUids(st, uids), Slots(info)), now);
  }

  /** As written, a uid invited twice in one call passes the existing-record filter twice: it is
      appended to the expected list twice, announced twice, and takes two free places. */
  lemma InviteDuplicateTwice()
    ensures var st := Idle().(roomInfo := Some(R.Default().(roomName := "r", maxParticipants := 3)));
            var s := InviteParticipant(st, "r", ["a", "a"], 0);
            && s.st.roomInfo.value.uidList == ["a", "a"]
            && Announced(s.events) == ["a", "a"]
  {
    var st := Idle().(roomInfo := Some(R.Default().(roomName := "r", maxParticipants := 3)));
    assert NewUids(st, ["a", "a"]) == ["a", "a"];
    InviteAccepts(st, "r", ["a", "a"], 0);
  }

  /** Invitation with each new uid taken once: the same guards, but repeated uids in one call
      are accepted, appended and announced only once. */
  function InviteParticipantDistinct(st: State, roomName: string, uids: seq<string>, now: int): (s: Step)
    ensures st.roomInfo.None? || st.roomInfo.value.roomName != roomName ==> s == Step(st, [])
    ensures st.roomInfo.Some? && NewUids(st, uids) == [] ==> s == Step(st, [])
    ensures st.roomInfo.Some? && Slots(st.roomInfo.value) <= 0 ==> s == Step(st, [])
  {
    match st.roomInfo
    case None => Step(st, [])
    case Some(info) =>
      if info.roomName != roomName then Step(st, [])
      else
        var newUids := Distinct(NewUids(st, uids));
        if newUids == [] || Slots(info) <= 0 then Step(st, [])
        else
          var a := AddInvited(st, Take(newUids, Slots(info)), now);
          Step(RestartTimeoutCheckerIfNeeded(a.st), a.events)
  }

  /** The corrected invitation announces and appends each accepted uid exactly once, none of
      them had a record, and the expected list stays within `maxParticipants`. */
  lemma InviteDistinctOnce(st: State, roomName: string, uids: seq<string>, now: int)
    requires st.roomInfo.Some? && st.roomInfo.value.roomName == roomName
    requires NewUids(st, uids) != [] && Slots(st.roomInfo.value) > 0
    ensures var s := InviteParticipantDistinct(st, roomName, uids, now);
            var info := st.roomInfo.value;
            var added := Take(Distinct(NewUids(st, uids)), Slots(info));
            && s.st.roomInfo.value.uidList == info.uidList + added
            && NoDup(added)
            && Announced(s.events) == added
            && (forall k :: k in added ==> k in uids && k !in st.remotes && k in s.st.remotes && P.IsPending(s.st.remotes[k]))
            && |s.st.roomInfo.value.uidList| <= info.maxParticipants
  {
    var info := st.roomInfo.value;
    var newUids := Distinct(NewUids(st, uids));
    var accepted := Take(newUids, Slots(info));
    AddInvitedFiles(st, accepted, now);
    AddInvitedAppends(st, accepted, now);
    AddInvitedAnnounces(st, accepted, now);
    TakeKeeps(newUids, Slots(info));
  }

  /** Without repeated uids in the call, the corrected invitation behaves exactly as written. */
  lemma InviteDistinctAgrees(st: State, roomName: string, uids: seq<string>, now: int)
    requires NoDup(uids)
    ensures InviteParticipantDistinct(st, roomName, uids, now) == InviteParticipant(st, roomName, uids, now)
  {
    FilterOutNoDup(uids, st.remotes.Keys);
    DistinctNoDup(NewUids(st, uids));
  }

  // ---------------------------------------------------------------------------------------------
  // Transport joins and leaves

  /** `setParticipantJoin(participant:)`: a participant without identity is ignored; a known uid
      only has its record bound; a new uid is appended to the expected list if absent, gets a
      new bound record and is announced once. */
  function SetParticipantJoin(st: State, h: T.RemoteHandle, now: int): (s: Step)
    ensures h.identity.None? ==> s == Step(st, [])
    ensures s.st.(remotes := st.remotes, roomInfo := st.roomInfo) == st
    ensures s.st.roomInfo.Some? <==> st.roomInfo.Some?
    ensures h.identity.Some? ==> var id := h.identity.value;
              && s.st.remotes.Keys == st.remotes.Keys + {id}
              && (forall k :: k in st.remotes && k != id ==> s.st.remotes[k] == st.remotes[k])
              && s.st.remotes[id].remote == Some(h)
    ensures h.identity.Some? && h.identity.value in st.remotes ==>
              && s.st.roomInfo == st.roomInfo
              && Announced(s.events) == []
              && s.st.remotes[h.identity.value].hasJoined
    ensures h.identity.Some? && h.identity.value !in st.remotes ==>
              && s.events == [NewParticipant(h.identity.value)]
              && s.st.remotes[h.identity.value] == P.Create(h.identity.value, now, None, Some(h))
              && (st.roomInfo.Some? ==>
                    s.st.roomInfo.value.uidList == (if h.identity.value in st.roomInfo.value.uidList then st.roomInfo.value.uidList
                                                    else st.roomInfo.value.uidList + [h.identity.value]))
  {
    match h.identity
    case None => Step(st, [])
    case Some(id) =>
      if id in st.remotes then
        var b := P.SetRemote(st.remotes[id], h);
        AnnouncedTag(id, b.fired);
        Step(st.(remotes := st.remotes[id := b.rec]), Tag(id, b.fired))
      else
        var st1 := if st.roomInfo.Some? && id !in st.roomInfo.value.uidList then AppendExpected(st, id) else st;
        Step(st1.(remotes := st1.remotes[id := P.Create(id, now, None, Some(h))]), [NewParticipant(id)])
  }

  /** `setParticipantLeave(participant:)`: a participant without identity is ignored; otherwise
      its record, if any, fires Leave and is disposed, and the uid loses its record and every
      expected-list entry. */
  function SetParticipantLeave(st: State, h: T.RemoteHandle): (s: Step)
    ensures h.identity.None? ==> s == Step(st, [])
    ensures h.identity.Some? ==>
              && s.st == DropExpected(st.(remotes := st.remotes - {h.identity.value}), h.identity.value)
              && (h.identity.value !in st.remotes ==> s.events == [])
              && (h.identity.value in st.remotes && !st.remotes[h.identity.value].isDisposed ==>
                    s.events == [RecordSignal(h.identity.value, P.Left)])
  {
    match h.identity
    case None => Step(st, [])
    case Some(id) =>
      var evs := if id in st.remotes then Tag(id, P.NotifyLeave(st.remotes[id]).fired) else [];
      Step(DropExpected(st.(remotes := st.remotes - {id}), id), evs)
  }

  /** A join followed by the same participant's leave removes the uid entirely: no record and no
      expected-list entry remain, and every other record is as before. */
  lemma JoinThenLeave(st: State, h: T.RemoteHandle, now: int)
    requires h.identity.Some?
    ensures var s := SetParticipantLeave(SetParticipantJoin(st, h, now).st, h);
            var id := h.identity.value;
            && id !in s.st.remotes
            && s.st.remotes == st.remotes - {id}
            && (s.st.roomInfo.Some? ==> id !in s.st.roomInfo.value.uidList)
            && (id !in st.remotes || !st.remotes[id].isDisposed ==> s.events == [RecordSignal(id, P.Left)])
  {
  }

  // ---------------------------------------------------------------------------------------------
  // Clearing

  /** The state after `clear()`, and the records it disposed. */
  datatype Cleared = Cleared(st: State, local: Option<P.Record>, remotes: map<string, P.Record>)

  /** `clear()`: the local record and every remote record are disposed and dropped. */
  function Clear(st: State): (c: Cleared)
    ensures c.st == st.(local := None, remotes := map[])
    ensures c.local.Some? <==> st.local.Some?
    ensures st.local.Some? ==> c.local.value == P.Dispose(st.local.value)
    ensures c.remotes.Keys == st.remotes.Keys
    ensures forall k :: k in c.remotes ==> c.remotes[k] == P.Dispose(st.remotes[k])
  {
    Cleared(st.(local := None, remotes := map[]),
            if st.local.Some? then Some(P.Dispose(st.local.value)) else None,
            map k | k in st.remotes :: P.Dispose(st.remotes[k]))
  }

  /** Every record `clear()` releases is disposed, so none of them fires anything again; a second
      `clear()` releases nothing. */
  lemma ClearReleasesDisposed(st: State, es: seq<P.TransportEvent>)
    ensures var c := Clear(st);
            && (c.local.Some? ==> c.local.value.isDisposed && P.Replay(c.local.value, es) == P.Step(c.local.value, []))
            && (forall k :: k in c.remotes ==> c.remotes[k].isDisposed && c.remotes[k].uid == st.remotes[k].uid)
            && Clear(c.st).local.None? && Clear(c.st).remotes == map[]
  {
    var c := Clear(st);
    if c.local.Some? {
      P.DisposedIsSilent(c.local.value, es);
    }
  }
}

=== FILE: early_coordinator.dfy ===
/** The session coordinator of the earlier copy of the SDK (`Classes/manager/RoomManager.swift`):
    joining and connecting in one step, leaving, a timeout checker that flags overdue participants
    instead of evicting them and never stops by itself, and the connection-state mapping. */
module EarlyCoordinator {
  import opened Optional
  import opened Seqs
  import T = Transport
  import P = Participants
  import R = Rooms
  import opened Session
  import D = Directory
  import C = Coordinator
  import ED = EarlyDirectory

  // ---------------------------------------------------------------------------------------------
  // Join and leave

  /** `join(roomInfo:micEnabled:cameraEnabled:screenShareEnabled:)`, connect included: refused
      while in a room; otherwise the room information is set, Connecting is announced and the
      room installed; on success the timeout checker starts with the room's timeout; on any
      failure Disconnected is announced and the room and its information are dropped. No pending
      records are created. */
  function Join(st: State, info: R.RoomInfo, room: T.Room, want: C.Tracks, o: C.ConnectOutcome): (s: Step)
    ensures st.roomInfo.Some? ==> s == Step(st, [])
    ensures st.roomInfo.None? ==> |s.events| >= 1 && s.events[0] == StatusChanged(info.roomName, StatusConnecting)
    ensures st.roomInfo.None? && C.Succeeded(o, want) ==>
              s == Step(st.(roomInfo := Some(info), room := Some(room), timer := Some(info.timeout)),
                        [StatusChanged(info.roomName, StatusConnecting)])
    ensures st.roomInfo.None? && !C.Succeeded(o, want) ==>
              && s.st == st.(roomInfo := None, room := None)
              && s.events == [StatusChanged(info.roomName, StatusConnecting), StatusChanged(info.roomName, StatusDisconnected)]
  {
    if st.roomInfo.Some? then Step(st, [])
    else
      var st1 := st.(roomInfo := Some(info), room := Some(room));
      var connecting := [StatusChanged(info.roomName, StatusConnecting)];
      if C.Succeeded(o, want) then Step(StartTimeoutChecker(st1, info.timeout), connecting)
      else Step(st1.(roomInfo := None, room := None), connecting + [StatusChanged(info.roomName, StatusDisconnected)])
  }

  /** From the idle session, a failed join leaves the session idle and lets the next join go
      ahead; a successful join followed by `leaveRoom()` returns to the idle session. */
  lemma JoinLeavesNoTrace(info: R.RoomInfo, room: T.Room, want: C.Tracks, o: C.ConnectOutcome, info2: R.RoomInfo, room2: T.Room)
    ensures !C.Succeeded(o, want) ==>
              && Join(Idle(), info, room, want, o).st == Idle()
              && Join(Join(Idle(), info, room, want, o).st, info2, room2, want, o).events[0] == StatusChanged(info2.roomName, StatusConnecting)
    ensures C.Succeeded(o, want) ==> C.LeaveRoom(Join(Idle(), info, room, want, o).st) == Step(Idle(), [])
    ensures C.Succeeded(o, want) ==> Join(Join(Idle(), info, room, want, o).st, info2, room2, want, o).events == []
  {
  }

  // ---------------------------------------------------------------------------------------------
  // The timeout checker

  /** The check of one listed record: a local record is skipped; a joined one loses its timeout
      flag; an overdue one not yet flagged is flagged, which fires TimedOut; anything else is
      left alone. */
  function MarkOne(r: P.Record, login: Option<string>, now: int, t: int): (s: P.Step)
    ensures s.rec == r.(isTimeout := s.rec.isTimeout)
    ensures !P.IsLocal(r, login) && r.hasJoined ==> !s.rec.isTimeout
    ensures C.Overdue(r, login, now, t) ==> s.rec.isTimeout
    ensures P.IsLocal(r, login) || (!r.hasJoined && !C.Overdue(r, login, now, t)) ==> s.rec.isTimeout == r.isTimeout
    ensures s.fired == (if s.rec.isTimeout && !r.isTimeout then [P.TimedOut] else [])
  {
    if P.IsLocal(r, login) then P.Step(r, [])
    else if r.hasJoined then (if r.isTimeout then P.MarkTimeout(r, false) else P.Step(r, []))
    else if now - r.createdAt >= t && !r.isTimeout then P.MarkTimeout(r, true)
    else P.Step(r, [])
  }

  /** A second check at the same time changes nothing and fires nothing. */
  lemma MarkOneSettles(r: P.Record, login: Option<string>, now: int, t: int)
    ensures var s := MarkOne(r, login, now, t);
            MarkOne(s.rec, login, now, t) == P.Step(s.rec, [])
  {
  }

  /** The map and the events after checking a listing. */
  datatype Marks = Marks(m: map<string, P.Record>, events: seq<Event>)

  /** The loop of `checkParticipantsTimeout(timeoutSeconds:)`: each listed record is checked; the
      listing holds the very objects filed in the map, so the check acts on the record filed
      under the listed uid. */
  function MarkPass(m: map<string, P.Record>, list: seq<P.Record>, login: Option<string>, now: int, t: int): (p: Marks)
    ensures p.m.Keys == m.Keys
    decreases |list|
  {
    if list == [] then Marks(m, [])
    else
      var u := list[0].uid;
      if u in m then
        var s := MarkOne(m[u], login, now, t);
        var rest := MarkPass(m[u := s.rec], list[1..], login, now, t);
        Marks(rest.m, Tag(u, s.fired) + rest.events)
      else MarkPass(m, list[1..], login, now, t)
  }

  /** Every listed uid's record is checked as if once, however often it is listed; every other
      record is left alone. */
  lemma {:induction false} MarkPassApplies(m: map<string, P.Record>, list: seq<P.Record>, login: Option<string>, now: int, t: int)
    ensures var p := MarkPass(m, list, login, now, t);
            forall k :: k in m ==> p.m[k] == if k in D.Uids(list) then MarkOne(m[k], login, now, t).rec else m[k]
    decreases |list|
  {
    if list != [] {
      var u := list[0].uid;
      if u in m {
        var s := MarkOne(m[u], login, now, t);
        MarkPassApplies(m[u := s.rec], list[1..], login, now, t);
        MarkOneSettles(m[u], login, now, t);
      } else {
        MarkPassApplies(m, list[1..], login, now, t);
      }
    }
  }

  /** The uids that fired TimedOut. */
  function Flagged(evs: seq<Event>): set<string>
    decreases |evs|
  {
    if evs == [] then {}
    else (if evs[0].RecordSignal? && evs[0].signal == P.TimedOut then {evs[0].uid} else {}) + Flagged(evs[1..])
  }

  /** The check fires only TimedOut, and only for a listed uid whose filed record the check
      flags afresh. */
  lemma {:induction false} MarkPassSignals(m: map<string, P.Record>, list: seq<P.Record>, login: Option<string>, now: int, t: int)
    ensures var p := MarkPass(m, list, login, now, t);
            && (forall i :: 0 <= i < |p.events| ==> p.events[i].RecordSignal? && p.events[i].signal == P.TimedOut)
            && (forall k :: k in Flagged(p.events) <==> k in m && k in D.Uids(list) && MarkOne(m[k], login, now, t).fired == [P.TimedOut])
    decreases |list|
  {
    if list != [] {
      var u := list[0].uid;
      if u in m {
        var s := MarkOne(m[u], login, now, t);
        var m1 := m[u := s.rec];
        var rest := MarkPass(m1, list[1..], login, now, t);
        MarkPassSignals(m1, list[1..], login, now, t);
        FlaggedAppend(Tag(u, s.fired), rest.events);
        assert Flagged(Tag(u, s.fired)) <= {u} by {
          if s.fired != [] {
            assert Tag(u, s.fired) == [RecordSignal(u, P.TimedOut)];
          }
        }
        MarkOneSettles(m[u], login, now, t);
        forall k | k in Flagged(rest.events) ensures k != u && m1[k] == m[k] {
        }
        assert s.fired == [P.TimedOut] ==> Flagged(Tag(u, s.fired)) == {u} by {
          if s.fired == [P.TimedOut] {
            assert Tag(u, s.fired) == [RecordSignal(u, P.TimedOut)];
          }
        }
        assert forall k :: k in m && k != u ==> m1[k] == m[k];
        SignalsAppend(Tag(u, s.fired), rest.events);
      } else {
        MarkPassSignals(m, list[1..], login, now, t);
      }
    }
  }

  /** TimedOut-only runs of events concatenate. */
  lemma SignalsAppend(a: seq<Event>, b: seq<Event>)
    requires forall i :: 0 <= i < |a| ==> a[i].RecordSignal? && a[i].signal == P.TimedOut
    requires forall i :: 0 <= i < |b| ==> b[i].RecordSignal? && b[i].signal == P.TimedOut
    ensures forall i :: 0 <= i < |a + b| ==> (a + b)[i].RecordSignal? && (a + b)[i].signal == P.TimedOut
  {
    forall i | 0 <= i < |a + b| ensures (a + b)[i].RecordSignal? && (a + b)[i].signal == P.TimedOut {
      if i < |a| { assert (a + b)[i] == a[i]; } else { assert (a + b)[i] == b[i - |a|]; }
    }
  }

  /** Flagged uids of a concatenation. */
  lemma {:induction false} FlaggedAppend(a: seq<Event>, b: seq<Event>)
    ensures Flagged(a + b) == Flagged(a) + Flagged(b)
    decreases |a|
  {
    if a == [] {
      assert a + b == b;
    } else {
      assert (a + b)[0] == a[0];
      assert (a + b)[1..] == a[1..] + b;
      FlaggedAppend(a[1..], b);
    }
  }

  /** `checkParticipantsTimeout(timeoutSeconds:)` on a running checker: the remote listing with
      timed-out records included, each checked. Nothing is ever removed and the checker never
      stops by itself. */
  function Tick(st: State, now: int): (s: Step)
    ensures st.timer.None? ==> s == Step(st, [])
    ensures s.st.(remotes := st.remotes) == st
    ensures st.remotes.Keys <= s.st.remotes.Keys
  {
    match st.timer
    case None => Step(st, [])
    case Some(t) =>
      var l := ED.GetRemoteParticipants(st, true, now);
      var p := MarkPass(l.st.remotes, l.list, LoginUID(st), now, t);
      Step(l.st.(remotes := p.m), l.events + p.events)
  }

  /** The record a uid has when the tick looks at it, if the transport does not know the uid:
      its filed record, or the handle-less one the listing creates. */
  function Before(st: State, k: string, now: int): P.Record
  {
    if k in st.remotes then st.remotes[k] else P.Create(k, now, None, None)
  }

  /** Binding events carry no TimedOut. */
  lemma {:induction false} BindSignalsFlagNothing(evs: seq<Event>)
    requires D.BindSignals(evs)
    ensures Flagged(evs) == {}
    decreases |evs|
  {
    if evs != [] {
      assert D.BindSignals(evs[1..]) by {
        forall i | 0 <= i < |evs[1..]| ensures evs[1..][i].RecordSignal? && evs[1..][i].signal in {P.Joined, P.TrackPublished} {
          assert evs[1..][i] == evs[i + 1];
        }
      }
      BindSignalsFlagNothing(evs[1..]);
    }
  }

  /** After a tick, among the listed uids (the expected ones other than the login uid, and the
      transport's), no joined remote record is flagged and every overdue one is; records filed
      under any other uid are untouched. */
  lemma TickFlags(st: State, now: int)
    requires KeysMatch(st.remotes) && st.roomInfo.Some? && st.timer.Some?
    ensures var s := Tick(st, now);
            var info := st.roomInfo.value;
            var listed := ED.Expected(info) + T.Identities(D.TransportRemotes(st));
            var login := Some(info.loginUID);
            && s.st.remotes.Keys == st.remotes.Keys + listed
            && (forall k :: k in listed && !P.IsLocal(s.st.remotes[k], login) && s.st.remotes[k].hasJoined ==> !s.st.remotes[k].isTimeout)
            && (forall k :: k in listed && C.Overdue(s.st.remotes[k], login, now, st.timer.value) ==> s.st.remotes[k].isTimeout)
            && (forall k :: k in st.remotes && k !in listed ==> s.st.remotes[k] == st.remotes[k])
  {
    var t := st.timer.value;
    var l := ED.GetRemoteParticipants(st, true, now);
    ED.ListingWithTimeoutsIsComplete(st, now);
    ED.GetRemoteParticipantsFiles(st, true, now);
    MarkPassApplies(l.st.remotes, l.list, LoginUID(st), now, t);
  }

  /** The check fires TimedOut exactly on an overdue record not yet flagged. */
  lemma MarkOneFires(r: P.Record, login: Option<string>, now: int, t: int)
    ensures MarkOne(r, login, now, t).fired == [P.TimedOut] <==> C.Overdue(r, login, now, t) && !r.isTimeout
  {
  }

  /** The listing hands the check each expected uid unknown to the transport with the record it
      had before, or a record created now. */
  lemma ListingKeepsUnconfirmed(st: State, now: int, k: string)
    requires KeysMatch(st.remotes) && st.roomInfo.Some?
    requires k in ED.Expected(st.roomInfo.value) && k !in T.Identities(D.TransportRemotes(st))
    ensures var l := ED.GetRemoteParticipants(st, true, now);
            k in l.st.remotes && l.st.remotes[k] == Before(st, k, now)
  {
    ED.GetRemoteParticipantsFiles(st, true, now);
  }

  /** A tick fires TimedOut exactly for the expected uids the transport does not know whose
      record, filed or about to be created, is overdue and not yet flagged; everything else it
      fires is the listing's Joined and TrackPublished. */
  lemma TickFires(st: State, now: int)
    requires KeysMatch(st.remotes) && st.roomInfo.Some? && st.timer.Some?
    ensures var s := Tick(st, now);
            var info := st.roomInfo.value;
            var lk := D.TransportRemotes(st);
            Flagged(s.events) == set k | k in ED.Expected(info) - T.Identities(lk)
                                         && C.Overdue(Before(st, k, now), Some(info.loginUID), now, st.timer.value)
                                         && !Before(st, k, now).isTimeout
  {
    var t := st.timer.value;
    var info := st.roomInfo.value;
    var lk := D.TransportRemotes(st);
    var login := Some(info.loginUID);
    var l := ED.GetRemoteParticipants(st, true, now);
    var p := MarkPass(l.st.remotes, l.list, login, now, t);
    ED.ListingWithTimeoutsIsComplete(st, now);
    ED.GetRemoteParticipantsFiles(st, true, now);
    MarkPassSignals(l.st.remotes, l.list, login, now, t);
    BindSignalsFlagNothing(l.events);
    FlaggedAppend(l.events, p.events);
    forall k
      ensures (k in Flagged(p.events)) == (k in ED.Expected(info) - T.Identities(lk)
                                           && C.Overdue(Before(st, k, now), login, now, t)
                                           && !Before(st, k, now).isTimeout)
    {
      if k in l.st.remotes {
        MarkOneFires(l.st.remotes[k], login, now, t);
      }
      if k in ED.Expected(info) - T.Identities(lk) {
        ListingKeepsUnconfirmed(st, now, k);
      } else if k in T.Identities(lk) {
        assert ED.Confirmed(l.st.remotes[k]);
      }
    }
  }

  // ---------------------------------------------------------------------------------------------
  // Connection states

  /** `notifyJoined()` of the local record: fires Joined. */
  function NotifyJoined(r: P.Record): (s: P.Step)
    ensures s.rec == r && s.fired == [P.Joined]
  {
    P.Step(r, [P.Joined])
  }

  /** `room(_:didUpdateConnectionState:from:)`: nothing outside a room; otherwise the mapped
      status is announced; on Connected the local record is looked up and bound to the room's
      local participant, looked up again, and told it joined; on Disconnected the local record
      leaves. The transport participants are not synced. */
  function OnConnectionState(st: State, room: T.Room, cs: T.ConnectionState, now: int): (s: Step)
    ensures st.roomInfo.None? ==> s == Step(st, [])
    ensures st.roomInfo.Some? ==> |s.events| >= 1 && s.events[0] == StatusChanged(st.roomInfo.value.roomName, C.StatusOf(cs))
    ensures st.roomInfo.Some? && (cs == T.Connecting || cs == T.Reconnecting) ==> s.st == st && |s.events| == 1
    ensures s.st.(local := st.local) == st
  {
    match st.roomInfo
    case None => Step(st, [])
    case Some(info) =>
      var announce := StatusChanged(info.roomName, C.StatusOf(cs));
      match cs
      case Connecting => Step(st, [announce])
      case Reconnecting => Step(st, [announce])
      case Connected =>
        var l1 := D.GetLocalParticipant(st, now);
        var b := P.SetLocal(l1.rec.value, room.local);
        var l2 := D.GetLocalParticipant(l1.st.(local := Some(b.rec)), now);
        var j := NotifyJoined(l2.rec.value);
        Step(l2.st.(local := Some(j.rec)),
             [announce] + l1.events + Tag(b.rec.uid, b.fired) + l2.events + Tag(j.rec.uid, j.fired))
      case Disconnected =>
        var l := D.GetLocalParticipant(st, now);
        var n := P.NotifyLeave(l.rec.value);
        Step(l.st.(local := Some(n.rec)), [announce] + l.events + Tag(n.rec.uid, n.fired))
  }

  /** On Connected in the room whose state changed, a first local record is created for the
      login uid, bound to the room's local participant and joined, and Joined fires three times:
      on binding, on the second lookup's rebinding, and on `notifyJoined()`. */
  lemma ConnectedJoinsThrice(st: State, room: T.Room, now: int)
    requires st.roomInfo.Some? && st.room == Some(room) && st.local.None?
    ensures var s := OnConnectionState(st, room, T.Connected, now);
            var login := st.roomInfo.value.loginUID;
            && s.st.local.Some? && s.st.local.value.uid == login
            && s.st.local.value.hasJoined && s.st.local.value.local == Some(room.local)
            && s.events == [StatusChanged(st.roomInfo.value.roomName, StatusConnected),
                            RecordSignal(login, P.Joined), RecordSignal(login, P.Joined), RecordSignal(login, P.Joined)]
  {
  }

  /** On Disconnected the local record leaves once: over two Disconnected notifications Left
      fires only on the first, and only if the record was not already disposed. With a room
      installed, each lookup first rebinds an existing record to the room's local participant,
      so Joined fires before Left, and a second Disconnected fires Joined again and rebinds the
      disposed record. The room, its information and the remote records stay. */
  lemma DisconnectedLeavesOnce(st: State, room: T.Room, now: int)
    requires st.roomInfo.Some?
    ensures var s := OnConnectionState(st, room, T.Disconnected, now);
            var s2 := OnConnectionState(s.st, room, T.Disconnected, now);
            var status := StatusChanged(st.roomInfo.value.roomName, StatusDisconnected);
            var u := if st.local.Some? then st.local.value.uid else st.roomInfo.value.loginUID;
            var wasDisposed := st.local.Some? && st.local.value.isDisposed;
            && s.events == [status] + (if st.room.Some? && st.local.Some? then [RecordSignal(u, P.Joined)] else [])
                                    + (if wasDisposed then [] else [RecordSignal(u, P.Left)])
            && s2.events == [status] + (if st.room.Some? then [RecordSignal(u, P.Joined)] else [])
            && s.st.local.Some? && s.st.local.value.isDisposed && s.st.local.value.uid == u
            && s2.st.local.Some? && s2.st.local.value.isDisposed
            && (st.room.None? ==> s2.st == s.st)
            && (st.room.Some? ==> s2.st.local.value.local == Some(st.room.value.local) && s2.st.local.value.hasJoined)
            && s2.st.(local := st.local) == st
  {
  }
}

=== FILE: early_directory.dfy ===
/** The participant directory of the earlier copy of the SDK (`Classes/manager/ParticipantManager.swift`).
    It shares the record, join, leave and clear behaviour of the current directory, but lists
    differently: it walks the room's expected uid list rather than the cached records, creates
    records for expected uids silently, clears the timeout flag of every participant the
    transport knows, and can leave timed-out participants out of the listing. */
module EarlyDirectory {
  import opened Optional
  import opened Seqs
  import T = Transport
  import P = Participants
  import R = Rooms
  import opened Session
  import D = Directory

  // ---------------------------------------------------------------------------------------------
  // Refreshing a record from the transport

  /** A record that the transport has confirmed: bound to a remote handle, joined, not timed out. */
  predicate Confirmed(r: P.Record)
  {
    r.remote.Some? && r.hasJoined && !r.isTimeout
  }

  /** `setRemoteParticipant(participant:)` followed by `setTimeout(false)` when timed out. */
  function Refresh(rec: P.Record, h: T.RemoteHandle): (s: P.Step)
    ensures Confirmed(s.rec) && s.rec.remote == Some(h)
    ensures D.Grown(rec, s.rec)
    ensures |s.fired| >= 1 && s.fired[0] == P.Joined
    ensures forall i :: 0 <= i < |s.fired| ==> s.fired[i] in {P.Joined, P.TrackPublished}
  {
    var b := P.SetRemote(rec, h);
    if b.rec.isTimeout then
      var c := P.MarkTimeout(b.rec, false);
      P.Step(c.rec, b.fired + c.fired)
    else b
  }

  // ---------------------------------------------------------------------------------------------
  // Listing

  /** The uids the first loop files: the expected uids other than the login uid. */
  function Expected(info: R.RoomInfo): set<string>
  {
    set u | u in info.uidList && u != info.loginUID
  }

  /** A uid whose record stays timed out through the first loop: it is filed, flagged, and the
      transport has no participant of that identity to clear the flag. */
  predicate StillTimedOut(m: map<string, P.Record>, lk: seq<T.RemoteHandle>, u: string)
  {
    u in m && m[u].isTimeout && T.FirstWithIdentity(lk, u).None?
  }

  /** One step of the first loop for uid `u`: the cached record or a new one (bound to the
      transport participant of its uid if any, and announced to nobody), refreshed from that
      transport participant when there is one. */
  function Visit(m: map<string, P.Record>, u: string, lk: seq<T.RemoteHandle>, now: int): (s: P.Step)
    ensures T.FirstWithIdentity(lk, u).Some? ==> Confirmed(s.rec)
    ensures T.FirstWithIdentity(lk, u).None? ==>
              s == P.Step(if u in m then m[u] else P.Create(u, now, None, None), [])
    ensures s.rec.uid == (if u in m then m[u].uid else u)
    ensures s.rec.isTimeout == StillTimedOut(m, lk, u)
    ensures forall i :: 0 <= i < |s.fired| ==> s.fired[i] in {P.Joined, P.TrackPublished}
  {
    var lkp := T.FirstWithIdentity(lk, u);
    var base := if u in m then m[u] else P.Create(u, now, None, lkp);
    if lkp.Some? then Refresh(base, lkp.value) else P.Step(base, [])
  }

  /** The record as listed: dropped when timed out and timed-out records are not wanted. */
  function Keep(rec: P.Record, withTimeout: bool): (l: seq<P.Record>)
    ensures D.Uids(l) == if withTimeout || !rec.isTimeout then {rec.uid} else {}
  {
    if withTimeout || !rec.isTimeout then [rec] else []
  }

  /** First loop of `getRemoteParticipants(includeTimeout:)`: each expected uid other than the
      login uid, in list order, is visited and its record listed unless dropped. */
  function UidPass(m: map<string, P.Record>, uids: seq<string>, login: string, lk: seq<T.RemoteHandle>, withTimeout: bool, now: int): (p: D.Pass)
    ensures p.m.Keys == m.Keys + (set u | u in uids && u != login)
    decreases |uids|
  {
    if uids == [] then D.Pass(m, [], [])
    else
      var u := uids[0];
      assert forall x :: x in uids <==> x == u || x in uids[1..];
      if u == login then UidPass(m, uids[1..], login, lk, withTimeout, now)
      else
        var s := Visit(m, u, lk, now);
        var rest := UidPass(m[u := s.rec], uids[1..], login, lk, withTimeout, now);
        D.Pass(rest.m, Keep(s.rec, withTimeout) + rest.list, Tag(u, s.fired) + rest.events)
  }

  /** One step of the second loop for transport participant `h` of identity `id`: the cached
      record or a new bound one, refreshed from `h`. */
  function Adopt(m: map<string, P.Record>, id: string, h: T.RemoteHandle, now: int): (s: P.Step)
    ensures Confirmed(s.rec)
    ensures s.rec.uid == (if id in m then m[id].uid else id)
    ensures forall i :: 0 <= i < |s.fired| ==> s.fired[i] in {P.Joined, P.TrackPublished}
  {
    Refresh(if id in m then m[id] else P.Create(id, now, None, Some(h)), h)
  }

  /** Second loop: each transport participant with an identity that the first loop did not
      handle gets its cached record or a new bound one, is refreshed from it and always listed.
      The login uid is not skipped here. */
  function TransportPass(m: map<string, P.Record>, lk: seq<T.RemoteHandle>, added: set<string>, now: int): (p: D.Pass)
    ensures p.m.Keys == m.Keys + (T.Identities(lk) - added)
    decreases |lk|
  {
    if lk == [] then D.Pass(m, [], [])
    else
      match lk[0].identity
      case None => TransportPass(m, lk[1..], added, now)
      case Some(id) =>
        if id in added then TransportPass(m, lk[1..], added, now)
        else
          var s := Adopt(m, id, lk[0], now);
          var rest := TransportPass(m[id := s.rec], lk[1..], added, now);
          D.Pass(rest.m, [s.rec] + rest.list, Tag(id, s.fired) + rest.events)
  }

  /** `getRemoteParticipants(includeTimeout:)`: outside a room, nothing; otherwise the first loop
      over the expected uids, then the second over the transport participants. */
  function GetRemoteParticipants(st: State, withTimeout: bool, now: int): (r: D.Listing)
    ensures r.st.(remotes := st.remotes) == st
    ensures st.roomInfo.None? ==> r == D.Listing(st, [], [])
  {
    match st.roomInfo
    case None => D.Listing(st, [], [])
    case Some(info) =>
      var lk := D.TransportRemotes(st);
      var a := UidPass(st.remotes, info.uidList, info.loginUID, lk, withTimeout, now);
      var b := TransportPass(a.m, lk, Expected(info), now);
      D.Listing(st.(remotes := b.m), a.list + b.list, a.events + b.events)
  }

  // ---------------------------------------------------------------------------------------------
  // What the first loop does

  /** Binding signals of two runs of events. */
  lemma BindSignalsAppend(a: seq<Event>, b: seq<Event>)
    requires D.BindSignals(a) && D.BindSignals(b)
    ensures D.BindSignals(a + b)
  {
    forall i | 0 <= i < |a + b| ensures (a + b)[i].RecordSignal? && (a + b)[i].signal in {P.Joined, P.TrackPublished} {
      if i < |a| { assert (a + b)[i] == a[i]; } else { assert (a + b)[i] == b[i - |a|]; }
    }
  }

  /** The first loop confirms every expected uid the transport knows, keeps every other cached
      record as it was, and files a handle-less record for an expected uid it had to create. */
  lemma {:induction false} UidPassFiles(m: map<string, P.Record>, uids: seq<string>, login: string, lk: seq<T.RemoteHandle>, withTimeout: bool, now: int)
    requires KeysMatch(m)
    ensures var p := UidPass(m, uids, login, lk, withTimeout, now);
            && KeysMatch(p.m)
            && (forall k :: k in p.m && k in uids && k != login && T.FirstWithIdentity(lk, k).Some? ==> Confirmed(p.m[k]))
            && (forall k :: k in m && !(k in uids && k != login && T.FirstWithIdentity(lk, k).Some?) ==> p.m[k] == m[k])
            && (forall k :: k in p.m && k !in m && T.FirstWithIdentity(lk, k).None? ==> p.m[k] == P.Create(k, now, None, None))
    decreases |uids|
  {
    if uids != [] {
      var u := uids[0];
      assert forall x :: x in uids <==> x == u || x in uids[1..];
      if u == login {
        UidPassFiles(m, uids[1..], login, lk, withTimeout, now);
      } else {
        var s := Visit(m, u, lk, now);
        UidPassFiles(m[u := s.rec], uids[1..], login, lk, withTimeout, now);
      }
    }
  }

  /** The uids the first loop lists: the expected uids other than the login uid, less those that
      stay timed out when timed-out records are not wanted. */
  function ListedUids(m: map<string, P.Record>, uids: seq<string>, login: string, lk: seq<T.RemoteHandle>, withTimeout: bool): set<string>
  {
    set u | u in uids && u != login && (withTimeout || !StillTimedOut(m, lk, u))
  }

  /** The listed uids of a non-empty list: its head, when listed, and those of its tail. */
  lemma ListedUidsCons(m: map<string, P.Record>, uids: seq<string>, login: string, lk: seq<T.RemoteHandle>, withTimeout: bool)
    requires uids != []
    ensures var u := uids[0];
            ListedUids(m, uids, login, lk, withTimeout)
            == (if u != login && (withTimeout || !StillTimedOut(m, lk, u)) then {u} else {})
               + ListedUids(m, uids[1..], login, lk, withTimeout)
  {
    assert forall x :: x in uids <==> x == uids[0] || x in uids[1..];
  }

  /** Refiling a uid with a record timed out exactly when the old one stayed timed out changes
      no uid's standing. */
  lemma ListedUidsFrame(m: map<string, P.Record>, u: string, rec: P.Record, uids: seq<string>, login: string, lk: seq<T.RemoteHandle>, withTimeout: bool)
    requires rec.isTimeout == StillTimedOut(m, lk, u)
    ensures ListedUids(m[u := rec], uids, login, lk, withTimeout) == ListedUids(m, uids, login, lk, withTimeout)
  {
    forall x ensures StillTimedOut(m[u := rec], lk, x) == StillTimedOut(m, lk, x) {
      if x == u {
        assert StillTimedOut(m[u := rec], lk, x) == (rec.isTimeout && T.FirstWithIdentity(lk, u).None?);
      }
    }
  }

  /** The first loop lists exactly the expected uids other than the login uid, except, when
      timed-out records are not wanted, those that stay timed out. */
  lemma {:induction false} UidPassLists(m: map<string, P.Record>, uids: seq<string>, login: string, lk: seq<T.RemoteHandle>, withTimeout: bool, now: int)
    requires KeysMatch(m)
    ensures var p := UidPass(m, uids, login, lk, withTimeout, now);
            D.Uids(p.list) == set u | u in uids && u != login && (withTimeout || !StillTimedOut(m, lk, u))
    decreases |uids|
  {
    if uids != [] {
      var u := uids[0];
      ListedUidsCons(m, uids, login, lk, withTimeout);
      if u == login {
        UidPassLists(m, uids[1..], login, lk, withTimeout, now);
      } else {
        var s := Visit(m, u, lk, now);
        var m1 := m[u := s.rec];
        var rest := UidPass(m1, uids[1..], login, lk, withTimeout, now);
        UidPassLists(m1, uids[1..], login, lk, withTimeout, now);
        ListedUidsFrame(m, u, s.rec, uids[1..], login, lk, withTimeout);
        D.UidsAppend(Keep(s.rec, withTimeout), rest.list);
        assert s.rec.uid == u;
      }
    }
  }

  /** The first loop announces nobody, and only Joined and TrackPublished fire. */
  lemma {:induction false} UidPassSignals(m: map<string, P.Record>, uids: seq<string>, login: string, lk: seq<T.RemoteHandle>, withTimeout: bool, now: int)
    ensures var p := UidPass(m, uids, login, lk, withTimeout, now);
            D.Announced(p.events) == [] && D.BindSignals(p.events)
    decreases |uids|
  {
    if uids != [] {
      var u := uids[0];
      if u == login {
        UidPassSignals(m, uids[1..], login, lk, withTimeout, now);
      } else {
        var s := Visit(m, u, lk, now);
        var rest := UidPass(m[u := s.rec], uids[1..], login, lk, withTimeout, now);
        UidPassSignals(m[u := s.rec], uids[1..], login, lk, withTimeout, now);
        D.AnnouncedAppend(Tag(u, s.fired), rest.events);
        D.AnnouncedTag(u, s.fired);
        BindSignalsAppend(Tag(u, s.fired), rest.events);
      }
    }
  }

  // ---------------------------------------------------------------------------------------------
  // What the second loop does

  /** The second loop confirms every transport identity it handles and leaves every other record
      alone. */
  lemma {:induction false} TransportPassFiles(m: map<string, P.Record>, lk: seq<T.RemoteHandle>, added: set<string>, now: int)
    requires KeysMatch(m)
    ensures var p := TransportPass(m, lk, added, now);
            && KeysMatch(p.m)
            && (forall k :: k in T.Identities(lk) - added ==> Confirmed(p.m[k]))
            && (forall k :: k in m && k !in T.Identities(lk) - added ==> p.m[k] == m[k])
    decreases |lk|
  {
    if lk != [] {
      match lk[0].identity
      case None =>
        TransportPassFiles(m, lk[1..], added, now);
      case Some(id) =>
        if id in added {
          TransportPassFiles(m, lk[1..], added, now);
        } else {
          var s := Adopt(m, id, lk[0], now);
          TransportPassFiles(m[id := s.rec], lk[1..], added, now);
        }
    }
  }

  /** An adopted record is filed under its own uid. */
  lemma AdoptKeepsKeys(m: map<string, P.Record>, id: string, h: T.RemoteHandle, now: int)
    requires KeysMatch(m)
    ensures Adopt(m, id, h, now).rec.uid == id
    ensures KeysMatch(m[id := Adopt(m, id, h, now).rec])
  {
  }

  /** The second loop lists exactly the transport identities the first loop did not handle,
      announces nobody, and fires only Joined and TrackPublished. */
  lemma {:induction false} TransportPassLists(m: map<string, P.Record>, lk: seq<T.RemoteHandle>, added: set<string>, now: int)
    requires KeysMatch(m)
    ensures var p := TransportPass(m, lk, added, now);
            D.Uids(p.list) == T.Identities(lk) - added
    decreases |lk|
  {
    if lk != [] {
      var id := lk[0].identity;
      if id.None? || id.value in added {
        TransportPassLists(m, lk[1..], added, now);
      } else {
        var s := Adopt(m, id.value, lk[0], now);
        AdoptKeepsKeys(m, id.value, lk[0], now);
        var rest := TransportPass(m[id.value := s.rec], lk[1..], added, now);
        TransportPassLists(m[id.value := s.rec], lk[1..], added, now);
        assert TransportPass(m, lk, added, now).list == [s.rec] + rest.list;
        D.UidsAppend([s.rec], rest.list);
      }
    }
  }

  /** The second loop announces nobody, and only Joined and TrackPublished fire. */
  lemma {:induction false} TransportPassSignals(m: map<string, P.Record>, lk: seq<T.RemoteHandle>, added: set<string>, now: int)
    ensures var p := TransportPass(m, lk, added, now);
            D.Announced(p.events) == [] && D.BindSignals(p.events)
    decreases |lk|
  {
    if lk != [] {
      match lk[0].identity
      case None =>
        TransportPassSignals(m, lk[1..], added, now);
      case Some(id) =>
        if id in added {
          TransportPassSignals(m, lk[1..], added, now);
        } else {
          var s := Adopt(m, id, lk[0], now);
          var rest := TransportPass(m[id := s.rec], lk[1..], added, now);
          TransportPassSignals(m[id := s.rec], lk[1..], added, now);
          D.AnnouncedAppend(Tag(id, s.fired), rest.events);
          D.AnnouncedTag(id, s.fired);
          BindSignalsAppend(Tag(id, s.fired), rest.events);
        }
    }
  }

  // ---------------------------------------------------------------------------------------------
  // What a listing does

  /** A listing files a record under every expected uid other than the login uid and under every
      transport identity; every uid the transport knows ends up confirmed (bound, joined, timeout
      cleared); every other cached record is untouched; nobody is announced. */
  lemma GetRemoteParticipantsFiles(st: State, withTimeout: bool, now: int)
    requires KeysMatch(st.remotes) && st.roomInfo.Some?
    ensures var r := GetRemoteParticipants(st, withTimeout, now);
            var info := st.roomInfo.value;
            var lk := D.TransportRemotes(st);
            && KeysMatch(r.st.remotes)
            && r.st.remotes.Keys == st.remotes.Keys + Expected(info) + T.Identities(lk)
            && (forall k :: k in T.Identities(lk) ==> Confirmed(r.st.remotes[k]))
            && (forall k :: k in st.remotes && k !in T.Identities(lk) ==> r.st.remotes[k] == st.remotes[k])
            && (forall k :: k in r.st.remotes && k !in st.remotes && k !in T.Identities(lk) ==> r.st.remotes[k] == P.Create(k, now, None, None))
            && D.Announced(r.events) == [] && D.BindSignals(r.events)
  {
    var info := st.roomInfo.value;
    var lk := D.TransportRemotes(st);
    var login := info.loginUID;
    var a := UidPass(st.remotes, info.uidList, login, lk, withTimeout, now);
    UidPassFiles(st.remotes, info.uidList, login, lk, withTimeout, now);
    UidPassSignals(st.remotes, info.uidList, login, lk, withTimeout, now);
    var b := TransportPass(a.m, lk, Expected(info), now);
    TransportPassFiles(a.m, lk, Expected(info), now);
    TransportPassSignals(a.m, lk, Expected(info), now);
    D.AnnouncedAppend(a.events, b.events);
    BindSignalsAppend(a.events, b.events);
    T.IdentitiesFind(lk);
    forall k | k in T.Identities(lk) ensures Confirmed(b.m[k]) {
      if k in Expected(info) {
        assert T.FirstWithIdentity(lk, k).Some?;
        assert Confirmed(a.m[k]);
      }
    }
  }

  /** A listing names the expected uids other than the login uid (leaving out, unless timed-out
      records are wanted, those flagged and unknown to the transport) and every transport
      identity. */
  lemma GetRemoteParticipantsCovers(st: State, withTimeout: bool, now: int)
    requires KeysMatch(st.remotes) && st.roomInfo.Some?
    ensures var r := GetRemoteParticipants(st, withTimeout, now);
            var info := st.roomInfo.value;
            var lk := D.TransportRemotes(st);
            D.Uids(r.list) == (set u | u in Expected(info) && (withTimeout || !StillTimedOut(st.remotes, lk, u))) + T.Identities(lk)
  {
    var info := st.roomInfo.value;
    var lk := D.TransportRemotes(st);
    var login := info.loginUID;
    var a := UidPass(st.remotes, info.uidList, login, lk, withTimeout, now);
    var b := TransportPass(a.m, lk, Expected(info), now);
    UidPassFiles(st.remotes, info.uidList, login, lk, withTimeout, now);
    UidPassLists(st.remotes, info.uidList, login, lk, withTimeout, now);
    TransportPassLists(a.m, lk, Expected(info), now);
    D.UidsAppend(a.list, b.list);
    T.IdentitiesFind(lk);
    forall k | k in T.Identities(lk) && k in Expected(info) ensures !StillTimedOut(st.remotes, lk, k) {
      assert T.FirstWithIdentity(lk, k).Some?;
    }
  }

  /** With timed-out records wanted, a listing names every expected uid other than the login uid
      and every transport identity, which are exactly the uids it filed anything under. */
  lemma ListingWithTimeoutsIsComplete(st: State, now: int)
    requires KeysMatch(st.remotes) && st.roomInfo.Some?
    ensures var r := GetRemoteParticipants(st, true, now);
            D.Uids(r.list) == Expected(st.roomInfo.value) + T.Identities(D.TransportRemotes(st))
            && D.Uids(r.list) <= r.st.remotes.Keys
  {
    GetRemoteParticipantsCovers(st, true, now);
    GetRemoteParticipantsFiles(st, true, now);
  }

  // ---------------------------------------------------------------------------------------------
  // Full listing and invitation

  /** `getAllParticipants(includeTimeout:)`: the local record first, then the remote listing
      without the local record's uid. */
  function GetAllParticipants(st: State, withTimeout: bool, now: int): (r: D.Listing)
    ensures st.roomInfo.None? ==> r == D.Listing(st, [], [])
    ensures st.roomInfo.Some? ==> |r.list| >= 1 && r.st.local == Some(r.list[0])
    ensures forall i :: 1 <= i < |r.list| ==> r.list[i].uid != r.list[0].uid
  {
    var l := D.GetLocalParticipant(st, now);
    var remote := GetRemoteParticipants(l.st, withTimeout, now);
    match l.rec
    case None => D.Listing(remote.st, remote.list, l.events + remote.events)
    case Some(rec) =>
      var rest := D.WithoutUid(remote.list, rec.uid);
      D.Listing(remote.st, [rec] + rest, l.events + remote.events)
  }

  /** With the local record carrying the login uid, the full listing names the login uid, the
      expected uids (less those left out as timed out) and every transport identity. */
  lemma GetAllParticipantsCovers(st: State, withTimeout: bool, now: int)
    requires KeysMatch(st.remotes) && st.roomInfo.Some?
    requires st.local.Some? ==> st.local.value.uid == st.roomInfo.value.loginUID
    ensures var r := GetAllParticipants(st, withTimeout, now);
            var info := st.roomInfo.value;
            var lk := D.TransportRemotes(st);
            && r.list[0].uid == info.loginUID
            && D.Uids(r.list) == {info.loginUID} + (set u | u in Expected(info) && (withTimeout || !StillTimedOut(st.remotes, lk, u)))
                                 + T.Identities(lk)
  {
    var l := D.GetLocalParticipant(st, now);
    var r := GetAllParticipants(st, withTimeout, now);
    GetRemoteParticipantsCovers(l.st, withTimeout, now);
    assert r.list == [r.list[0]] + r.list[1..];
    D.UidsAppend([r.list[0]], r.list[1..]);
  }

  /** `inviteParticipant(uids:)`: outside a room, when every uid already has a record, or when no
      place is free, nothing happens; otherwise the first free-places-many new uids are accepted
      in input order. No room name is checked and no timeout checker is started. */
  function InviteParticipant(st: State, uids: seq<string>, now: int): (s: Step)
    ensures st.roomInfo.None? ==> s == Step(st, [])
    ensures st.roomInfo.Some? && (D.NewUids(st, uids) == [] || D.Slots(st.roomInfo.value) <= 0) ==> s == Step(st, [])
    ensures s.st.timer == st.timer
  {
    match st.roomInfo
    case None => Step(st, [])
    case Some(info) =>
      var newUids := D.NewUids(st, uids);
      if newUids == [] || D.Slots(info) <= 0 then Step(st, [])
      else D.AddInvited(st, Take(newUids, D.Slots(info)), now)
  }

  /** The earlier invitation is the current one for the current room, less the checker restart. */
  lemma InviteIsCurrentWithoutRestart(st: State, uids: seq<string>, now: int)
    requires st.roomInfo.Some?
    ensures var s := InviteParticipant(st, uids, now);
            var c := D.InviteParticipant(st, st.roomInfo.value.roomName, uids, now);
            s.events == c.events && s.st == c.st.(timer := st.timer)
  {
  }

  /** An accepted earlier invitation appends the accepted uids to the expected list, announces
      them in order, files a pending record for each, and stays within `maxParticipants`; as in
      the current copy, a uid repeated in the call is taken once per occurrence. */
  lemma InviteAccepts(st: State, uids: seq<string>, now: int)
    requires st.roomInfo.Some?
    requires D.NewUids(st, uids) != [] && D.Slots(st.roomInfo.value) > 0
    ensures var s := InviteParticipant(st, uids, now);
            var info := st.roomInfo.value;
            var accepted := Take(D.NewUids(st, uids), D.Slots(info));
            && |accepted| == Min(|D.NewUids(st, uids)|, D.Slots(info))
            && s.st.roomInfo.value.uidList == info.uidList + accepted
            && |s.st.roomInfo.value.uidList| <= info.maxParticipants
            && D.Announced(s.events) == accepted
            && s.st.remotes.Keys == st.remotes.Keys + (set u | u in accepted)
            && (forall k :: k in accepted ==> P.IsPending(s.st.remotes[k]) && s.st.remotes[k].createdAt == now)
            && s.st.timer == st.timer
  {
    var info := st.roomInfo.value;
    D.AddInvitedFiles(st, Take(D.NewUids(st, uids), D.Slots(info)), now);
    D.AddInvitedAppends(st, Take(D.NewUids(st, uids), D.Slots(info)), now);
    D.AddInvitedAnnounces(st, Take(D.NewUids(st, uids), D.Slots(info)), now);
  }
}

=== FILE: home_view.dfy ===
/** The demo home screen (`TgoRTCIOS/Views/HomeView.swift`): the guard in front of a room
    request and the integer colour channels that `Color(hex:)` extracts from a hex string. */
module HomeScreen {
  import opened Text
  import Api

  // ---------------------------------------------------------------------------------------------
  // Room requests

  const DefaultServerUrl: string := "http://47.117.96.203:8080"
  const MissingRoomMessage: string := "请输入房间号"

  /** Nothing but spaces and tabs. */
  predicate Blank(s: string)
  {
    forall i :: 0 <= i < |s| ==> IsWhitespace(s[i])
  }

  /** What `handleRoom(isCreator:)` does: refuse with a message, or send a create or join request
      for the trimmed room id to a server. */
  datatype Attempt =
    | Refused(message: string)
    | Request(baseUrl: string, roomId: string, isCreator: bool)

  /** `handleRoom(isCreator:)` up to the request: a room id that is blank once spaces and tabs are
      trimmed is refused; otherwise the trimmed id is requested from the entered server, or from
      the default server when that field is blank. */
  function HandleRoom(roomId: string, serverUrl: string, isCreator: bool): (a: Attempt)
    ensures a.Refused? <==> Blank(roomId)
    ensures a.Refused? ==> a.message == MissingRoomMessage
    ensures a.Request? ==> a.roomId == Trim(roomId, Whitespaces) && a.isCreator == isCreator
    ensures a.Request? ==> a.roomId != [] && !IsWhitespace(a.roomId[0]) && !IsWhitespace(a.roomId[|a.roomId| - 1])
    ensures a.Request? ==> a.baseUrl == if Blank(serverUrl) then DefaultServerUrl else serverUrl
  {
    var id := Trim(roomId, Whitespaces);
    BlankIffTrimmedEmpty(roomId);
    BlankIffTrimmedEmpty(serverUrl);
    if id == [] then Refused(MissingRoomMessage)
    else Request(if Trim(serverUrl, Whitespaces) == [] then DefaultServerUrl else serverUrl, id, isCreator)
  }

  /** A string is blank exactly when trimming spaces and tabs leaves nothing. */
  lemma BlankIffTrimmedEmpty(s: string)
    ensures Trim(s, Whitespaces) == [] <==> Blank(s)
  {
    if Trim(s, Whitespaces) == [] {
      forall i | 0 <= i < |s| ensures IsWhitespace(s[i]) {
        assert InSet(s[i], Whitespaces);
      }
    }
  }

  /** A request with a blank server field goes to the default server exactly as written, and a
      room id without surrounding spaces is requested as typed. */
  lemma DefaultServerUsedAsIs(roomId: string, serverUrl: string, isCreator: bool)
    requires Blank(serverUrl)
    requires roomId != [] && !IsWhitespace(roomId[0]) && !IsWhitespace(roomId[|roomId| - 1])
    ensures HandleRoom(roomId, serverUrl, isCreator) == Request(DefaultServerUrl, roomId, isCreator)
    ensures Api.NormalizeBaseUrl(DefaultServerUrl) == DefaultServerUrl
  {
    TrimOfTrimmed(roomId, Whitespaces);
    var l := ToLower(DefaultServerUrl);
    assert l[..7] == "http://";
    Api.CleanUrlKept(DefaultServerUrl);
  }

  // ---------------------------------------------------------------------------------------------
  // Hex colours

  predicate IsHexDigit(c: char)
  {
    IsDigit(c) || 'a' <= c <= 'f' || 'A' <= c <= 'F'
  }

  predicate AllHex(s: string)
  {
    forall i :: 0 <= i < |s| ==> IsHexDigit(s[i])
  }

  /** The value of a hex digit; 0 for any other character, which the scanner never reads. */
  function HexDigitValue(c: char): (v: nat)
    ensures v < 16
  {
    if IsDigit(c) then c as int - '0' as int
    else if 'a' <= c <= 'f' then c as int - 'a' as int + 10
    else if 'A' <= c <= 'F' then c as int - 'A' as int + 10
    else 0
  }

  /** The value of a string of hex digits, most significant first. */
  function HexValue(d: string): nat
  {
    if d == [] then 0 else HexValue(d[..|d| - 1]) * 16 + HexDigitValue(d[|d| - 1])
  }

  function Pow16(n: nat): (p: nat)
    ensures p >= 1
  {
    if n == 0 then 1 else 16 * Pow16(n - 1)
  }

  /** `n` hex digits hold a value below `16^n`. */
  lemma {:induction false} HexValueBound(d: string)
    ensures HexValue(d) < Pow16(|d|)
  {
    if d != [] {
      HexValueBound(d[..|d| - 1]);
    }
  }

  /** The digits of `a` are worth `16^|b|` times their own value in front of `b`. */
  lemma {:induction false} HexValueAppend(a: string, b: string)
    ensures HexValue(a + b) == HexValue(a) * Pow16(|b|) + HexValue(b)
    decreases |b|
  {
    if b != [] {
      var b' := b[..|b| - 1];
      assert (a + b)[..|a + b| - 1] == a + b';
      assert (a + b)[|a + b| - 1] == b[|b| - 1];
      HexValueAppend(a, b');
      var h, p, r, d := HexValue(a), Pow16(|b'|), HexValue(b'), HexDigitValue(b[|b| - 1]);
      assert HexValue(a + b) == (h * p + r) * 16 + d;
      assert HexValue(b) == r * 16 + d;
      assert Pow16(|b|) == 16 * p;
      ShiftDigit(h, p, r, d);
    } else {
      assert a + b == a;
    }
  }

  /** Appending a digit to `h` shifted by `p` and followed by `r`. */
  lemma ShiftDigit(h: nat, p: nat, r: nat, d: nat)
    ensures (h * p + r) * 16 + d == h * (16 * p) + (r * 16 + d)
  {
    assert (h * p) * 16 == h * (16 * p);
  }

  /** The longest run of hex digits at the start of `s`. */
  function HexRun(s: string): (r: string)
    ensures |r| <= |s| && r == s[..|r|] && AllHex(r)
    ensures |r| < |s| ==> !IsHexDigit(s[|r|])
  {
    if s == [] || !IsHexDigit(s[0]) then []
    else [s[0]] + HexRun(s[1..])
  }

  /** Every character of an all-hex string belongs to its leading run. */
  lemma HexRunOfAllHex(s: string)
    requires AllHex(s)
    ensures HexRun(s) == s
  {
  }

  /** `Scanner.scanHexInt64`: an optional `0x` or `0X` prefix, then the leading hex digits; 0
      when there are none. */
  function ScanHex(s: string): (v: nat)
    ensures v < Pow16(|s|)
  {
    var digits := if |s| >= 2 && s[0] == '0' && (s[1] == 'x' || s[1] == 'X') then s[2..] else s;
    var run := HexRun(digits);
    HexValueBound(run);
    PowMonotone(|run|, |s|);
    HexValue(run)
  }

  lemma {:induction false} PowMonotone(m: nat, n: nat)
    requires m <= n
    ensures Pow16(m) <= Pow16(n)
    decreases n
  {
    if m < n {
      PowMonotone(m, n - 1);
    }
  }

  /** Colour channels as the integers `Color(hex:)` computes before scaling to `0...1`. */
  datatype Argb = Argb(a: nat, r: nat, g: nat, b: nat)

  /** `Color(hex:)`: strip non-alphanumerics from both ends, scan the hex value, and read it by
      the number of characters left: 3 as 12-bit RGB with each digit doubled (`* 17`), 6 as
      24-bit RGB, 8 as 32-bit ARGB; any other count gives `(1, 1, 1, 0)`. */
  function ColorChannels(hex: string): (c: Argb)
    ensures c.a <= 255 && c.r <= 255 && c.g <= 255 && c.b <= 255
  {
    Channels(Trim(hex, NonAlphanumerics))
  }

  /** The channels read from the trimmed string. */
  function Channels(h: string): (c: Argb)
    ensures c.a <= 255 && c.r <= 255 && c.g <= 255 && c.b <= 255
  {
    var v := ScanHex(h);
    if |h| == 3 then
      assert Pow16(3) == 4096;
      Rgb12(v)
    else if |h| == 6 then
      assert Pow16(6) == 16777216;
      Rgb24(v)
    else if |h| == 8 then
      assert Pow16(8) == 4294967296;
      Argb32(v)
    else
      Argb(1, 1, 1, 0)
  }

  /** Three digits: each 4-bit channel is doubled to 8 bits (`* 17`), fully opaque. */
  function Rgb12(v: nat): (c: Argb)
    requires v < 4096
    ensures c.a <= 255 && c.r <= 255 && c.g <= 255 && c.b <= 255
  {
    Argb(255, (v / 256) * 17, ((v / 16) % 16) * 17, (v % 16) * 17)
  }

  /** Six digits: 8-bit red, green and blue, fully opaque. */
  function Rgb24(v: nat): (c: Argb)
    requires v < 16777216
    ensures c.a <= 255 && c.r <= 255 && c.g <= 255 && c.b <= 255
  {
    Argb(255, v / 65536, (v / 256) % 256, v % 256)
  }

  /** Eight digits: 8-bit alpha, red, green and blue. */
  function Argb32(v: nat): (c: Argb)
    requires v < 4294967296
    ensures c.a <= 255 && c.r <= 255 && c.g <= 255 && c.b <= 255
  {
    Argb(v / 16777216, (v / 65536) % 256, (v / 256) % 256, v % 256)
  }

  /** Hex digits are alphanumeric, so an all-hex string is not trimmed and is scanned whole (it
      holds no `x`). */
  lemma ScanAllHex(s: string)
    requires AllHex(s)
    ensures Trim(s, NonAlphanumerics) == s
    ensures ScanHex(s) == HexValue(s)
  {
    TrimAllHex(s);
    ScanHexOfAllHex(s);
  }

  lemma TrimAllHex(s: string)
    requires AllHex(s)
    ensures Trim(s, NonAlphanumerics) == s
  {
    if s != [] {
      assert IsHexDigit(s[0]) && IsHexDigit(s[|s| - 1]);
      HexIsAlphanumeric(s[0]);
      HexIsAlphanumeric(s[|s| - 1]);
    }
    TrimOfTrimmed(s, NonAlphanumerics);
  }

  lemma ScanHexOfAllHex(s: string)
    requires AllHex(s)
    ensures ScanHex(s) == HexValue(s)
  {
    HexRunOfAllHex(s);
    if |s| >= 2 {
      assert IsHexDigit(s[1]);
      assert s[1] != 'x' && s[1] != 'X';
    }
  }

  lemma HexIsAlphanumeric(c: char)
    requires IsHexDigit(c)
    ensures IsAlphanumeric(c)
  {
  }

  /** `q * m + r` splits back into `q` and `r` when `r < m`. */
  lemma DivModOf(q: nat, r: nat, m: nat)
    requires r < m
    ensures (q * m + r) / m == q && (q * m + r) % m == r
  {
    var n := q * m + r;
    var d, e := n / m, n % m;
    assert d * m + e == q * m + r;
    if d > q {
      assert d * m >= (q + 1) * m by { MulLe(q + 1, d, m); }
      assert false;
    } else if d < q {
      assert q * m >= (d + 1) * m by { MulLe(d + 1, q, m); }
      assert false;
    }
  }

  lemma MulLe(a: nat, b: nat, m: nat)
    requires a <= b
    ensures a * m <= b * m
  {
  }

  /** A two-digit hex string is a byte. */
  lemma ByteOf(d: string)
    requires |d| == 2
    ensures HexValue(d) == HexDigitValue(d[0]) * 16 + HexDigitValue(d[1]) && HexValue(d) < 256
  {
    var d1 := d[..1];
    assert d1[..0] == [];
    assert HexValue(d1) == HexDigitValue(d[0]);
    assert HexValue(d) == HexValue(d1) * 16 + HexDigitValue(d[1]);
  }

  /** Three hex digits: opaque, and each channel is its digit times 17. */
  lemma ColorOfRgb12(s: string)
    requires |s| == 3 && AllHex(s)
    ensures ColorChannels(s) == Argb(255, HexDigitValue(s[0]) * 17, HexDigitValue(s[1]) * 17, HexDigitValue(s[2]) * 17)
  {
    ScanAllHex(s);
    HexNibbles3(s);
    Nibbles3(HexDigitValue(s[0]), HexDigitValue(s[1]), HexDigitValue(s[2]));
  }

  /** Three hex digits are worth their digits in order. */
  lemma HexNibbles3(s: string)
    requires |s| == 3
    ensures HexValue(s) == (HexDigitValue(s[0]) * 16 + HexDigitValue(s[1])) * 16 + HexDigitValue(s[2])
  {
    ByteOf(s[..2]);
    assert HexValue(s) == HexValue(s[..2]) * 16 + HexDigitValue(s[2]);
  }

  /** Three digits packed big-endian unpack into the doubled channels. */
  lemma Nibbles3(x: nat, y: nat, z: nat)
    requires x < 16 && y < 16 && z < 16
    ensures (x * 16 + y) * 16 + z < 4096
    ensures Rgb12((x * 16 + y) * 16 + z) == Argb(255, x * 17, y * 17, z * 17)
  {
    DivModOf(x * 16 + y, z, 16);
    DivModOf(x, y, 16);
    assert (x * 16 + y) * 16 + z == x * 256 + (y * 16 + z);
    DivModOf(x, y * 16 + z, 256);
  }

  /** Three bytes packed most significant first. */
  function Pack3(x: nat, y: nat, z: nat): nat
  {
    (x * 256 + y) * 256 + z
  }

  /** Six hex digits are worth their three bytes in order, each below 256. */
  lemma HexBytes3(s: string)
    requires |s| == 6
    ensures HexValue(s[..2]) < 256 && HexValue(s[2..4]) < 256 && HexValue(s[4..]) < 256
    ensures HexValue(s) == Pack3(HexValue(s[..2]), HexValue(s[2..4]), HexValue(s[4..]))
  {
    var x, y, z := s[..2], s[2..4], s[4..];
    ByteOf(x);
    ByteOf(y);
    ByteOf(z);
    assert s == (x + y) + z;
    HexValueAppend(x, y);
    HexValueAppend(x + y, z);
  }

  /** Three bytes packed big-endian unpack by division and remainder. */
  lemma Bytes3(x: nat, y: nat, z: nat)
    requires x < 256 && y < 256 && z < 256
    ensures Pack3(x, y, z) < 16777216
    ensures Rgb24(Pack3(x, y, z)) == Argb(255, x, y, z)
  {
    var v := (x * 256 + y) * 256 + z;
    DivModOf(x * 256 + y, z, 256);
    DivModOf(x, y, 256);
    assert v == x * 65536 + (y * 256 + z);
    DivModOf(x, y * 256 + z, 65536);
  }

  /** Six hex digits: opaque, and red, green and blue are the three bytes in order. */
  lemma ColorOfRgb24(s: string)
    requires |s| == 6 && AllHex(s)
    ensures ColorChannels(s) == Argb(255, HexValue(s[..2]), HexValue(s[2..4]), HexValue(s[4..]))
  {
    ScanAllHex(s);
    HexBytes3(s);
    Bytes3(HexValue(s[..2]), HexValue(s[2..4]), HexValue(s[4..]));
    assert ColorChannels(s) == Rgb24(HexValue(s));
  }

  /** Four bytes packed most significant first. */
  function Pack4(w: nat, x: nat, y: nat, z: nat): nat
  {
    ((w * 256 + x) * 256 + y) * 256 + z
  }

  /** Eight hex digits are worth their four bytes in order, each below 256. */
  lemma HexBytes4(s: string)
    requires |s| == 8
    ensures HexValue(s[..2]) < 256 && HexValue(s[2..4]) < 256 && HexValue(s[4..6]) < 256 && HexValue(s[6..]) < 256
    ensures HexValue(s) == Pack4(HexValue(s[..2]), HexValue(s[2..4]), HexValue(s[4..6]), HexValue(s[6..]))
  {
    var w, x, y, z := s[..2], s[2..4], s[4..6], s[6..];
    ByteOf(w);
    ByteOf(x);
    ByteOf(y);
    ByteOf(z);
    assert s == ((w + x) + y) + z;
    HexValueAppend(w, x);
    HexValueAppend(w + x, y);
    HexValueAppend(w + x + y, z);
  }

  /** Four bytes packed big-endian unpack by division and remainder. */
  lemma Bytes4(w: nat, x: nat, y: nat, z: nat)
    requires w < 256 && x < 256 && y < 256 && z < 256
    ensures Pack4(w, x, y, z) < 4294967296
    ensures Argb32(Pack4(w, x, y, z)) == Argb(w, x, y, z)
  {
    var v := ((w * 256 + x) * 256 + y) * 256 + z;
    DivModOf((w * 256 + x) * 256 + y, z, 256);
    DivModOf(w * 256 + x, y, 256);
    DivModOf(w, x, 256);
    assert v == (w * 256 + x) * 65536 + (y * 256 + z);
    DivModOf(w * 256 + x, y * 256 + z, 65536);
    assert v == w * 16777216 + ((x * 256 + y) * 256 + z);
    DivModOf(w, (x * 256 + y) * 256 + z, 16777216);
  }

  /** Eight hex digits: alpha, red, green and blue are the four bytes in order. */
  lemma ColorOfArgb32(s: string)
    requires |s| == 8 && AllHex(s)
    ensures ColorChannels(s) == Argb(HexValue(s[..2]), HexValue(s[2..4]), HexValue(s[4..6]), HexValue(s[6..]))
  {
    ScanAllHex(s);
    HexBytes4(s);
    Bytes4(HexValue(s[..2]), HexValue(s[2..4]), HexValue(s[4..6]), HexValue(s[6..]));
    assert ColorChannels(s) == Argb32(HexValue(s));
  }

  /** Any other length after trimming gives the fallback channels. */
  lemma ColorOfOtherLength(hex: string)
    requires var n := |Trim(hex, NonAlphanumerics)|; n != 3 && n != 6 && n != 8
    ensures ColorChannels(hex) == Argb(1, 1, 1, 0)
  {
  }

  /** A leading non-alphanumeric character such as `#` is ignored. */
  lemma LeadingMarkIgnored(c: char, hex: string)
    requires !IsAlphanumeric(c)
    ensures ColorChannels([c] + hex) == ColorChannels(hex)
  {
    TrimDropsLeading(c, hex, NonAlphanumerics);
  }
}

=== FILE: listeners.dfy ===
/** Listener registration (`Classes/utils/ListenerToken.swift` and the `add…Listener` methods of
    the managers): listeners are filed under fresh keys, and the returned token's one-shot
    cancel action removes its own entry. A key stands for the `UUID` the source draws. */
module Listeners {
  import opened Optional

  /** Listeners keyed by their registration, and the next unused key. */
  datatype Registry<L> = Registry(entries: map<nat, L>, next: nat)

  /** Every filed key was handed out before `next`, so `next` is fresh. */
  predicate WellKeyed<L>(reg: Registry<L>)
  {
    forall k :: k in reg.entries ==> k < reg.next
  }

  /** A `ListenerToken`: its cancel action, while it has one, removes the entry under `key`. */
  datatype Token = Token(key: Option<nat>)

  /** A registry with nothing filed. */
  function Empty<L>(): (reg: Registry<L>)
    ensures WellKeyed(reg) && reg.entries == map[]
  {
    Registry(map[], 0)
  }

  /** A registration, and the token that undoes it. */
  datatype Added<L> = Added(reg: Registry<L>, token: Token)

  /** `add…Listener(_:)`: file the listener under a fresh key and return a token whose action
      removes that entry. */
  function Add<L>(reg: Registry<L>, l: L): (a: Added<L>)
    requires WellKeyed(reg)
    ensures WellKeyed(a.reg)
    ensures a.token.key.Some? && a.token.key.value !in reg.entries
    ensures a.reg.entries == reg.entries[a.token.key.value := l]
  {
    Added(Registry(reg.entries[reg.next := l], reg.next + 1), Token(Some(reg.next)))
  }

  /** The registry and token after a cancel, and whether the stored action ran. */
  datatype Cancelled<L> = Cancelled(reg: Registry<L>, token: Token, ran: bool)

  /** `cancel()`: run the stored action, if any, then drop it. */
  function Cancel<L>(reg: Registry<L>, t: Token): (c: Cancelled<L>)
    ensures c.token.key.None?
    ensures c.ran <==> t.key.Some?
    ensures c.reg.next == reg.next
    ensures t.key.Some? ==> c.reg.entries == reg.entries - {t.key.value}
    ensures t.key.None? ==> c.reg == reg
  {
    match t.key
    case None => Cancelled(reg, t, false)
    case Some(k) => Cancelled(Registry(reg.entries - {k}, reg.next), Token(None), true)
  }

  /** `deinit`: releasing a token cancels it. */
  function Release<L>(reg: Registry<L>, t: Token): (r: Cancelled<L>)
    ensures r.token.key.None? && r.reg.next == reg.next
    ensures r.ran <==> t.key.Some?
    ensures t.key.Some? ==> r.reg.entries == reg.entries - {t.key.value}
    ensures t.key.None? ==> r.reg == reg
  {
    Cancel(reg, t)
  }

  /** The first cancel runs the action; every later cancel, and the final release, runs nothing
      and changes nothing. */
  lemma CancelIsOneShot<L>(reg: Registry<L>, t: Token)
    ensures var c1 := Cancel(reg, t);
            var c2 := Cancel(c1.reg, c1.token);
            && c2 == Cancelled(c1.reg, c1.token, false)
            && Release(c2.reg, c2.token) == Cancelled(c1.reg, c1.token, false)
  {
  }

  /** A registration undone by cancelling its token leaves the registry's listeners as they
      were; the action runs on the cancel and not again on the final release. */
  lemma AddThenCancel<L>(reg: Registry<L>, l: L)
    requires WellKeyed(reg)
    ensures var a := Add(reg, l);
            var c := Cancel(a.reg, a.token);
            && c.ran && c.reg.entries == reg.entries
            && Release(c.reg, c.token) == Cancelled(c.reg, c.token, false)
  {
    var a := Add(reg, l);
    assert a.reg.entries - {reg.next} == reg.entries;
  }

  /** A registration whose token is never cancelled is undone when the token is released: the
      action runs exactly once, the listeners are as they were before it, and other keys stay. */
  lemma AddThenRelease<L>(reg: Registry<L>, l: L)
    requires WellKeyed(reg)
    ensures var a := Add(reg, l);
            var r := Release(a.reg, a.token);
            && r.ran && r.token.key.None?
            && r.reg.entries == reg.entries && WellKeyed(r.reg)
  {
    var a := Add(reg, l);
    assert a.reg.entries - {reg.next} == reg.entries;
  }

  /** A token removes only its own listener: two registrations, the first cancelled, leave the
      second listener filed. */
  lemma CancelKeepsOthers<L>(reg: Registry<L>, l1: L, l2: L)
    requires WellKeyed(reg)
    ensures var a1 := Add(reg, l1);
            var a2 := Add(a1.reg, l2);
            var c := Cancel(a2.reg, a1.token);
            && a2.token.key.value in c.reg.entries && c.reg.entries[a2.token.key.value] == l2
            && c.reg.entries == reg.entries[a2.token.key.value := l2]
  {
    var a1 := Add(reg, l1);
    var a2 := Add(a1.reg, l2);
    assert a1.token.key.value != a2.token.key.value;
    var c := Cancel(a2.reg, a1.token);
    assert c.reg.entries == reg.entries[a2.token.key.value := l2];
  }
}

=== FILE: optional.dfy ===
/** The optional value used wherever the Swift source has an `Optional` (`T?`). */
module Optional {

  datatype Option<+T> = None | Some(value: T) {

    /** The wrapped value, or `default` for `None` (Swift's `??`). */
    function GetOr(default: T): T
    {
      match this
      case Some(v) => v
      case None => default
    }
  }
}

=== FILE: participant.dfy ===
/** A participant record (`TgoParticipant`): published state fields, the transport handles it is
    bound to, and its one-shot event channels. Every operation is a pure step returning the new
    record together with the signals it fired, in order. */
module Participants {
  import opened Optional
  import T = Transport

  /** `TgoConnectionQuality`. */
  datatype ConnectionQuality = QualityUnknown | QualityExcellent | QualityGood | QualityPoor | QualityLost

  /** A firing of one of the record's one-shot channels (`onJoined`, `onLeave`, `onTimeout`,
      `onTrackPublished`, `onTrackUnpublished`). */
  datatype Signal = Joined | Left | TimedOut | TrackPublished | TrackUnpublished

  datatype Record = Record(
    uid: string,
    createdAt: int,                 // whole seconds on the session clock
    local: Option<T.LocalHandle>,
    remote: Option<T.RemoteHandle>,
    isMicrophoneOn: bool,
    isCameraOn: bool,
    isSpeaking: bool,
    connectionQuality: ConnectionQuality,
    isTimeout: bool,
    hasJoined: bool,
    isDisposed: bool)

  /** The record after an operation, and the signals the operation fired. */
  datatype Step = Step(rec: Record, fired: seq<Signal>)

  /** A callback of LiveKit's `ParticipantDelegate`, as the record receives it. */
  datatype TransportEvent =
    | MuteChanged(source: T.Source, muted: bool)
    | SpeakingChanged(speaking: bool)
    | QualityChanged(quality: T.Quality)
    | Subscribed(publication: T.Publication)
    | Unsubscribed(source: T.Source)
    | Published(source: T.Source)
    | Unpublished(source: T.Source)

  /** `TgoConnectionQuality(from:)`. */
  function QualityFrom(q: T.Quality): ConnectionQuality
  {
    match q
    case Excellent => QualityExcellent
    case Good => QualityGood
    case Poor => QualityPoor
    case Lost => QualityLost
    case Unknown => QualityUnknown
  }

  /** The reverse reading of `QualityFrom`. */
  function QualityBack(q: ConnectionQuality): T.Quality
  {
    match q
    case QualityExcellent => T.Excellent
    case QualityGood => T.Good
    case QualityPoor => T.Poor
    case QualityLost => T.Lost
    case QualityUnknown => T.Unknown
  }

  /** The translation loses nothing: every LiveKit quality is told apart. */
  lemma QualityRoundTrip(q: T.Quality)
    ensures QualityBack(QualityFrom(q)) == q
    ensures QualityFrom(q) == QualityUnknown <==> q == T.Unknown
  {
  }

  /** Some publication of `source` is not muted. */
  function AnyLive(pubs: seq<T.Publication>, source: T.Source): (r: bool)
    ensures r <==> exists i :: 0 <= i < |pubs| && pubs[i].source == source && !pubs[i].muted
  {
    if pubs == [] then false
    else (pubs[0].source == source && !pubs[0].muted) || AnyLive(pubs[1..], source)
  }

  /** The remote handle has an unmuted publication of `source`. */
  ghost predicate LiveSource(h: T.RemoteHandle, source: T.Source)
  {
    exists i :: 0 <= i < |h.publications| && h.publications[i].source == source && !h.publications[i].muted
  }

  /** `updateState()`: copy the microphone, camera and speaking snapshot from the local handle
      when there is one, otherwise from the remote handle; with no handle nothing changes. */
  function UpdateState(r: Record): (r': Record)
    ensures r'.(isMicrophoneOn := r.isMicrophoneOn, isCameraOn := r.isCameraOn, isSpeaking := r.isSpeaking) == r
    ensures r.local.Some? ==>
              && r'.isMicrophoneOn == r.local.value.micEnabled
              && r'.isCameraOn == r.local.value.cameraEnabled
              && r'.isSpeaking == r.local.value.speaking
    ensures r.local.None? && r.remote.Some? ==>
              && (r'.isMicrophoneOn <==> LiveSource(r.remote.value, T.Microphone))
              && (r'.isCameraOn <==> LiveSource(r.remote.value, T.Camera))
              && r'.isSpeaking == r.remote.value.speaking
    ensures r.local.None? && r.remote.None? ==> r' == r
  {
    match r.local
    case Some(l) => r.(isMicrophoneOn := l.micEnabled, isCameraOn := l.cameraEnabled, isSpeaking := l.speaking)
    case None =>
      match r.remote
      case Some(h) =>
        r.(isMicrophoneOn := AnyLive(h.publications, T.Microphone),
           isCameraOn := AnyLive(h.publications, T.Camera),
           isSpeaking := h.speaking)
      case None => r
  }

  /** `TgoParticipant(uid:localParticipant:remoteParticipant:)` at time `now`. The initializer
      takes a state snapshot but fires nothing and leaves `hasJoined` false, even when handed a
      handle. */
  function Create(uid: string, now: int, local: Option<T.LocalHandle>, remote: Option<T.RemoteHandle>): (r: Record)
    ensures r.uid == uid && r.createdAt == now && r.local == local && r.remote == remote
    ensures !r.hasJoined && !r.isTimeout && !r.isDisposed && r.connectionQuality == QualityUnknown
    ensures local.None? && remote.None? ==> !r.isMicrophoneOn && !r.isCameraOn && !r.isSpeaking
    ensures local.None? && remote.Some? ==>
              && (r.isMicrophoneOn <==> LiveSource(remote.value, T.Microphone))
              && (r.isCameraOn <==> LiveSource(remote.value, T.Camera))
  {
    UpdateState(Record(uid, now, local, remote, false, false, false, QualityUnknown, false, false, false))
  }

  /** A pending record: created with no handle. */
  predicate IsPending(r: Record)
  {
    r.local.None? && r.remote.None? && !r.hasJoined
  }

  /** `isLocal`: bound to a local handle, or carrying the login uid of the current room. */
  predicate IsLocal(r: Record, loginUID: Option<string>)
  {
    r.local.Some? || loginUID == Some(r.uid)
  }

  /** `setLocalParticipant`: bind the local handle, refresh the snapshot, mark joined and fire
      Joined, on every call (also on an already joined or disposed record). */
  function SetLocal(r: Record, h: T.LocalHandle): (s: Step)
    ensures s.fired == [Joined]
    ensures s.rec.hasJoined && s.rec.local == Some(h)
    ensures s.rec.isMicrophoneOn == h.micEnabled && s.rec.isCameraOn == h.cameraEnabled && s.rec.isSpeaking == h.speaking
    ensures s.rec.uid == r.uid && s.rec.createdAt == r.createdAt && s.rec.remote == r.remote
    ensures s.rec.isTimeout == r.isTimeout && s.rec.isDisposed == r.isDisposed
  {
    Step(UpdateState(r.(local := Some(h))).(hasJoined := true), [Joined])
  }

  /** `setRemoteParticipant`: bind the remote handle, refresh the snapshot (the local handle still
      wins if present), mark joined, fire Joined on every call, then TrackPublished when the
      handle already has publications. The timeout flag is left as it was. */
  function SetRemote(r: Record, h: T.RemoteHandle): (s: Step)
    ensures |s.fired| >= 1 && s.fired[0] == Joined
    ensures TrackPublished in s.fired <==> |h.publications| > 0
    ensures Left !in s.fired && TimedOut !in s.fired
    ensures s.rec.hasJoined && s.rec.remote == Some(h)
    ensures s.rec.uid == r.uid && s.rec.createdAt == r.createdAt && s.rec.local == r.local
    ensures s.rec.isTimeout == r.isTimeout && s.rec.isDisposed == r.isDisposed
    ensures r.local.None? ==>
              && (s.rec.isMicrophoneOn <==> LiveSource(h, T.Microphone))
              && (s.rec.isCameraOn <==> LiveSource(h, T.Camera))
  {
    Step(UpdateState(r.(remote := Some(h))).(hasJoined := true),
         [Joined] + (if |h.publications| > 0 then [TrackPublished] else []))
  }

  /** `markTimeout(v)`: set the flag; fire TimedOut on every call with `true`. */
  function MarkTimeout(r: Record, v: bool): (s: Step)
    ensures s.rec.isTimeout == v && s.rec.(isTimeout := r.isTimeout) == r
    ensures TimedOut in s.fired <==> v
    ensures |s.fired| <= 1
  {
    Step(r.(isTimeout := v), if v then [TimedOut] else [])
  }

  /** Marking a record timed out twice fires TimedOut twice, since the flag is not consulted,
      and never joins, un-joins or disposes it; clearing the flag afterwards fires nothing and
      leaves the record as it was but for the flag. */
  lemma MarkTimeoutTwice(r: Record)
    ensures var s1 := MarkTimeout(r, true);
            var s2 := MarkTimeout(s1.rec, true);
            var s3 := MarkTimeout(s2.rec, false);
            && s1.fired + s2.fired == [TimedOut, TimedOut]
            && s2.rec.isTimeout && s2.rec.hasJoined == r.hasJoined && s2.rec.isDisposed == r.isDisposed
            && s3.fired == [] && s3.rec == r.(isTimeout := false)
  {
  }

  /** `dispose()`: the first call marks the record disposed and releases both handles;
      later calls do nothing. */
  function Dispose(r: Record): (r': Record)
    ensures r'.isDisposed
    ensures r.isDisposed ==> r' == r
    ensures !r.isDisposed ==> r'.local.None? && r'.remote.None?
    ensures r'.(isDisposed := r.isDisposed, local := r.local, remote := r.remote) == r
  {
    if r.isDisposed then r else r.(isDisposed := true, local := None, remote := None)
  }

  /** Disposing twice is disposing once. */
  lemma DisposeIdempotent(r: Record)
    ensures Dispose(Dispose(r)) == Dispose(r)
  {
  }

  /** `notifyLeave()`: fire Left unless already disposed, then dispose. */
  function NotifyLeave(r: Record): (s: Step)
    ensures s.rec == Dispose(r)
    ensures s.fired == (if r.isDisposed then [] else [Left])
  {
    if r.isDisposed then Step(r, []) else Step(Dispose(r), [Left])
  }

  /** A second `notifyLeave()` fires nothing and changes nothing. */
  lemma NotifyLeaveOnce(r: Record)
    ensures NotifyLeave(NotifyLeave(r).rec) == Step(NotifyLeave(r).rec, [])
  {
  }

  /** Microphone and camera updates; other sources leave the record alone. */
  function SetSourceFlag(r: Record, source: T.Source, on: bool): (r': Record)
    ensures source == T.Microphone ==> r' == r.(isMicrophoneOn := on)
    ensures source == T.Camera ==> r' == r.(isCameraOn := on)
    ensures source != T.Microphone && source != T.Camera ==> r' == r
    ensures SameLifecycle(r, r')
  {
    match source
    case Microphone => r.(isMicrophoneOn := on)
    case Camera => r.(isCameraOn := on)
    case _ => r
  }

  /** Identity, creation time, handles and the joined / timed-out / disposed flags agree:
      only the published media state may differ. */
  predicate SameLifecycle(a: Record, b: Record)
  {
    && a.uid == b.uid && a.createdAt == b.createdAt
    && a.hasJoined == b.hasJoined && a.isTimeout == b.isTimeout && a.isDisposed == b.isDisposed
    && a.local == b.local && a.remote == b.remote
  }

  /** The state change a delegate callback makes on a live record. */
  function Effect(r: Record, e: TransportEvent): (r': Record)
    ensures SameLifecycle(r, r')
  {
    match e
    case MuteChanged(source, muted) => SetSourceFlag(r, source, !muted)
    case SpeakingChanged(speaking) => r.(isSpeaking := speaking)
    case QualityChanged(q) => r.(connectionQuality := QualityFrom(q))
    case Subscribed(p) => SetSourceFlag(r, p.source, !p.muted)
    case Unsubscribed(source) => SetSourceFlag(r, source, false)
    case Published(source) => SetSourceFlag(r, source, true)
    case Unpublished(source) => SetSourceFlag(r, source, false)
  }

  /** The one-shot channel a delegate callback fires on a live record. */
  function SignalsOf(e: TransportEvent): (fired: seq<Signal>)
    ensures Joined !in fired && Left !in fired && TimedOut !in fired
    ensures |fired| <= 1
  {
    match e
    case Subscribed(_) => [TrackPublished]
    case Published(_) => [TrackPublished]
    case Unsubscribed(_) => [TrackUnpublished]
    case Unpublished(_) => [TrackUnpublished]
    case _ => []
  }

  /** The `ParticipantDelegate` handlers. Each is ignored once the record is disposed. */
  function OnTransportEvent(r: Record, e: TransportEvent): (s: Step)
    ensures r.isDisposed ==> s == Step(r, [])
    ensures SameLifecycle(r, s.rec)
    ensures Joined !in s.fired && Left !in s.fired && TimedOut !in s.fired
    ensures !r.isDisposed && e.MuteChanged? ==> s == Step(SetSourceFlag(r, e.source, !e.muted), [])
  {
    if r.isDisposed then Step(r, []) else Step(Effect(r, e), SignalsOf(e))
  }

  /** Feeds a sequence of delegate callbacks to a record, collecting the fired signals. */
  function Replay(r: Record, es: seq<TransportEvent>): Step
    decreases |es|
  {
    if es == [] then Step(r, [])
    else
      var s := OnTransportEvent(r, es[0]);
      var rest := Replay(s.rec, es[1..]);
      Step(rest.rec, s.fired + rest.fired)
  }

  /** After `notifyLeave()` (or `dispose()`) no callback changes the record or fires anything. */
  lemma {:induction false} DisposedIsSilent(r: Record, es: seq<TransportEvent>)
    requires r.isDisposed
    ensures Replay(r, es) == Step(r, [])
  {
    if es != [] {
      DisposedIsSilent(r, es[1..]);
    }
  }

  /** Replaying callbacks never changes identity, join or timeout state. */
  lemma {:induction false} ReplayKeepsLifecycle(r: Record, es: seq<TransportEvent>)
    ensures Replay(r, es).rec.uid == r.uid
    ensures Replay(r, es).rec.hasJoined == r.hasJoined
    ensures Replay(r, es).rec.isTimeout == r.isTimeout
    ensures Replay(r, es).rec.isDisposed == r.isDisposed
    ensures Left !in Replay(r, es).fired && Joined !in Replay(r, es).fired
    decreases |es|
  {
    if es != [] {
      ReplayKeepsLifecycle(OnTransportEvent(r, es[0]).rec, es[1..]);
    }
  }
}

=== FILE: room_info.dfy ===
/** `RoomInfo`: what the caller knows about the room being joined. */
module Rooms {
  import opened Optional

  /** `RTCType`. */
  datatype RtcType = Audio | Video

  datatype RoomInfo = RoomInfo(
    roomName: string,
    token: string,
    url: string,
    maxParticipants: int,
    rtcType: RtcType,
    isP2P: bool,
    uidList: seq<string>,   // the expected participants, in order
    timeout: int,           // join timeout in seconds
    creatorUid: string,
    loginUID: string)

  /** `RoomInfo()` with every argument defaulted. */
  function Default(): (info: RoomInfo)
    ensures info.maxParticipants == 2 && info.isP2P && info.timeout == 30 && info.uidList == []
    ensures info.rtcType == Audio
    ensures info.roomName == "" && info.token == "" && info.url == "" && info.creatorUid == "" && info.loginUID == ""
  {
    RoomInfo("", "", "", 2, Audio, true, [], 30, "", "")
  }

  /** `isCreator()`. */
  predicate IsCreator(info: RoomInfo)
  {
    info.creatorUid == info.loginUID
  }

  /** `uidList.first(where: { $0 != loginUID })`. */
  function FirstOther(uids: seq<string>, login: string): (r: Option<nat>)
    ensures r.Some? ==> r.value < |uids| && uids[r.value] != login
                        && forall j :: 0 <= j < r.value ==> uids[j] == login
    ensures r.None? ==> forall j :: 0 <= j < |uids| ==> uids[j] == login
  {
    if uids == [] then None
    else if uids[0] != login then Some(0)
    else match FirstOther(uids[1..], login)
      case Some(k) => Some(k + 1)
      case None => None
  }

  /** `getP2PToUID()`: the first expected uid other than the login uid, else the creator. */
  function GetP2PToUID(info: RoomInfo): (uid: string)
    ensures (exists i :: 0 <= i < |info.uidList| && info.uidList[i] != info.loginUID) ==>
              exists k :: 0 <= k < |info.uidList| && uid == info.uidList[k] && uid != info.loginUID
                          && forall j :: 0 <= j < k ==> info.uidList[j] == info.loginUID
    ensures (forall i :: 0 <= i < |info.uidList| ==> info.uidList[i] == info.loginUID) ==> uid == info.creatorUid
  {
    match FirstOther(info.uidList, info.loginUID)
    case Some(k) => info.uidList[k]
    case None => info.creatorUid
  }

  /** The peer of a one-to-one call is never the login user, unless the login user created the
      room and nobody else is expected. */
  lemma P2PPeerIsNotSelf(info: RoomInfo)
    ensures GetP2PToUID(info) == info.loginUID ==> IsCreator(info)
  {
  }
}

=== FILE: seqs.dfy ===
/** Order-preserving sequence helpers shared by the directory models. */
module Seqs {

  /** No element occurs twice. */
  predicate NoDup<T(==)>(s: seq<T>)
  {
    forall i, j :: 0 <= i < j < |s| ==> s[i] != s[j]
  }

  /** `order` lists every element of `keys` exactly once (an iteration order of a set). */
  predicate IsEnumeration<T(==,!new)>(order: seq<T>, keys: set<T>)
  {
    NoDup(order) && (forall x :: x in order ==> x in keys) && (forall x :: x in keys ==> x in order)
  }

  /** Number of occurrences of `x` in `s`. */
  function Count<T(==)>(s: seq<T>, x: T): nat
  {
    if s == [] then 0 else (if s[0] == x then 1 else 0) + Count(s[1..], x)
  }

  /** Swift's `removeAll { $0 == x }`: every occurrence of `x` is dropped, the rest keep their order. */
  function RemoveAll<T(==,!new)>(s: seq<T>, x: T): (r: seq<T>)
    ensures x !in r
    ensures forall y :: y != x ==> (y in r <==> y in s)
    ensures |r| == |s| - Count(s, x)
  {
    if s == [] then []
    else if s[0] == x then RemoveAll(s[1..], x)
    else [s[0]] + RemoveAll(s[1..], x)
  }

  /** Removing an element that does not occur changes nothing. */
  lemma {:induction false} RemoveAbsent<T(!new)>(s: seq<T>, x: T)
    requires x !in s
    ensures RemoveAll(s, x) == s
  {
    if s != [] {
      assert s == [s[0]] + s[1..];
      RemoveAbsent(s[1..], x);
    }
  }

  /** Swift's `filter { !keys.contains($0) }`: the elements outside `keys`, in their original order. */
  function FilterOut<T(==,!new)>(s: seq<T>, keys: set<T>): (r: seq<T>)
    ensures forall y :: y in r <==> y in s && y !in keys
    ensures |r| <= |s|
  {
    if s == [] then []
    else if s[0] in keys then FilterOut(s[1..], keys)
    else [s[0]] + FilterOut(s[1..], keys)
  }

  /** Filtering out nothing keeps everything. */
  lemma {:induction false} FilterOutNothing<T(!new)>(s: seq<T>)
    ensures FilterOut(s, {}) == s
  {
    if s != [] {
      FilterOutNothing(s[1..]);
      assert s == [s[0]] + s[1..];
    }
  }

  /** Removing every `x` and then filtering out `keys` filters out `keys + {x}`. */
  lemma {:induction false} FilterOutRemoveAll<T(!new)>(s: seq<T>, x: T, keys: set<T>)
    ensures FilterOut(RemoveAll(s, x), keys) == FilterOut(s, keys + {x})
  {
    if s != [] {
      FilterOutRemoveAll(s[1..], x, keys);
      if s[0] != x {
        assert ([s[0]] + RemoveAll(s[1..], x))[1..] == RemoveAll(s[1..], x);
      }
    }
  }

  /** The first occurrence of each element, in order. */
  function Distinct<T(==,!new)>(s: seq<T>): (r: seq<T>)
    ensures NoDup(r)
    ensures forall y :: y in r <==> y in s
    ensures |r| <= |s|
    decreases |s|
  {
    if s == [] then []
    else
      var rest := Distinct(RemoveAll(s[1..], s[0]));
      assert forall i :: 0 <= i < |rest| ==> rest[i] != s[0];
      [s[0]] + rest
  }

  /** A sequence without duplicates is its own `Distinct`. */
  lemma {:induction false} DistinctNoDup<T(!new)>(s: seq<T>)
    requires NoDup(s)
    ensures Distinct(s) == s
    decreases |s|
  {
    if s != [] {
      assert s[0] !in s[1..] by {
        forall i | 0 <= i < |s[1..]| ensures s[1..][i] != s[0] { assert s[1..][i] == s[i + 1]; }
      }
      RemoveAbsent(s[1..], s[0]);
      assert NoDup(s[1..]) by {
        forall i, j | 0 <= i < j < |s[1..]| ensures s[1..][i] != s[1..][j] { assert s[1..][i] == s[i + 1]; }
      }
      DistinctNoDup(s[1..]);
      assert s == [s[0]] + s[1..];
    }
  }

  /** Filtering keeps a sequence free of duplicates. */
  lemma {:induction false} FilterOutNoDup<T(!new)>(s: seq<T>, keys: set<T>)
    requires NoDup(s)
    ensures NoDup(FilterOut(s, keys))
    decreases |s|
  {
    if s != [] {
      assert NoDup(s[1..]) by {
        forall i, j | 0 <= i < j < |s[1..]| ensures s[1..][i] != s[1..][j] { assert s[1..][i] == s[i + 1]; }
      }
      FilterOutNoDup(s[1..], keys);
      if s[0] !in keys {
        assert s[0] !in s[1..] by {
          forall i | 0 <= i < |s[1..]| ensures s[1..][i] != s[0] { assert s[1..][i] == s[i + 1]; }
        }
        var r := FilterOut(s[1..], keys);
        assert forall i :: 0 <= i < |r| ==> r[i] != s[0];
      }
    }
  }

  /** The first `n` elements, or all of them when there are fewer (Swift's `prefix(n)`). */
  function Take<T>(s: seq<T>, n: int): (r: seq<T>)
    ensures |r| == if n <= 0 then 0 else if n < |s| then n else |s|
    ensures forall i :: 0 <= i < |r| ==> r[i] == s[i]
  {
    if n <= 0 then [] else if n < |s| then s[..n] else s
  }

  /** Without repeats, the head is not in the tail and the tail has no repeats either. */
  lemma NoDupTail<T>(s: seq<T>)
    requires s != [] && NoDup(s)
    ensures NoDup(s[1..]) && s[0] !in s[1..]
  {
    forall i, j | 0 <= i < j < |s[1..]| ensures s[1..][i] != s[1..][j] {
      assert s[1..][i] == s[i + 1] && s[1..][j] == s[j + 1];
    }
    forall k | 0 <= k < |s[1..]| ensures s[1..][k] != s[0] {
      assert s[1..][k] == s[k + 1];
    }
  }

  /** A prefix holds only elements of the whole, and no repeats when the whole has none. */
  lemma TakeKeeps<T>(s: seq<T>, n: int)
    ensures forall x :: x in Take(s, n) ==> x in s
    ensures NoDup(s) ==> NoDup(Take(s, n))
  {
    var r := Take(s, n);
    forall x | x in r ensures x in s {
      var i :| 0 <= i < |r| && r[i] == x;
      assert s[i] == x;
    }
  }

  function Min(a: int, b: int): int
  {
    if a <= b then a else b
  }
}

=== FILE: session.dfy ===
/** The SDK's singletons (`RoomManager.shared`, `ParticipantManager.shared`) folded into one
    explicit state value, and the events the SDK delivers to its listeners. */
module Session {
  import opened Optional
  import opened Seqs
  import T = Transport
  import P = Participants
  import R = Rooms

  /** `ConnectStatus`, as delivered to connection-status listeners. */
  datatype ConnectStatus = StatusConnecting | StatusConnected | StatusDisconnected

  /** One delivery to listeners: a new-participant notification, a connection-status change for a
      room, or a firing of one of a record's one-shot channels. */
  datatype Event =
    | NewParticipant(uid: string)
    | StatusChanged(roomName: string, status: ConnectStatus)
    | RecordSignal(uid: string, signal: P.Signal)

  datatype State = State(
    roomInfo: Option<R.RoomInfo>,      // RoomManager.currentRoomInfo
    room: Option<T.Room>,              // RoomManager.room
    timer: Option<int>,                // the running timeout checker and the timeout it captured
    local: Option<P.Record>,           // ParticipantManager.localParticipant
    remotes: map<string, P.Record>)    // ParticipantManager.remoteParticipants

  /** The state after a step, and the events the step delivered, in order. */
  datatype Step = Step(st: State, events: seq<Event>)

  /** The state before any room is joined. */
  function Idle(): (st: State)
    ensures st.roomInfo.None? && st.room.None? && st.timer.None? && st.local.None? && st.remotes == map[]
  {
    State(None, None, None, None, map[])
  }

  /** Every record is filed under its own uid. */
  predicate KeysMatch(remotes: map<string, P.Record>)
  {
    forall k :: k in remotes ==> remotes[k].uid == k
  }

  /** The signals a record fired, as events tagged with its uid. */
  function Tag(uid: string, fired: seq<P.Signal>): (evs: seq<Event>)
    ensures |evs| == |fired|
    ensures forall i :: 0 <= i < |fired| ==> evs[i] == RecordSignal(uid, fired[i])
  {
    if fired == [] then [] else [RecordSignal(uid, fired[0])] + Tag(uid, fired[1..])
  }

  /** `currentRoomInfo?.loginUID`. */
  function LoginUID(st: State): Option<string>
  {
    match st.roomInfo
    case Some(info) => Some(info.loginUID)
    case None => None
  }

  /** `currentRoomInfo?.uidList.removeAll { $0 == uid }`. */
  function DropExpected(st: State, uid: string): (st': State)
    ensures st'.roomInfo.Some? <==> st.roomInfo.Some?
    ensures st.roomInfo.Some? ==> st'.roomInfo.value == st.roomInfo.value.(uidList := RemoveAll(st.roomInfo.value.uidList, uid))
    ensures st'.(roomInfo := st.roomInfo) == st
  {
    match st.roomInfo
    case Some(info) => st.(roomInfo := Some(info.(uidList := RemoveAll(info.uidList, uid))))
    case None => st
  }

  /** `currentRoomInfo?.uidList.append(uid)`. */
  function AppendExpected(st: State, uid: string): (st': State)
    ensures st'.roomInfo.Some? <==> st.roomInfo.Some?
    ensures st.roomInfo.Some? ==> st'.roomInfo.value == st.roomInfo.value.(uidList := st.roomInfo.value.uidList + [uid])
    ensures st'.(roomInfo := st.roomInfo) == st
  {
    match st.roomInfo
    case Some(info) => st.(roomInfo := Some(info.(uidList := info.uidList + [uid])))
    case None => st
  }

  /** `startTimeoutChecker(timeoutSeconds:)`: any running checker is replaced by a new one. */
  function StartTimeoutChecker(st: State, timeoutSeconds: int): (st': State)
    ensures st'.timer == Some(timeoutSeconds)
    ensures st'.(timer := st.timer) == st
  {
    st.(timer := Some(timeoutSeconds))
  }

  /** `stopTimeoutChecker()`. */
  function StopTimeoutChecker(st: State): (st': State)
    ensures st'.timer.None?
    ensures st'.(timer := st.timer) == st
  {
    st.(timer := None)
  }

  /** `restartTimeoutCheckerIfNeeded()`: start a checker with the room's timeout only when in a
      room and none is running. */
  function RestartTimeoutCheckerIfNeeded(st: State): (st': State)
    ensures st'.(timer := st.timer) == st
    ensures st.roomInfo.Some? && st.timer.None? ==> st'.timer == Some(st.roomInfo.value.timeout)
    ensures st.roomInfo.None? || st.timer.Some? ==> st' == st
  {
    if st.roomInfo.Some? && st.timer.None? then StartTimeoutChecker(st, st.roomInfo.value.timeout) else st
  }

  /** How the three checker operations combine: a start replaces whatever ran before and a stop
      undoes any start; inside a room a restart after a stop runs with the room's timeout, while
      a restart beside a running checker keeps it, whatever its timeout; outside a room a restart
      after a stop leaves none running. */
  lemma CheckerLifecycle(st: State, a: int, b: int)
    ensures StartTimeoutChecker(StartTimeoutChecker(st, a), b) == StartTimeoutChecker(st, b)
    ensures StopTimeoutChecker(StartTimeoutChecker(st, a)) == StopTimeoutChecker(st)
    ensures StopTimeoutChecker(StopTimeoutChecker(st)) == StopTimeoutChecker(st)
    ensures st.roomInfo.Some? ==>
              RestartTimeoutCheckerIfNeeded(StopTimeoutChecker(st)) == StartTimeoutChecker(st, st.roomInfo.value.timeout)
    ensures RestartTimeoutCheckerIfNeeded(StartTimeoutChecker(st, a)) == StartTimeoutChecker(st, a)
    ensures st.roomInfo.None? ==> RestartTimeoutCheckerIfNeeded(StopTimeoutChecker(st)).timer.None?
  {
  }
}

=== FILE: text.dfy ===
/** ASCII text helpers: Swift's decimal interpolation of `Int`, character-set trimming and
    case-insensitive prefix tests, over `string` = `seq<char>`. */
module Text {
  import opened Optional

  predicate IsDigit(c: char)
  {
    '0' <= c <= '9'
  }

  predicate AllDigits(s: string)
  {
    forall i :: 0 <= i < |s| ==> IsDigit(s[i])
  }

  function DigitChar(d: nat): (c: char)
    requires d < 10
    ensures IsDigit(c) && c as int - '0' as int == d
  {
    ('0' as int + d) as char
  }

  /** Decimal digits of `n`, most significant first, without leading zeros. */
  function Decimal(n: nat): (s: string)
    ensures |s| > 0 && AllDigits(s)
    ensures |s| > 1 ==> s[0] != '0'
    ensures n < 10 <==> |s| == 1
  {
    if n < 10 then [DigitChar(n)] else Decimal(n / 10) + [DigitChar(n % 10)]
  }

  /** The value of a string of decimal digits (the reading direction of `Decimal`). */
  function DigitsValue(s: string): nat
    requires AllDigits(s)
  {
    if s == [] then 0 else DigitsValue(s[..|s| - 1]) * 10 + (s[|s| - 1] as int - '0' as int)
  }

  /** Reading back the decimal form of `n` gives `n`. */
  lemma {:induction false} DecimalRoundTrip(n: nat)
    ensures DigitsValue(Decimal(n)) == n
  {
    if n >= 10 {
      DecimalRoundTrip(n / 10);
      var s := Decimal(n);
      assert s[..|s| - 1] == Decimal(n / 10);
    }
  }

  /** The decimal form determines the number. */
  lemma DecimalInjective(a: nat, b: nat)
    requires Decimal(a) == Decimal(b)
    ensures a == b
  {
    DecimalRoundTrip(a);
    DecimalRoundTrip(b);
  }

  /** Swift's `"\(i)"` for an `Int`: a minus sign for negatives, then the decimal digits. */
  function IntString(i: int): (s: string)
    ensures |s| > 0
    ensures i < 0 <==> s[0] == '-'
    ensures 'x' !in s && ' ' !in s
  {
    if i < 0 then "-" + Decimal(-i) else Decimal(i)
  }

  /** Reads an integer written as `IntString` writes it; `None` for anything else. */
  function ParseInt(s: string): Option<int>
  {
    if |s| > 0 && s[0] == '-' && AllDigits(s[1..]) && |s| > 1 then Some(-(DigitsValue(s[1..]) as int))
    else if |s| > 0 && AllDigits(s) then Some(DigitsValue(s))
    else None
  }

  /** `IntString` and `ParseInt` are inverse: the interpolated integer is recoverable. */
  lemma IntStringRoundTrip(i: int)
    ensures ParseInt(IntString(i)) == Some(i)
  {
    var s := IntString(i);
    if i < 0 {
      var d := Decimal(-i);
      assert s == "-" + d;
      assert s[1..] == d;
      DecimalRoundTrip(-i);
      assert ParseInt(s) == Some(-(DigitsValue(d) as int));
    } else {
      assert s == Decimal(i);
      DecimalRoundTrip(i);
      assert ParseInt(s) == Some(DigitsValue(s));
    }
  }

  /** Characters of Foundation's `.whitespacesAndNewlines`, restricted to ASCII. */
  predicate IsWhitespaceOrNewline(c: char)
  {
    c == ' ' || c == '\t' || c == '\n' || c == '\r' || c == '\U{0B}' || c == '\U{0C}'
  }

  /** Characters of Foundation's `.whitespaces` (space and tab), restricted to ASCII. */
  predicate IsWhitespace(c: char)
  {
    c == ' ' || c == '\t'
  }

  /** Characters of Foundation's `.alphanumerics`, restricted to ASCII. */
  predicate IsAlphanumeric(c: char)
  {
    IsDigit(c) || ('a' <= c <= 'z') || ('A' <= c <= 'Z')
  }

  predicate IsSlash(c: char)
  {
    c == '/'
  }

  /** The Foundation character sets the code trims with. */
  datatype CharSet = Whitespaces | WhitespacesAndNewlines | Slashes | NonAlphanumerics

  predicate InSet(c: char, cs: CharSet)
  {
    match cs
    case Whitespaces => IsWhitespace(c)
    case WhitespacesAndNewlines => IsWhitespaceOrNewline(c)
    case Slashes => IsSlash(c)
    case NonAlphanumerics => !IsAlphanumeric(c)
  }

  /** Drops the leading characters in `drop`. */
  function TrimStart(s: string, drop: CharSet): (r: string)
    ensures |r| <= |s| && r == s[|s| - |r|..]
    ensures r != [] ==> !InSet(r[0], drop)
    ensures forall i :: 0 <= i < |s| - |r| ==> InSet(s[i], drop)
  {
    if s != [] && InSet(s[0], drop) then TrimStart(s[1..], drop) else s
  }

  /** Drops the trailing characters in `drop`. */
  function TrimEnd(s: string, drop: CharSet): (r: string)
    ensures |r| <= |s| && r == s[..|r|]
    ensures r != [] ==> !InSet(r[|r| - 1], drop)
    ensures forall i :: |r| <= i < |s| ==> InSet(s[i], drop)
  {
    if s != [] && InSet(s[|s| - 1], drop) then TrimEnd(s[..|s| - 1], drop) else s
  }

  /** Foundation's `trimmingCharacters(in:)`: both ends stripped of characters in the set. */
  function Trim(s: string, drop: CharSet): (r: string)
    ensures |r| <= |s|
    ensures r != [] ==> !InSet(r[0], drop) && !InSet(r[|r| - 1], drop)
    ensures r == [] <==> forall i :: 0 <= i < |s| ==> InSet(s[i], drop)
  {
    var t := TrimStart(s, drop);
    var r := TrimEnd(t, drop);
    // a non-empty `t` starts with a kept character, which `TrimEnd` would keep
    assert r == [] ==> t == [];
    r
  }

  /** A dropped first character makes no difference to trimming. */
  lemma TrimDropsLeading(c: char, s: string, drop: CharSet)
    requires InSet(c, drop)
    ensures Trim([c] + s, drop) == Trim(s, drop)
  {
    assert ([c] + s)[1..] == s;
    assert TrimStart([c] + s, drop) == TrimStart(s, drop);
  }

  /** A string that starts and ends with kept characters is left as it is. */
  lemma TrimOfTrimmed(s: string, drop: CharSet)
    requires s != [] ==> !InSet(s[0], drop) && !InSet(s[|s| - 1], drop)
    ensures Trim(s, drop) == s
  {
  }

  function ToLowerChar(c: char): (l: char)
    ensures 'A' <= c <= 'Z' ==> l as int == c as int + 32
    ensures !('A' <= c <= 'Z') ==> l == c
  {
    if 'A' <= c <= 'Z' then (c as int + 32) as char else c
  }

  /** Swift's `lowercased()`, restricted to ASCII letters. */
  function ToLower(s: string): (r: string)
    ensures |r| == |s|
    ensures forall i :: 0 <= i < |s| ==> r[i] == ToLowerChar(s[i])
  {
    seq(|s|, i requires 0 <= i < |s| => ToLowerChar(s[i]))
  }

  predicate StartsWith(s: string, prefix: string)
  {
    |prefix| <= |s| && s[..|prefix|] == prefix
  }

  /** `s.lowercased().hasPrefix(prefix)` for a lower-case `prefix`. */
  predicate StartsWithIgnoringCase(s: string, prefix: string)
  {
    StartsWith(ToLower(s), prefix)
  }
}

=== FILE: transport.dfy ===
/** The media transport (LiveKit) as seen by the SDK: opaque participant handles carrying the
    snapshot fields the SDK reads, the room, and LiveKit's own enums. Nothing here has behaviour;
    connecting, publishing and capture happen outside the model. */
module Transport {
  import opened Optional

  /** `Track.Source` of a track publication. */
  datatype Source = Microphone | Camera | ScreenShare | ScreenShareAudio | OtherSource

  /** A track publication: its source and whether it is muted. */
  datatype Publication = Publication(source: Source, muted: bool)

  /** A `LocalParticipant`: the answers of `isMicrophoneEnabled()`, `isCameraEnabled()` and `isSpeaking`. */
  datatype LocalHandle = LocalHandle(sid: string, micEnabled: bool, cameraEnabled: bool, speaking: bool)

  /** A `RemoteParticipant`: its identity (absent until the server assigns one), its track
      publications and `isSpeaking`. */
  datatype RemoteHandle = RemoteHandle(sid: string, identity: Option<string>, publications: seq<Publication>, speaking: bool)

  /** LiveKit's `ConnectionQuality`. */
  datatype Quality = Unknown | Excellent | Good | Poor | Lost

  /** LiveKit's `ConnectionState`. */
  datatype ConnectionState = Disconnected | Connecting | Reconnecting | Connected

  /** A `Room`: its local participant and its remote participants, in the order the
      `remoteParticipants` dictionary yields them. */
  datatype Room = Room(local: LocalHandle, remotes: seq<RemoteHandle>)

  /** `remoteParticipants.values.first { $0.identity?.stringValue == uid }`. */
  function FirstWithIdentity(remotes: seq<RemoteHandle>, uid: string): (r: Option<RemoteHandle>)
    ensures r.Some? ==> r.value in remotes && r.value.identity == Some(uid)
    ensures r.None? <==> forall i :: 0 <= i < |remotes| ==> remotes[i].identity != Some(uid)
  {
    if remotes == [] then None
    else if remotes[0].identity == Some(uid) then Some(remotes[0])
    else FirstWithIdentity(remotes[1..], uid)
  }

  /** The identities the transport participants carry. */
  function Identities(remotes: seq<RemoteHandle>): (ids: set<string>)
    decreases |remotes|
  {
    if remotes == [] then {}
    else
      var rest := Identities(remotes[1..]);
      match remotes[0].identity
      case Some(id) => {id} + rest
      case None => rest
  }

  /** A uid is among the identities exactly when a participant carrying it can be found. */
  lemma {:induction false} IdentitiesFind(remotes: seq<RemoteHandle>)
    ensures forall uid :: uid in Identities(remotes) <==> FirstWithIdentity(remotes, uid).Some?
    decreases |remotes|
  {
    if remotes != [] {
      IdentitiesFind(remotes[1..]);
    }
  }
}

=== FILE: video.dfy ===
/** Local video statistics (`entity/VideoInfo.swift`) and their delivery to video-info listeners
    (`manager/RoomManager.swift`). */
module Video {
  import opened Optional
  import opened Text
  import L = Listeners

  /** `VideoInfo`. The frame rate is a `Double` in the source; it only takes part in equality. */
  datatype VideoInfo = VideoInfo(
    width: int,
    height: int,
    bitrate: int,
    frameRate: real,
    layerId: Option<string>,
    qualityLimitationReason: Option<string>)

  /** `VideoInfo.empty`. */
  function Empty(): (v: VideoInfo)
    ensures v.width == 0 && v.height == 0 && v.bitrate == 0 && v.frameRate == 0.0
    ensures v.layerId.None? && v.qualityLimitationReason.None?
  {
    VideoInfo(0, 0, 0, 0.0, None, None)
  }

  /** `isValid`: both dimensions positive. */
  predicate IsValid(v: VideoInfo)
  {
    v.width > 0 && v.height > 0
  }

  /** The empty statistics are not valid, and a valid value is never the empty one. */
  lemma EmptyIsInvalid(v: VideoInfo)
    ensures !IsValid(Empty())
    ensures IsValid(v) ==> v != Empty()
  {
  }

  /** `resolutionString`: width, `x`, height, each as Swift interpolates an `Int`. */
  function ResolutionString(v: VideoInfo): (s: string)
    ensures |s| >= 3 && 'x' in s
  {
    IntString(v.width) + "x" + IntString(v.height)
  }

  /** Splits at the first occurrence of `c`. */
  function SplitFirst(s: string, c: char): (r: Option<(string, string)>)
    ensures r.Some? ==> c !in r.value.0 && s == r.value.0 + [c] + r.value.1
    ensures r.None? <==> c !in s
    decreases |s|
  {
    if s == [] then None
    else if s[0] == c then Some(([], s[1..]))
    else
      match SplitFirst(s[1..], c)
      case None => None
      case Some(p) => Some(([s[0]] + p.0, p.1))
  }

  /** The first `c` of `a + [c] + b` is the one after `a` when `a` has none. */
  lemma {:induction false} SplitFirstAfter(a: string, c: char, b: string)
    requires c !in a
    ensures SplitFirst(a + [c] + b, c) == Some((a, b))
    decreases |a|
  {
    if a == [] {
      assert a + [c] + b == [c] + b;
    } else {
      assert (a + [c] + b)[1..] == a[1..] + [c] + b;
      SplitFirstAfter(a[1..], c, b);
      assert [a[0]] + a[1..] == a;
    }
  }

  /** Reads a resolution written as `resolutionString` writes it. */
  function ParseResolution(s: string): Option<(int, int)>
  {
    match SplitFirst(s, 'x')
    case None => None
    case Some(p) =>
      match (ParseInt(p.0), ParseInt(p.1))
      case (Some(w), Some(h)) => Some((w, h))
      case _ => None
  }

  /** The resolution string gives back both dimensions. */
  lemma ResolutionRoundTrip(v: VideoInfo)
    ensures ParseResolution(ResolutionString(v)) == Some((v.width, v.height))
  {
    SplitFirstAfter(IntString(v.width), 'x', IntString(v.height));
    IntStringRoundTrip(v.width);
    IntStringRoundTrip(v.height);
  }

  /** `bitrateString` for rates below one million: whole kilobits per second (integer
      division) from 1000 on, bits per second below. The megabit form is a `Double` rendered
      with one decimal and is `None` here. */
  function BitrateString(bitrate: int): (s: Option<string>)
    ensures s.None? <==> bitrate >= 1000000
  {
    if bitrate >= 1000000 then None
    else if bitrate >= 1000 then Some(IntString(bitrate / 1000) + " Kbps")
    else Some(IntString(bitrate) + " bps")
  }

  predicate EndsWith(s: string, suffix: string)
  {
    |suffix| <= |s| && s[|s| - |suffix|..] == suffix
  }

  /** Reads a rate written as `bitrateString` writes it, in bits per second. */
  function ParseBitrate(s: string): Option<int>
  {
    if EndsWith(s, " Kbps") then
      match ParseInt(s[..|s| - 5])
      case Some(k) => Some(k * 1000)
      case None => None
    else if EndsWith(s, " bps") then ParseInt(s[..|s| - 4])
    else None
  }

  /** The rate string gives back the rate, exactly below 1000 and rounded down to whole
      kilobits from 1000 on; the kilobit figure is between 1 and 999. */
  lemma BitrateRoundTrip(bitrate: int)
    requires bitrate < 1000000
    ensures ParseBitrate(BitrateString(bitrate).value) == Some(if bitrate >= 1000 then bitrate - bitrate % 1000 else bitrate)
    ensures bitrate >= 1000 ==> 1 <= bitrate / 1000 <= 999
  {
    var s := BitrateString(bitrate).value;
    if bitrate >= 1000 {
      var n := IntString(bitrate / 1000);
      assert s[..|s| - 5] == n;
      IntStringRoundTrip(bitrate / 1000);
    } else {
      var n := IntString(bitrate);
      assert s[|s| - 5..] != " Kbps" by {
        if |s| >= 5 { assert s[|s| - 4] == ' '; }
      }
      assert s[..|s| - 4] == n;
      IntStringRoundTrip(bitrate);
    }
  }

  // ---------------------------------------------------------------------------------------------
  // Video-info listeners

  /** A registration, and the deliveries made to the new listener at once. */
  datatype Subscribed = Subscribed(added: L.Added<()>, delivered: seq<VideoInfo>)

  /** `addVideoInfoListener(_:)`: file the listener and hand it the current statistics at once
      when they are valid. */
  function AddVideoInfoListener(reg: L.Registry<()>, current: VideoInfo): (s: Subscribed)
    requires L.WellKeyed(reg)
    ensures L.WellKeyed(s.added.reg) && s.added.token.key.Some?
    ensures s.added.token.key.value !in reg.entries
    ensures s.added.reg.entries == reg.entries[s.added.token.key.value := ()]
    ensures |s.delivered| <= 1 && (forall v :: v in s.delivered ==> v == current)
    ensures s.delivered != [] <==> IsValid(current)
  {
    Subscribed(L.Add(reg, ()), if IsValid(current) then [current] else [])
  }

  /** The current statistics after a report, and the listeners it was delivered to. */
  datatype Reported = Reported(current: VideoInfo, notified: set<nat>)

  /** `notifyVideoInfoChanged(_:)`: a report equal to the current statistics is dropped;
      otherwise it becomes current and goes to every filed listener. */
  function NotifyVideoInfoChanged(reg: L.Registry<()>, current: VideoInfo, info: VideoInfo): (r: Reported)
    ensures r.current == info
    ensures info == current ==> r.notified == {}
    ensures info != current ==> r.notified == reg.entries.Keys
  {
    if info == current then Reported(current, {}) else Reported(info, reg.entries.Keys)
  }

  /** What a report delivered to the listener filed under `k`. */
  function DeliveredTo(r: Reported, k: nat): seq<VideoInfo>
  {
    if k in r.notified then [r.current] else []
  }

  /** A listener added and then sent a new report receives the current statistics at once, if
      they are valid, and then the new report; an unchanged report reaches nobody, and a new one
      reaches the new listener together with every listener filed before it. */
  lemma SubscribeThenReport(reg: L.Registry<()>, current: VideoInfo, info: VideoInfo)
    requires L.WellKeyed(reg)
    ensures var s := AddVideoInfoListener(reg, current);
            var k := s.added.token.key.value;
            var r := NotifyVideoInfoChanged(s.added.reg, current, info);
            && s.delivered + DeliveredTo(r, k)
               == (if IsValid(current) then [current] else []) + (if info != current then [info] else [])
            && r.notified == (if info == current then {} else reg.entries.Keys + {k})
  {
  }

  /** Reporting the same statistics twice delivers them once. */
  lemma ReportTwiceDeliversOnce(reg: L.Registry<()>, current: VideoInfo, info: VideoInfo)
    ensures var r := NotifyVideoInfoChanged(reg, current, info);
            NotifyVideoInfoChanged(reg, r.current, info) == Reported(info, {})
  {
  }
}
